=== FILE: README.md ===
# Consul agent and UI core, modelled in Dafny

This project models several sequential pieces of Consul and proves properties
about them:

- **The server event stream** (`agent/consul/stream`). A ring buffer of
  events whose size is a power of two, ordered by raft index. It publishes in
  two phases: `PreparePublish`, then `Commit` or `Abort`. It keeps per-topic
  high-water marks and a last truncated index, and offers a non-blocking
  `Next` filtered by topic and key, a binary search over the wrapped ring,
  and snapshot/restore with resizing. The eight-byte frame header that
  precedes each encoded event is modelled too (`agent/structs/stream.go`).
- **The UI's blocking-source registry** (`blocking.js`). At most one live
  source per URI, a set of observer refs per source, and a cache of where a
  closed source had got to. Beside it, the request rewriting and the id
  reconciliation of `DSBlockingEventSource.js`.
- **ACL token persistence**, in the three places that apply it:
  `agent/token/persistence.go`, `agent/token/persisted.go` and
  `agent/tokens.go`. The shared rule lives in module `Tokens`: a persisted
  token takes precedence over the configured one, and only tokens set
  through the API are saved.
- **Connect SNI names** (`agent/connect/sni.go`). Each is proved to decode
  back into its labels.
- **Envoy patch-set config entries**: their validators, nil-safe getters
  and `Normalize`.
- **The two serverless (AWS Lambda) rewriters of xDS resources**:
  - the newer patcher plugin (`agent/xds/internal/serverless_plugin`) and its
    shared configuration (`agent/xds/shared`);
  - the older in-place hack (`agent/xds/serverless_plugin.go`).
- **Service registration in the agent** (`agent/services.go`):
  - validation and defaulting;
  - building check IDs and replacing checks;
  - removal of a service together with its sidecar;
  - reaping of services whose checks have been critical for too long.
- **Small rules**:
  - the `configSource` name mapping (`agent/agent.go`);
  - the UI's status-to-search merge (`convert-status.js`);
  - filter-string building (`to-filter.js`);
  - the pagination arithmetic of the paged collection component.

How the Go and JavaScript code is carried over:

- Code that updates state in place becomes a class with `modifies` clauses:
  the stream, the registry, the token stores, the agent's local state and the
  xDS resource index.
- Each Go `for … range` over a map becomes a loop that picks its next key
  with `:|`, so every result holds whatever order the map is walked in.
- Pure code becomes functions and lemmas.
- Collaborators outside the model are parameters:
  - the msgpack encoder, `net.ParseIP` and `CheckType.Validate`;
  - the meta validator and the SNI function;
  - the Envoy protobuf rewriters, `sidecarServiceID` and the UI's
    `ucfirst`.

The Go integer types appear as bounded subset types where the bound matters
(`uint16`, `uint32`). Raft indexes are unbounded naturals.

## Model

| member | source | states |
|---|---|---|
| StreamFrame.Uint16RoundTrip | agent/structs/stream.go:35-36 | Decoding a big-endian 16-bit encoding gives back the value, and every two-byte string is the encoding of what it decodes to |
| StreamFrame.Uint32RoundTrip | agent/structs/stream.go:34 | The same round trip for the four-byte big-endian encoding of a 32-bit length |
| StreamFrame.EncodeHeader | agent/structs/stream.go:34-36 | A header encodes to exactly `StreamFrameHeaderLen` (8) bytes |
| StreamFrame.WriteBytes | agent/structs/stream.go:30-38 | A buffer shorter than 8 bytes is an error and is left untouched. Otherwise bytes 0-7 become Len, then Type, then Flags, big-endian, and no byte from position 8 on changes |
| StreamFrame.ReadBytes | agent/structs/stream.go:40-48 | Fails exactly when fewer than 8 bytes are given. On success the decoded header encodes to the first 8 bytes |
| StreamFrame.ReadWriteRoundTrip | agent/structs/stream.go:30-48 | Reading back a written header recovers Len, Type and Flags, whatever bytes follow |
| EventRing.NextPowerOf2 | agent/consul/stream/stream.go:401-439 | The result is a power of two that is at least 2. It is 128 when size < 2 or size > 2^31; otherwise size <= r < 2·size, which makes it the smallest power of two at or above size |
| EventRing.MaskMod | agent/consul/stream/stream.go:361 | The slot `x & sizeMask` of a power-of-two ring equals `x % size` |
| EventRing.MaskSucc | agent/consul/stream/stream.go:344 | The slot after the one `x` names is the one `x + 1` names, wrapping to 0 after the last slot |
| EventRing.Oldest | agent/consul/stream/stream.go:354-362 | The oldest slot is a slot of the ring: 0 before the first wrap, `writeCount & sizeMask` after |
| EventRing.View | agent/consul/stream/stream.go:101-137 | The readable window holds min(writeCount, size) events, read from the oldest slot round the ring |
| EventRing.ViewAt | agent/consul/stream/stream.go:354-362 | The k-th readable event sits k slots after `oldestIdx`, wrapping around the ring |
| EventRing.ViewFirst | agent/consul/stream/stream.go:354-362 | The oldest readable event sits in slot `oldestIdx` |
| EventRing.LastSlot | agent/consul/stream/stream.go:123-137 | The newest readable event sits in slot `(writeCount-1) & sizeMask` |
| EventRing.RingAfter | agent/consul/stream/stream.go:196-205 | A commit leaves min(n + 1, capacity) readable events, the newest being the committed one |
| EventRing.ViewCommit | agent/consul/stream/stream.go:196-205 | Writing slot `writeCount & sizeMask` and counting the write appends the event to the readable window, dropping the oldest once the ring is full |
| EventRing.ViewFilled | agent/consul/stream/snapshot.go:84-87 | Filling the first n slots of a fresh ring makes exactly those n events readable |
| EventRing.RingOfKeepsNewest | agent/consul/stream/stream.go:185-227 | After any run of commits into an empty ring of capacity `cap`, the ring holds the newest `cap` events, in publication order |
| EventRing.OverflowDropsOldest | agent/consul/stream/stream.go:185-227 | Publishing capacity + 1 events drops exactly the first one |
| EventRing.OrderedSlice | agent/consul/stream/stream.go:107-137 | Any run of a buffer whose indexes strictly increase also has strictly increasing indexes |
| EventRing.OrderedAppend | agent/consul/stream/stream.go:147-150 | An event newer than the newest one keeps the indexes strictly increasing |
| EventRing.LastOfTopicBound | agent/consul/stream/stream.go:210 | Every buffered event of a topic is at or below that topic's newest index |
| EventRing.LastOfTopicDrop | agent/consul/stream/snapshot.go:73-81 | Dropping the oldest events keeps a topic's newest index when one of its events remains; otherwise that index was among the dropped events |
| EventRing.CommitKeepsConsistent | agent/consul/stream/stream.go:185-227 | A commit of an index newer than everything vouched for preserves consistency. Consistency means: indexes strictly increase; every buffered index is above lastTruncatedIndex; every mark is the topic's newest buffered index, or lies before all buffered events; every buffered topic has a mark |
| EventRing.DropKeepsConsistent | agent/consul/stream/snapshot.go:75-81 | Dropping the oldest d events and setting lastTruncatedIndex to the newest dropped index preserves consistency |
| EventRing.MarksOfLookup | agent/consul/stream/snapshot.go:53-54 | After the events are replayed, a topic's mark is its newest replayed index, or else its base mark |
| EventRing.SnapshotMarksRestore | agent/consul/stream/snapshot.go:27-36 | Replaying a consistent, non-empty buffer over the marks below its oldest index rebuilds every mark exactly |
| EventRing.SnapshotPrefixConsistent | agent/consul/stream/snapshot.go:19-58 | A snapshot cut at any non-empty prefix of a consistent buffer, with marks kept and rebuilt as `Snapshot` does, is consistent |
| EventRing.CountUpToBounds | agent/consul/stream/snapshot.go:47-52 | The events counted before the cut are at or below the snapshot index, and the one after them is newer |
| EventRing.CountAtBoundary | agent/consul/stream/stream.go:378-380 | In an ordered buffer, a position that sits between an old-enough event and a newer one is the search result |
| EventRing.ConsistentReadable | agent/consul/stream/stream.go:273-276 | In a consistent stream, no event a reader wants lies beyond the index that reader may wait for (the newest index for All, the topic's mark otherwise) |
| EventRing.ScanFromMeaning | agent/consul/stream/stream.go:333-347 | The scan from position k returns either nothing matching from k on, with the caller's index, or the first matching event |
| EventRing.NextSpecMeaning | agent/consul/stream/stream.go:267-347 | In a consistent stream a read returns ErrIndexTruncated, with the caller's index and a nil payload, exactly when the reader is behind its maximum and index < lastTruncatedIndex. Otherwise it returns the caller's index with no payload when no newer event matches, or else the first newer event whose topic (or All) and key (or "") match |
| EventStream.Frame | agent/consul/stream/stream.go:157-179 | The staged payload is an event frame header announcing the body's length, followed by the body |
| EventStream.SnapshotWellFormed | agent/consul/stream/snapshot.go:19-58 | A snapshot of a consistent, non-empty stream restores into a consistent state |
| EventStream.RestoreConsistent | agent/consul/stream/snapshot.go:73-81 | Keeping only the newest `size` events of a well-formed snapshot keeps what is left consistent |
| EventStream.Stream.constructor | agent/consul/stream/stream.go:83-93 | `New` gives an empty ring of `nextPowerOf2(size)` zeroed slots, with no marks, a zero truncation index and nothing staged |
| EventStream.Stream.Cap | agent/consul/stream/stream.go:95-99 | The capacity is a power of two, at least 2, and never below the number of readable events |
| EventStream.Stream.OldestIdx | agent/consul/stream/stream.go:354-362 | `size` exactly when the ring is empty; otherwise the slot holding the oldest readable event (0 before wrapping, `writeCount & sizeMask` after) |
| EventStream.Stream.MinIndex | agent/consul/stream/stream.go:101-115 | The index of the oldest readable event, or 0 when the ring is empty |
| EventStream.Stream.MaxIndex | agent/consul/stream/stream.go:117-137 | The index of the newest readable event, or 0 when the ring is empty |
| EventStream.Stream.PreparePublish | agent/consul/stream/stream.go:139-183 | An already staged event is an error. An index of 0, or one not above MaxIndex, is an error. An encoder failure is an error after index, topic and key are staged. Otherwise the framed event is staged. No readable event, mark or truncation index changes |
| EventStream.Stream.Commit | agent/consul/stream/stream.go:185-227 | With nothing staged nothing changes. Otherwise: the staged event goes into slot `writeCount & sizeMask`; writeCount goes up by one; the topic's mark becomes the event's index; lastTruncatedIndex becomes the overwritten slot's old index; the stage is cleared; and the readable window gains the event, dropping the oldest once the ring is full |
| EventStream.Stream.Abort | agent/consul/stream/stream.go:229-240 | Only the stage is cleared (a no-op when nothing is staged), so a later `PreparePublish` can succeed |
| EventStream.Stream.Publish | agent/consul/stream/stream.go:242-249 | Succeeds exactly when nothing is staged, the index is positive and above MaxIndex, and encoding succeeds. Then the event is appended as `Commit` does; on failure the readable state is unchanged |
| EventStream.Stream.Replay | agent/consul/stream/snapshot.go:83-87 | Copying events into slots 0..n-1 of a fresh ring sets writeCount to n and makes exactly those events readable |
| EventStream.Stream.SlotsOfContents | agent/consul/stream/stream.go:354-362 | Every readable event sits in the slot its offset from `oldestIdx` names |
| EventStream.SearchAfter | agent/consul/stream/stream.go:378-380 | `sort.Search` over the wrapped ring returns the first offset whose event index exceeds `index`, or n |
| EventStream.Stream.NextBufferIdxAfter | agent/consul/stream/stream.go:367-384 | `size` for an empty ring. Otherwise it is the slot `oldestIdx + i` (wrapping round the ring), where i is the offset at which the ordered events pass `index`. When no readable event is newer than `index`, i is the number of readable events, so the result is `writeCount & sizeMask`: the oldest slot once the ring is full, the next unwritten slot before that |
| EventStream.Stream.ReaderMax | agent/consul/stream/stream.go:273-276 | The index a reader may wait for: MaxIndex for topic All, else the topic's mark (0 when it has none) |
| EventStream.Stream.FirstSlotAfter | agent/consul/stream/stream.go:322-331 | For a reader behind its maximum and past the truncation point, the first round's slot holds the first buffered event newer than `index`, where the read's scan starts |
| EventStream.Stream.ScanVisit | agent/consul/stream/stream.go:333-347 | One round of the scan: the slot holds the k-th readable event, which is past the truncation point; the round either returns it when it matches or goes on at the next slot, which holds the next event |
| EventStream.Stream.ScanOn | agent/consul/stream/stream.go:272-348 | The loop from the k-th readable event returns the first matching event, or the caller's index with no payload once the scan reaches the reader's maximum |
| EventStream.Stream.Next | agent/consul/stream/stream.go:251-348 | The non-blocking read returns exactly what `NextSpec` says, whose meaning `NextSpecMeaning` proves |
| EventStream.Stream.MarksBelow | agent/consul/stream/snapshot.go:27-35 | Whatever order the map is walked in, the result holds exactly the marks below the stream's MinIndex |
| EventStream.Stream.Snapshot | agent/consul/stream/snapshot.go:19-58 | The snapshot holds: the readable events, oldest first, up to the first one past `snapIndex` and never a newer one; the marks below MinIndex, updated with the index of each included event; and lastTruncatedIndex unchanged |
| EventStream.NewFromSnapshot | agent/consul/stream/snapshot.go:65-94 | A nil snapshot is an error. Otherwise: a ring of `nextPowerOf2(size)` slots holds the newest `size` events; lastTruncatedIndex is the newest dropped event's index when some were dropped, else the snapshot's; and the snapshot's marks are installed when present |
| EventStream.SnapshotRoundTrip | agent/consul/stream/snapshot.go:19-94 | Snapshotting a consistent, non-empty stream at or past its newest index and restoring it with the same or a larger size gives back the same readable events, lastTruncatedIndex and marks |
| Blocking.Pop | ui-v2/app/services/blocking.js:54-55 | `pop` returns the last element and the rest, or nothing for an empty array |
| Blocking.Finder | ui-v2/app/services/blocking.js:51-81 | A `*` slug lists the datacenter and is the only call that takes the filter; model `session` finds by node; any other model finds by slug |
| Blocking.FinderDecodes | ui-v2/app/services/blocking.js:51-81 | A path `/dc/model/slug` of slash-free segments is read back into its datacenter, model and slug, and these choose the call |
| Blocking.FirstStatus | ui-v2/app/services/blocking.js:11 | The status of the error's first entry, or nothing when there is none |
| Blocking.RestartWhenAvailable | ui-v2/app/services/blocking.js:7-20 | A first status of exactly `'0'` becomes `client.whenAvailable(e)`; any other error is rethrown |
| Blocking.IfNotBlocking | ui-v2/app/services/blocking.js:31-33 | True exactly when the client settings do not ask for blocking queries |
| Blocking.MaybeCall | ui-v2/app/services/blocking.js:21-30 | The response passes through unchanged, and the callback runs exactly when `what` resolved to true |
| Blocking.Registry.RefsOf | ui-v2/app/services/blocking.js:40 | A source's refs, or the empty set when it has none |
| Blocking.Registry.constructor | ui-v2/app/services/blocking.js:36-40 | The cache, the sources and the refs start empty |
| Blocking.Registry.AddSource | ui-v2/app/services/blocking.js:84-105 | A fresh source for the URI that fetches with `finder`, is seeded from the cache (or `{}`) and listens for its close, becomes the URI's source |
| Blocking.Registry.Open | ui-v2/app/services/blocking.js:82-111 | A URI with a live source gets that same source back; otherwise a new one is made. Either way `ref` joins the source's set of refs, and at most one source per URI stays live |
| Blocking.Registry.SourceClosed | ui-v2/app/services/blocking.js:96-104 | On its first close a source caches `{currentEvent, cursor}` under its URI and leaves `sources`. The listener then detaches, so later closes change nothing |
| Blocking.Registry.FetchResolved | ui-v2/app/services/blocking.js:21-33 | A source's fetch that resolved hands its response on unchanged (`maybeCall`). With the client's blocking setting off (`ifNotBlocking`), the source closes itself, and its listener caches `{currentEvent, cursor}` under the URI and unregisters it. With blocking on, the registry is unchanged. Refs are never touched. The callback is wired up at lines 90-104 |
| Blocking.Registry.Close | ui-v2/app/services/blocking.js:112-119 | A falsy source is a no-op. Otherwise the ref is removed, and the source is closed, with its state cached, exactly when no refs remain |
| DSBlocking.LowerHeadersLast | ui-v2/app/utils/DSBlockingEventSource.js:12-15 | A lower-cased header name maps to the value of the last header carrying it in any case |
| DSBlocking.LowerHeaders | ui-v2/app/utils/DSBlockingEventSource.js:12-15 | The last header is found under its lower-cased name, with its value |
| DSBlocking.LowerHeadersAbsent | ui-v2/app/utils/DSBlockingEventSource.js:12-15 | A name that no header has in any case is absent |
| DSBlocking.QuerySeparator | ui-v2/app/utils/DSBlockingEventSource.js:18 | `?` exactly when the URL has no `?`, else `&` |
| DSBlocking.WithIndex | ui-v2/app/utils/DSBlockingEventSource.js:21 | The URL extended by the separator, then `index=`, then the index |
| DSBlocking.DefaultGetRequest | ui-v2/app/utils/DSBlockingEventSource.js:9-25 | Without an index (null or undefined) the request is unchanged. A positive index appends `?index=N` or `&index=N`. A non-positive one empties the URL. Nothing but the URL changes |
| DSBlocking.DefaultGetRequestCases | ui-v2/app/utils/DSBlockingEventSource.js:16-24 | The three outcomes, one for each kind of index found |
| DSBlocking.ConfigIndexWithoutHeaders | ui-v2/app/utils/DSBlockingEventSource.js:11 | Without response headers, the configuration's index is used |
| DSBlocking.IndexHeaderAnyCase | ui-v2/app/utils/DSBlockingEventSource.js:13-16 | `X-Consul-Index` rewrites the request exactly as `x-consul-index` does |
| DSBlocking.GetRequestFor | ui-v2/app/utils/DSBlockingEventSource.js:28-29 | A configured `getRequest` is used, otherwise `defaultGetRequest` |
| DSBlocking.StaleMeaning | ui-v2/app/utils/DSBlockingEventSource.js:54-65 | An id is unloaded exactly when the previous response had it and the current one does not |
| DSBlocking.Stale | ui-v2/app/utils/DSBlockingEventSource.js:54-65 | Never more ids are unloaded than the previous response had |
| DSBlocking.Reconciler.constructor | ui-v2/app/utils/DSBlockingEventSource.js:38-39 | `previousIds` and `ids` start empty |
| DSBlocking.Reconciler.OnMessage | ui-v2/app/utils/DSBlockingEventSource.js:40-52 | The item's id is appended to `ids` and its record pushed to the store |
| DSBlocking.Reconciler.OnComplete | ui-v2/app/utils/DSBlockingEventSource.js:53-68 | Unloads, in order, every id of `previousIds` absent from `ids`, then sets `previousIds := ids` and `ids := []` |
| ConnectSni.NamespaceOrDefault | agent/connect/sni.go:36-38 | An empty namespace becomes `default`; any other is kept |
| ConnectSni.ServiceLabels | agent/connect/sni.go:40-44 | The labels are an optional subset, then service, namespace, datacenter and `internal` |
| ConnectSni.UpstreamDatacenter | agent/connect/sni.go:20-23 | The upstream's datacenter when non-empty, else the local one |
| ConnectSni.ServiceSNIDecodes | agent/connect/sni.go:35-45 | With dot-free parts, the name splits back into subset (if any), service, namespace (defaulted), datacenter, `internal` and the trust domain's labels |
| ConnectSni.QuerySNIDecodes | agent/connect/sni.go:47-49 | The query name splits into service, `default`, datacenter, `query` and the trust domain's labels |
| ConnectSni.DatacenterSNIDecodes | agent/connect/sni.go:31-33 | The datacenter name splits into the datacenter, `internal` and the trust domain's labels |
| ConnectSni.QueryAndServiceDiffer | agent/connect/sni.go:40-48 | With dot-free labels, a prepared-query name never equals a subset-less service name |
| ConnectSni.ServiceSNISubset | agent/connect/sni.go:40-44 | A non-empty subset only prepends `<subset>.` |
| ConnectSni.ServiceSNIDefaultNamespace | agent/connect/sni.go:36-38 | An empty namespace gives the same name as `default` |
| ConnectSni.UpstreamSNIDecodes | agent/connect/sni.go:19-29 | The upstream name carries the chosen datacenter. A prepared query decodes as a query name; anything else carries the subset and namespace |
| ConnectSni.PreparedQueryIgnoresSubset | agent/connect/sni.go:25-27 | For a prepared query, subset and namespace do not affect the name |
| ConnectSni.TargetSNIDecodes | agent/connect/sni.go:51-53 | A target's name is the service name of its service, subset, namespace and datacenter |
| ConnectSni.DatacenterSNI | agent/connect/sni.go:31-33 | The name is `<dc>.internal.<trust domain>` |
| ConnectSni.ServiceSNI | agent/connect/sni.go:35-45 | The name is `<service>.<namespace>.<dc>.internal.<trust domain>`, with an empty namespace read as `default`. A non-empty subset adds `<subset>.` in front |
| ConnectSni.QuerySNI | agent/connect/sni.go:47-49 | The name is `<service>.default.<dc>.query.<trust domain>` |
| ConnectSni.UpstreamSNI | agent/connect/sni.go:19-29 | The datacenter is the upstream's own when set, else the local one. A prepared query gets the query name in that datacenter; anything else gets the service name, with its subset and namespace |
| ConnectSni.TargetSNI | agent/connect/sni.go:51-53 | The name is the service name of the target's subset, service, namespace and datacenter, spelled out |
| Tokens.ReadTokensFile | agent/token/persistence.go:84-101 | A missing file gives no tokens and no error. An unreadable file gives no tokens and an error. An undecodable one gives what was decoded and an error. A good one gives its tokens |
| Tokens.Pick | agent/token/persistence.go:41-49 | A non-empty persisted token is used with source API; otherwise the configured token is used with source Config |
| Tokens.Saved | agent/token/persistence.go:116-118 | A slot saves its token only when the token is non-empty and its source is API |
| Tokens.SaveAfterLoad | agent/token/persistence.go:40-130 | Saving right after loading writes back exactly the persisted tokens, whatever the configuration |
| Tokens.LoadAfterSave | agent/token/persistence.go:40-130 | Loading the saved record restores every non-empty API token with source API, and falls back to the configuration for the rest |
| Tokens.LoadNothing | agent/tokens.go:21-59 | With no tokens saved, loading installs all four configured tokens with source Config |
| Tokens.Store.UpdateUserToken | agent/token/persistence.go:41-49 | The user slot holds the given token and source; the other three slots are unchanged |
| Tokens.Store.UpdateAgentToken | agent/token/persistence.go:51-59 | The agent slot holds the given token and source; the other three slots are unchanged |
| Tokens.Store.UpdateAgentMasterToken | agent/token/persistence.go:61-69 | The agent master slot holds the given token and source; the other three slots are unchanged |
| Tokens.Store.UpdateReplicationToken | agent/token/persistence.go:71-79 | The replication slot holds the given token and source; the other three slots are unchanged |
| Tokens.Store.LoadSlots | agent/token/persistence.go:40-82 | Each of the four slots is decided on its own by the persisted-first precedence |
| Tokens.Store.ToPersist | agent/token/persistence.go:114-130 | The record holds exactly the non-empty API-sourced tokens |
| TokenPersistence.LoadTokens | agent/token/persistence.go:40-82 | The store's slots become `Loaded(tokens, cfg)` |
| TokenPersistence.FileStore.constructor | agent/token/persistence.go:20-27 | A file store over the given tokens file |
| TokenPersistence.FileStore.Load | agent/token/persistence.go:29-38 | Whatever reading the file gives is loaded, even alongside an error, and the read error is returned |
| TokenPersistence.FileStore.SaveToFile | agent/token/persistence.go:113-143 | The file comes to hold the API-set tokens; a failed write is an error and leaves the file as it was |
| TokenPersistence.FileStore.WithPersistenceLock | agent/token/persistence.go:103-111 | A failing callback's error is returned and nothing is saved; otherwise the store is saved |
| TokenPersisted.LoadFromFile | agent/token/persisted.go:101-125 | With persistence disabled, or a missing file, the result is empty tokens and no error. Otherwise it is the file's tokens and error |
| TokenPersisted.PersistedStore.constructor | agent/token/persisted.go:43-48 | A store with empty slots over the configuration and file |
| TokenPersisted.PersistedStore.SaveToFile | agent/token/persisted.go:147-176 | The file comes to hold the API-set tokens, unless the atomic write fails |
| TokenPersisted.PersistedStore.WithPersistenceLock | agent/token/persisted.go:132-144 | With persistence disabled, only the callback's result is returned and nothing is saved. With it enabled, a failing callback prevents the save |
| TokenPersisted.NewPersistenceStore | agent/token/persisted.go:42-96 | Slots follow the persisted-first precedence, and any load error is returned along with the fully built store |
| TokenPersisted.DisabledUsesConfig | agent/token/persisted.go:101-105 | With persistence disabled, a new store holds exactly the configured tokens, whatever the file says |
| AgentTokens.GetPersistedTokens | agent/tokens.go:72-97 | Empty tokens and no error when persistence is disabled, so a tokens file is ignored. Otherwise it gives exactly `ReadTokensFile`'s tokens and error: none for a missing or stored file, an error for an unreadable or undecodable one |
| AgentTokens.Agent.constructor | agent/tokens.go:14 | An agent over its runtime configuration and tokens file |
| AgentTokens.Agent.LoadTokens | agent/tokens.go:14-63 | Each slot takes the persisted token with source API, or else the configured one with source Config. The persistence error is returned after every slot is loaded |
| AgentTokens.UnreadableFallsBack | agent/tokens.go:15-62 | When the file cannot be read, every slot still gets its configured value and the error is reported |
| ConfigSource.String | agent/agent.go:47-61 | Local is `local` and Remote is `remote` |
| ConfigSource.FromName | agent/agent.go:51-67 | `local` and the empty name give (Local, true), `remote` gives (Remote, true), and anything else gives (Local, false) |
| ConfigSource.FromNameOfString | agent/agent.go:47-67 | `FromName(s.String()) == (s, true)` for both sources |
| ConfigSource.StringOfFromName | agent/agent.go:47-67 | Every known non-empty name is the name of the source it reads as |
| ConfigSource.StringInjective | agent/agent.go:47-50 | Different sources have different names |
| ConvertStatus.StatusTerm | ui-v2/app/utils/routing/convert-status.js:3 | The term is `status:` followed by the status |
| ConvertStatus.ConvertStatus | ui-v2/app/utils/routing/convert-status.js:1-14 | With an empty status, an empty search gives undefined and any other search is returned. A non-empty status whose term is absent is added on a new line and the result is trimmed. A present term leaves the search unchanged |
| ConvertStatus.ConvertStatusIdempotent | ui-v2/app/utils/routing/convert-status.js:3-13 | With a non-empty status the result contains the status term, so converting again changes nothing |
| ToFilter.FindPrefix | ui-v2/app/helpers/to-filter.js:4-8 | The first entry whose key is a prefix of the string, or none |
| ToFilter.ReplaceFirst | ui-v2/app/helpers/to-filter.js:10 | Without an occurrence of the pattern the string is unchanged. Otherwise the result is the string with the pattern's first occurrence, and no earlier one, replaced by the replacement; its length changes by `|rep| - |pat|` |
| ToFilter.Convert | ui-v2/app/helpers/to-filter.js:3-11 | Fails when no key is a prefix. Otherwise the first matching entry's template gets the remainder at its first `%s`, then `ucfirst(remainder)` at its first `%S` |
| ToFilter.RemovePrefix | ui-v2/app/helpers/to-filter.js:9 | Replacing a key that starts the string removes exactly that prefix |
| ToFilter.ConvertUsesFirstMatch | ui-v2/app/helpers/to-filter.js:3-11 | The entry used is the first whose key is a prefix, and key plus remainder is the string |
| ToFilter.ConvertAll | ui-v2/app/helpers/to-filter.js:13-16 | Each value is converted on its own, in order; the first failure aborts |
| ToFilter.ToFilter | ui-v2/app/helpers/to-filter.js:12-18 | The converted clauses joined with ` AND ` |
| ToFilter.ToFilterEmpty | ui-v2/app/helpers/to-filter.js:12-18 | An empty list gives "" |
| ToFilter.ToFilterSingle | ui-v2/app/helpers/to-filter.js:12-18 | One value gives its own clause |
| ToFilter.ToFilterSnoc | ui-v2/app/helpers/to-filter.js:12-18 | One more value appends ` AND ` and its clause |
| PagedCollection.Initial | ui/packages/consul-ui/app/components/paged-collection/index.js:8-11 | The component starts with rect.y = 0 and overflow = 10 |
| PagedCollection.FloorDiv | ui/packages/consul-ui/app/components/paged-collection/index.js:71 | `Math.floor(a / b)`: the greatest integer not above the exact quotient |
| PagedCollection.Slice | ui/packages/consul-ui/app/components/paged-collection/index.js:49 | `Array.prototype.slice` with bounds clamped (and negative ones counted from the end), empty when they cross |
| PagedCollection.Type | ui/packages/consul-ui/app/components/paged-collection/index.js:18-20 | A missing type is `native-scroll` |
| PagedCollection.PerPage | ui/packages/consul-ui/app/components/paged-collection/index.js:22-31 | Virtual scroll gives max(0, visibleItems + 2·overflow); index mode gives the parsed argument; native scroll gives total; an unknown type gives undefined |
| PagedCollection.RowHeight | ui/packages/consul-ui/app/components/paged-collection/index.js:52-54 | The argument, or 70 when it is missing or zero |
| PagedCollection.ItemsBefore | ui/packages/consul-ui/app/components/paged-collection/index.js:68-74 | 0 unless rect.y < 0, in which case floor(−y / rowHeight) |
| PagedCollection.Cursor | ui/packages/consul-ui/app/components/paged-collection/index.js:37-46 | Virtual scroll gives max(0, itemsBefore − overflow); index mode gives (page − 1)·perPage; native scroll gives 0 |
| PagedCollection.Items | ui/packages/consul-ui/app/components/paged-collection/index.js:48-50 | The slice from the cursor to min(total, cursor + perPage) |
| PagedCollection.ItemsAfter | ui/packages/consul-ui/app/components/paged-collection/index.js:76-78 | total − perPage − cursor |
| PagedCollection.StartHeight | ui/packages/consul-ui/app/components/paged-collection/index.js:56-58 | cursor · rowHeight |
| PagedCollection.EndHeight | ui/packages/consul-ui/app/components/paged-collection/index.js:60-62 | itemsAfter · rowHeight |
| PagedCollection.TotalHeight | ui/packages/consul-ui/app/components/paged-collection/index.js:64-66 | startHeight + perPage · rowHeight + endHeight |
| PagedCollection.HeightsPartition | ui/packages/consul-ui/app/components/paged-collection/index.js:56-78 | Whenever the type is known, totalHeight is always total · rowHeight |
| PagedCollection.NativeScrollWholeList | ui/packages/consul-ui/app/components/paged-collection/index.js:18-50 | Native scrolling renders the whole list from cursor 0, with no space above or below |
| PagedCollection.ItemsWithinPage | ui/packages/consul-ui/app/components/paged-collection/index.js:48-50 | Never more items are rendered than perPage |
| PagedCollection.ItemsContiguous | ui/packages/consul-ui/app/components/paged-collection/index.js:48-50 | A page starting inside the list renders the contiguous run from the cursor to the end of the page or of the list |
| PagedCollection.IndexPage | ui/packages/consul-ui/app/components/paged-collection/index.js:26-27 | In index mode, page k is the k-th run of perPage items, cut short at the end of the list |
| PagedCollection.VirtualWindowCoversViewport | ui/packages/consul-ui/app/components/paged-collection/index.js:24-25 | With a positive row height, virtual scrolling renders every row the viewport shows |
| EnvoyPatch.EnvoyPatchSetConfigEntry.constructor | agent/structs/config_entry_envoy_config_patch.go:49-67 | An entry with the given name, version and patches, an empty kind and a zero raft index |
| EnvoyPatch.EnvoyPatchSetConfigEntry.Validate | agent/structs/config_entry_envoy_config_patch.go:128-147 | The checks run in order, and each one's error is reported once the checks before it pass: the meta error, a blank Name, a blank Version, an empty Patches list. The entry is valid exactly when all four pass |
| EnvoyPatch.EnvoyPatchSetConfigEntry.GetEnvoyPatchSetIdentifier | agent/structs/config_entry_envoy_config_patch.go:149-154 | Name and Version are copied exactly |
| EnvoyPatch.ApplyEnvoyPatchSetConfigEntry.constructor | agent/structs/config_entry_envoy_config_patch.go:158-180 | An application with the given name, patch set, apply index and service |
| EnvoyPatch.ApplyEnvoyPatchSetConfigEntry.Validate | agent/structs/config_entry_envoy_config_patch.go:246-273 | The checks run in order, and each one's error is reported once the checks before it pass: meta; a blank Name; a blank patch-set Name; a blank patch-set Version. After those, neither a service nor an index, and both a service and a positive index, are reported exactly in their cases. The entry is valid exactly when all pass, so a negative index with no service passes |
| EnvoyPatch.GetKind | agent/structs/config_entry_envoy_config_patch.go:69-71 | Always the kind constant, whatever the entry holds |
| EnvoyPatch.GetName | agent/structs/config_entry_envoy_config_patch.go:73-79 | "" for a nil entry, else its name |
| EnvoyPatch.GetMeta | agent/structs/config_entry_envoy_config_patch.go:81-86 | nil for a nil entry, else its meta |
| EnvoyPatch.GetEnterpriseMeta | agent/structs/config_entry_envoy_config_patch.go:88-94 | nil for a nil entry, else its enterprise meta |
| EnvoyPatch.GetRaftIndex | agent/structs/config_entry_envoy_config_patch.go:119-125 | A zero index for a nil entry, else its own |
| EnvoyPatch.Normalize | agent/structs/config_entry_envoy_config_patch.go:96-105 | A nil entry is an error. Otherwise Kind becomes the constant and nothing else changes |
| EnvoyPatch.ApplyGetKind | agent/structs/config_entry_envoy_config_patch.go:187-189 | Always the apply kind constant |
| EnvoyPatch.ApplyGetName | agent/structs/config_entry_envoy_config_patch.go:191-197 | "" for a nil entry, else its name |
| EnvoyPatch.ApplyGetMeta | agent/structs/config_entry_envoy_config_patch.go:199-204 | nil for a nil entry, else its meta |
| EnvoyPatch.ApplyGetEnterpriseMeta | agent/structs/config_entry_envoy_config_patch.go:206-212 | nil for a nil entry, else its enterprise meta |
| EnvoyPatch.ApplyGetRaftIndex | agent/structs/config_entry_envoy_config_patch.go:237-243 | A zero index for a nil entry, else its own |
| EnvoyPatch.ApplyNormalize | agent/structs/config_entry_envoy_config_patch.go:214-223 | A nil entry is an error. Otherwise Kind becomes the constant and nothing else changes |
| EnvoyPatch.ApplyingValidSet | agent/structs/config_entry_envoy_config_patch.go:149-154 | An application naming a valid set by its identifier passes both identifier checks |
| XdsShared.TypeUrlsDistinct | agent/xds/shared/shared.go:15-27 | The four type URLs are distinct |
| XdsShared.GetSni | agent/xds/internal/serverless_plugin/servereless_plugin.go:106-122 | "" for a nil chain, a nil match or no server names; otherwise the first server name. The copy at agent/xds/serverless_plugin.go:201-217 is identical |
| XdsShared.ListenerServiceName | agent/xds/internal/serverless_plugin/servereless_plugin.go:28-32 | The text before the listener name's first `:`, or "" when there is none |
| XdsShared.IndexedResources.constructor | agent/xds/shared/shared.go:30-38 | An index holding the given maps |
| XdsShared.EmptyIndex | agent/xds/shared/shared.go:42-47 | Empty maps for exactly the Listener, Route, Cluster and Endpoint types |
| XdsShared.EmptyChildIndex | agent/xds/shared/shared.go:48-51 | Empty maps for exactly the Listener and Cluster types |
| XdsShared.EmptyIndexedResources | agent/xds/shared/shared.go:40-53 | A fresh resource index built from `EmptyIndex` and `EmptyChildIndex` |
| XdsShared.Sub | agent/xds/shared/shared.go:32 | `index[t]`, where a missing type reads as the empty (nil) map |
| XdsShared.RewriteEach | agent/xds/serverless_plugin.go:67-90 | A range loop over one type's entries. Without an error, every entry is replaced by what `f` makes of it and no name is added or removed. With one, the error is the failure of one entry's step, and that entry holds what `left` says the failed step had already changed in place. Every other entry is either as it was or rewritten. No other type changes |
| XdsShared.Observed | agent/xds/shared/shared.go:95-99 | A typical instance is recorded as a connect proxy; any other kind is recorded as itself |
| XdsShared.ObserveKinds | agent/xds/shared/shared.go:91-102 | Exactly the upstream names that have an instance are mapped, each to a kind observed for one of its instances, and never to Typical |
| XdsShared.ProxyKind | agent/xds/shared/shared.go:105-108 | The recorded kind, or a connect proxy when none is recorded |
| XdsShared.ServiceConfigsFor | agent/xds/shared/shared.go:80-88 | Each service's meta is recorded under its name with the kind it is reached through, and its SNI maps back to its name |
| XdsShared.MakeMutateConfiguration | agent/xds/shared/shared.go:69-127 | TrustDomain is "" without roots. Kind and Datacenter are copied. A terminating gateway's services get kind TerminatingGateway. For a connect proxy, a service with an upstream instance gets a kind observed for one of its instances (never Typical), and any other service gets ConnectProxy. Any other kind gives empty maps |
| XdsShared.SnisNameConfiguredServices | agent/xds/shared/shared.go:86-87 | Every SNI mapping names a service that has a configuration |
| XdsShared.SniMapsBack | agent/xds/shared/shared.go:86-87 | When no two services share an SNI, each service's SNI maps back to its own name |
| ServerlessPatcher.MakePatcher | agent/xds/internal/serverless_plugin/servereless_plugin.go:187-215 | Succeeds only when the enabled tag is present and non-empty, the ARN is non-empty and the region is non-empty. Payload passthrough is on exactly when its tag is present with a value other than `false` |
| ServerlessPatcher.PatchersFor | agent/xds/internal/serverless_plugin/servereless_plugin.go:149-161 | A name has a patcher exactly when `makePatcher` accepts its configuration, and the patcher is what it made |
| ServerlessPatcher.GetPatchers | agent/xds/internal/serverless_plugin/servereless_plugin.go:149-161 | Whatever the map order, the loop builds exactly `PatchersFor` |
| ServerlessPatcher.GetPacherBySni | agent/xds/internal/serverless_plugin/servereless_plugin.go:163-178 | An error when the SNI has no service mapping, another when the mapped service has no patcher; otherwise that patcher |
| ServerlessPatcher.ProxyListenerStep | agent/xds/internal/serverless_plugin/servereless_plugin.go:27-42 | A listener whose service (the text before its first `:`) has a patcher is patched; any other is kept |
| ServerlessPatcher.ClusterStep | agent/xds/internal/serverless_plugin/servereless_plugin.go:44-60 | A cluster whose SNI has a patcher is replaced by the patch result, and kept when there is no patcher or patching fails |
| ServerlessPatcher.RouteStep | agent/xds/internal/serverless_plugin/servereless_plugin.go:93-101 | A route whose SNI has a patcher is patched; any other is kept |
| ServerlessPatcher.PatchedFilters | agent/xds/internal/serverless_plugin/servereless_plugin.go:136-141 | Every filter is patched, in order, and the count is kept |
| ServerlessPatcher.PatchedChain | agent/xds/internal/serverless_plugin/servereless_plugin.go:125-142 | A chain whose SNI has no patcher is kept; otherwise its filters are patched |
| ServerlessPatcher.PatchedGatewayListener | agent/xds/internal/serverless_plugin/servereless_plugin.go:124-145 | Every chain is patched in order, and nothing else about the listener changes |
| ServerlessPatcher.PatchTerminatingGatewayListener | agent/xds/internal/serverless_plugin/servereless_plugin.go:124-145 | The two loops compute `PatchedGatewayListener` |
| ServerlessPatcher.GatewayListenerStep | agent/xds/internal/serverless_plugin/servereless_plugin.go:79-91 | A non-Listener value aborts with "error decoding listener"; a listener has its chains patched |
| ServerlessPatcher.PatchConnectProxy | agent/xds/internal/serverless_plugin/servereless_plugin.go:26-60 | Every listener and then every cluster goes through its step, and no other type changes |
| ServerlessPatcher.PatchGatewayListenersAndRoutes | agent/xds/internal/serverless_plugin/servereless_plugin.go:79-101 | A non-listener aborts before the routes. Otherwise every listener and route goes through its step |
| ServerlessPatcher.PatchTerminatingGateway | agent/xds/internal/serverless_plugin/servereless_plugin.go:61-101 | Clusters, then listeners, then routes; only a non-listener gives an error |
| ServerlessPatcher.MutateIndexedResources | agent/xds/internal/serverless_plugin/servereless_plugin.go:22-104 | Patchers are made from the configuration, then the passes of the proxy's kind run. A connect proxy never fails: its listeners and clusters are all rewritten by their steps. A terminating gateway has all its clusters rewritten. It fails, with "error decoding listener", exactly when some listener entry is no listener. Without a failure its listeners and routes are all rewritten. With one, each listener is kept or rewritten and the routes are untouched. Any other kind changes nothing and returns no error |
| ServerlessPatcher.UnpatchedEntriesKept | agent/xds/internal/serverless_plugin/servereless_plugin.go:34-37 | A listener whose service has no patcher, and a cluster or route whose SNI resolves to none, are left unchanged |
| ServerlessPatcher.ListenerWithoutServiceKept | agent/xds/internal/serverless_plugin/servereless_plugin.go:29-37 | A listener name without `:` means the service "", which has no patcher unless a service has that name |
| ServerlessPatcher.PatchedServices | agent/xds/internal/serverless_plugin/servereless_plugin.go:149-199 | A service is patched exactly when its enabled tag is set and it has an ARN and a region |
| ServerlessHack.MakeHackConfiguration | agent/xds/serverless_plugin.go:36-60 | The service metas of a terminating gateway or connect proxy, none for any other kind; kind and datacenter copied; trust domain "" without roots |
| ServerlessHack.MakeServiceNamesToHack | agent/xds/serverless_plugin.go:331-341 | Exactly the services with a non-empty enabled tag, keyed by name |
| ServerlessHack.MakeSnisToHack | agent/xds/serverless_plugin.go:272-283 | The same services, keyed by their SNI |
| ServerlessHack.HackedMetaNonEmpty | agent/xds/serverless_plugin.go:80-83 | Every service to hack has a non-empty meta |
| ServerlessHack.LambdaConfigFor | agent/xds/serverless_plugin.go:243-244 | Payload passthrough is on exactly when the tag equals `true` |
| ServerlessHack.HackedFilters | agent/xds/serverless_plugin.go:229-265 | Non-HCM filters are kept in their original order. An HCM with a typed configuration is rewritten, and one without is dropped. The result is never longer, and a list without an HCM is unchanged |
| ServerlessHack.HackedFiltersFailurePersists | agent/xds/serverless_plugin.go:237-262 | Once a prefix fails, the whole list fails |
| ServerlessHack.HackFilters | agent/xds/serverless_plugin.go:286-326 | The filter loop computes `HackedFilters` |
| ServerlessHack.HackedChain | agent/xds/serverless_plugin.go:220-226 | An unselected chain is kept; otherwise its filters are rewritten with its meta's configuration |
| ServerlessHack.HackedChains | agent/xds/serverless_plugin.go:220-267 | Chain by chain, each result is `HackedChain` of the input, and any failure fails the whole list |
| ServerlessHack.HackedListener | agent/xds/serverless_plugin.go:285-329 | The listener with its chains rewritten, or a failure |
| ServerlessHack.FirstFailingChain | agent/xds/serverless_plugin.go:286-327 | The position where the chain loop stops: every chain before it is rewritten without failing, and the chain at it, if any, fails |
| ServerlessHack.PartialListener | agent/xds/serverless_plugin.go:286-327 | The listener as the hack leaves it in place. On success it is the hacked listener. On failure, the chains before the first failing one are rewritten, and the failing chain and all after it are unchanged. Nothing but the chains differs |
| ServerlessHack.PartialChainsComplete | agent/xds/serverless_plugin.go:219-270 | When no chain fails, the chains left in place are exactly the hacked chains |
| ServerlessHack.PartialChainsIncomplete | agent/xds/serverless_plugin.go:219-270 | When some chain fails, the first failing chain exists, and it and every chain after it are left as they were |
| ServerlessHack.PartialChainsAtFailure | agent/xds/serverless_plugin.go:286-327 | When chain i is the first to fail, the chains left in place are the i rewritten chains followed by the original chains from i on |
| ServerlessHack.HackListener | agent/xds/serverless_plugin.go:219-270 | The chain loop returns `HackedListener`, and leaves the listener in place as `PartialListener`, also when it fails part-way |
| ServerlessHack.ProxyListenerStep | agent/xds/serverless_plugin.go:67-90 | A non-listener gives "error decoding listener". A listener whose service is to be hacked has its chains rewritten, and a failure is "Error hacking listener <name>". Any other listener is kept |
| ServerlessHack.ClusterStep | agent/xds/serverless_plugin.go:94-108 | A non-cluster gives "error decoding cluster". A cluster whose name is an SNI to hack is rebuilt, and a failure is "Error hacking cluster <name>". Any other cluster is kept |
| ServerlessHack.GatewayListenerStep | agent/xds/serverless_plugin.go:130-142 | A non-listener is an error; a listener has the chains of its SNIs to hack rewritten |
| ServerlessHack.ProxyListenerLeft | agent/xds/serverless_plugin.go:84-87 | What a connect proxy's listener entry holds after its step. When the step succeeds, it is the step's result. When it is a non-listener, it is unchanged. When a selected listener's hack fails, it is the listener as `PartialListener` leaves it |
| ServerlessHack.GatewayListenerLeft | agent/xds/serverless_plugin.go:136-139 | What a terminating gateway's listener entry holds after its step. When the step succeeds, it is the step's result. When it is a non-listener, it is unchanged. When the hack fails, it is the listener as `PartialListener` leaves it |
| ServerlessHack.HackConnectProxy | agent/xds/serverless_plugin.go:64-108 | The listener pass, then the cluster pass, with the Lambdas by name and by SNI. It fails exactly when some step of either pass fails. Without a failure, every entry of both passes was rewritten by its step. When the listener pass fails, its error is the failure of one listener's step. That listener holds its chains rewritten up to the failing chain (`ProxyListenerLeft`), every other listener is kept or rewritten, and the clusters are untouched. When only the cluster pass fails, every listener was rewritten, the error is one cluster's failure, that cluster is unchanged, and each other cluster is kept or rewritten |
| ServerlessHack.HackTerminatingGateway | agent/xds/serverless_plugin.go:109-142 | The cluster pass, then the listener pass, with the Lambdas by SNI. It fails exactly when some step of either pass fails. Without a failure, every entry of both passes was rewritten by its step. A failing pass reports one of its steps' failures. The failing entry holds what its step left in place: a cluster is unchanged, and a listener has its chains rewritten up to the failing chain (`GatewayListenerLeft`). Every other entry of that pass is kept or rewritten. A pass before it was completed, and a pass after it never ran |
| ServerlessHack.MutateIndexedResources | agent/xds/serverless_plugin.go:62-145 | The passes of the proxy's kind, with the Lambdas to hack by name and by SNI. It fails exactly when some step fails. Without a failure, every entry of both passes was rewritten by its step. With one, the error is that step's failure, and the earlier pass was completed. The failing entry holds what its step left in place: a listener with its chains rewritten up to the failing chain, or an unchanged cluster. Each other entry of the failing pass is kept or rewritten, and the later pass never ran. Only listeners and clusters ever change, and any other kind changes nothing |
| ServerlessHack.NonLambdaListenerKept | agent/xds/serverless_plugin.go:75-83 | A listener without `:` in its name, or for a service that is not a Lambda, is kept |
| ServerlessHack.UnselectedChainsKept | agent/xds/serverless_plugin.go:220-224 | Chains whose SNI has no meta to hack are kept |
| ServerlessHack.ChainMeta | agent/xds/serverless_plugin.go:220-224 | A connect proxy's listener uses its service's meta for every chain. A gateway chain is selected exactly when its SNI maps to a non-empty meta, and then uses that meta |
| AgentServices.NodeService.SetDefaultTaggedAddresses | agent/services.go:223-240 | The tagged addresses become `DefaultTaggedAddresses` of the old ones |
| AgentServices.FirstCheckError | agent/services.go:127-131 | None exactly when every check definition validates; otherwise the error of the first one that does not |
| AgentServices.CheckFamily | agent/services.go:173-178 | A missing key passes; an address of the wrong family is an error naming the key |
| AgentServices.TaggedAddressErrorAsWritten | agent/services.go:172-197 | None exactly when the LAN and WAN IPv4 addresses parse as IPv4 and the LAN IPv6 address parses as IPv6 (that one is checked twice) |
| AgentServices.TaggedAddressError | agent/services.go:172-197 | Corrected: None exactly when all four tagged addresses present are of their key's family |
| AgentServices.WanIPv6IgnoredAsWritten | agent/services.go:185-196 | As written, the WAN IPv6 entry plays no part in validation |
| AgentServices.WanIPv6Counterexample | agent/services.go:191-196 | A WAN IPv6 entry holding an IPv4 address passes as written and fails once corrected |
| AgentServices.ServiceValidationAccepts | agent/services.go:120-199 | As written, a service is accepted exactly when it has a name, every check definition validates, and its LAN IPv4, WAN IPv4 and LAN IPv6 tagged addresses are of their families; the WAN IPv6 address is never looked at. An unnamed service gets "Service name missing", and a check error is the error of one of its definitions |
| AgentServices.ServiceValidationCorrectedAccepts | agent/services.go:172-197 | Corrected: also the WAN IPv6 address must be IPv6. The corrected validation accepts only what the written one accepts, and the two agree whenever no WAN IPv6 address is given |
| AgentServices.ValidateService | agent/services.go:120-199 | Returns the outcome of `ServiceValidation` as written: "Service name missing" first, then the check error, then the errors of the three tagged addresses it reads. Once named, an empty ID becomes the name. Once the checks pass, nil weights become {1, 1}. No other field changes |
| AgentServices.DefaultTaggedAddresses | agent/services.go:223-240 | Given addresses are kept. Each of the two keys of the service address's family is added with {Address, Port} exactly when it is missing |
| AgentServices.DefaultTaggedAddressesIdempotent | agent/services.go:223-240 | Defaulting twice is defaulting once |
| AgentServices.DefaultsStayValid | agent/services.go:223-240 | The defaults never make valid tagged addresses invalid |
| AgentServices.CheckIdFor | agent/services.go:253-259 | The definition's own ID, or `service:<ID>`, with `:<i+1>` added only when there is more than one definition |
| AgentServices.DefaultCheckIdsDistinct | agent/services.go:253-259 | Two definitions without their own IDs get different IDs |
| AgentServices.HealthCheckFor | agent/services.go:264-289 | The name defaults to `Service '<name>' check`. The status is critical unless the definition sets one. A snapshot entry overrides status and output |
| AgentServices.HealthChecksFor | agent/services.go:252-292 | One check per definition, the i-th built from the i-th definition |
| AgentServices.HealthChecksForService | agent/services.go:252-292 | One check per definition, in order; each names the service, and their IDs are the produced ones |
| AgentServices.ReplacingLeavesProduced | agent/services.go:374-380 | With replacing, the service's checks afterwards are exactly the ones this registration produced |
| AgentServices.AddingKeepsChecks | agent/services.go:374 | Without replacing, no check is removed |
| AgentServices.ReplacedChecksAreProduced | agent/services.go:246-262 | After a replacing registration, the service's checks are exactly the produced ones. Other services' checks change only where a produced ID takes theirs over |
| AgentServices.BuildChecks | agent/services.go:246-292 | Builds `HealthChecksFor` and marks exactly the produced IDs as kept |
| AgentServices.Marked | agent/services.go:262 | The marked map covers the old keys plus the IDs, and the unkept ones are the old unkept minus the IDs |
| AgentServices.WithChecks | agent/services.go:312 | Adds the checks in order, each replacing one with its ID |
| AgentServices.AddServiceRequest.constructor | agent/services.go:58-93 | The request built by `AddService` (or `AddServiceAndReplaceChecks` when replacing): no previous defaults, waiting for central config, and persisting the service config |
| AgentServices.AddServiceRequest.FixupForAddServiceLocked | agent/services.go:45-48 | Clears only persistService and persistDefaults |
| AgentServices.AddServiceRequest.FixupForAddServiceInternal | agent/services.go:50-53 | Clears only previousDefaults and waitForCentralConfig |
| AgentServices.ReapTargetsStep | agent/services.go:432-455 | One more critical check adds its service exactly when it is reapable |
| AgentServices.RemovedBy | agent/services.go:499-572 | Removing a registered, non-empty ID removes it and then, in turn, its sidecar when that was registered as one; an empty or unknown ID removes nothing |
| AgentServices.RemovedByChain | agent/services.go:557-572 | Removing a service removes nothing else but a chain of registered sidecars, each the sidecar of another removed service |
| AgentServices.WithoutChecksOfTwice | agent/services.go:519-549 | Removing the checks of two sets of services in turn is removing those of their union |
| AgentServices.Agent.constructor | agent/agent.go:136-138 | The model's starting local state: no services and no checks, with the given `checkReapAfter` timeouts |
| AgentServices.Agent.AddServiceLocked | agent/services.go:97-116 | A service failing the as-written validation is rejected, and with central config the request goes to the service manager; in both cases `services` and `checks` are unchanged. Otherwise, without persisting its config, the requested service is added. Its name, tags, address, port and sidecar flag are kept in every case, the ID defaults to the name, and nil weights become {1, 1} once the checks pass. The tagged addresses are defaulted. `services` gains exactly this record, and `checks` becomes `RegisteredChecks` of the old checks and the request's definitions. `nodeName` and `checkReapAfter` never change |
| AgentServices.Agent.AddServiceInternal | agent/services.go:203-383 | The tagged addresses are defaulted; the service is stored; the checks become `RegisteredChecks`, which adds the produced checks and, when replacing, removes the service's stale ones |
| AgentServices.Agent.RegisterService | agent/services.go:242-380 | The service is stored under its ID, and the checks become `RegisteredChecks` |
| AgentServices.Agent.RemoveChecks | agent/services.go:374-380 | Exactly the stale checks are removed |
| AgentServices.Agent.RemoveServiceLocked | agent/services.go:499-572 | An empty ID is "ServiceID missing". An unknown service changes nothing. Otherwise the service, its sidecar (when registered as one) and their checks are removed |
| AgentServices.Agent.ReapServicesInternal | agent/services.go:430-468 | Each reaped service appears once, and the set reaped is exactly `ReapTargets`. Afterwards the services are the old ones minus a removed set, which holds every reaped service and otherwise only registered sidecars of removed services. The checks are the old ones minus those of the removed services |

## Left out

- Stream blocking and concurrency are not modelled: `NextBlock`, the `waitCh`/`ctx` waits in `next`, the mutex, the unfinished `block`, and the semaphore. Only the non-blocking path of `next` is modelled.
- The msgpack encoding of events is not modelled. It is a parameter of `PreparePublish` (its bytes, or an encoder failure), and `Payload` buffer reuse is reduced to swapping payloads with the slot.
- EventStream.Stream.Next: requires `ReadableFor`, which every consistent stream satisfies (`ConsistentReadable`). On a stream whose topic mark lies above every buffered event of that topic, the loop at agent/consul/stream/stream.go:272-347 never sees `maxIndex <= index`: it steps on round the ring, carrying the index of each event it passes, and after the newest event it wraps to the oldest. It goes on forever unless that older index falls below `lastTruncatedIndex`, which then reports truncation. The model does not cover such a stream, because its loop would not terminate.
- EventStream.Stream.ScanOn: the truncation check that the source repeats on every round is not repeated, because it cannot fire after the first round in a readable stream.
- EventStream.NewFromSnapshot: requires a non-negative size, and no more kept events than slots; the Go code panics in both cases.
- Raft indexes and `writeCount` are unbounded naturals; 64-bit wrap-around is not modelled.
- ConvertStatus.ConvertStatusIdempotent: requires a status that does not end in white space, because `trim` would cut it from the added term.
- `trim` covers ASCII white space only, and `toLowerCase` covers ASCII letters only.
- `ucfirst` in to-filter.js is a parameter, and a `$` pattern in `String.prototype.replace` is not interpreted.
- PagedCollection.ItemsWithinPage: requires perPage ≥ 0, because no length is at most a negative perPage. The model does not state what a negative perPage renders. JavaScript's `slice` counts a negative end back from the end, so 10 items with perPage -5 on page 1 render the first 5.
- `parseInt` of non-numeric arguments (NaN) is not modelled; page, perPage and rowHeight are integers. The DOM actions `scroll`, `resize` and `connect` are left out; `rect.y` and `visibleItems` are inputs.
- In blocking.js, the event source, the repositories, the settings service and the HTTP client are collaborators outside the model; promises are reduced to their resolved values.
- `DSBlockingEventSource.close` depends on `URL` and `location` and is not modelled. Header values are modelled as a number, null or undefined.
- agent/token/store.go is not part of this model. Its four token slots and their setters are modelled by `Tokens.Store`, from how persistence.go, persisted.go and tokens.go call them. The store's locking, its notifiers and its enterprise tokens are left out.
- For tokens: logging, JSON encoding, locks, `loadEnterpriseTokens` and file paths are not modelled. A tokens file is modelled by what reading it gives.
- Go map iteration order is chosen by the verifier. The xDS and service results are proved for every order.
- The SNI function that agent/xds/shared/shared.go and agent/xds/serverless_plugin.go call takes six arguments, unlike agent/connect/sni.go, so it is a parameter.
- The Envoy protobuf rewriters (the Lambda patcher's `patchCluster`, `patchRoute`, `patchConnectProxyListener`, `patchFilter`, and the hack's cluster rebuild) are parameters.
- The newer plugin's duplicate `patchCluster` call is modelled as a single call, since its first result is discarded.
- `patchRoute` mutates the route in place; it is modelled as replacing the route with its result.
- The upstream endpoints map of a connect proxy is flattened to one list of instance kinds per upstream.
- ACL `CanRead`/`CanWrite` on patch-set entries are not modelled.
- `validateConfigEntryMeta` is a parameter (its error).
- `EnterpriseMeta.Normalize` is a no-op in this tree and is not modelled.
- ServerlessHack.MutateIndexedResources: after an error, the entries the failing pass had already rewritten stay rewritten. The model states which entries may have changed, not which did, because the visiting order of a Go map is not modelled. The failing entry is stated exactly.
- The `fmt.Println` in `hackTerminatingGatewayListener` is not modelled.
- AgentServices: the agent's local state store is not part of this model. Its add and remove operations are modelled as map updates on `services` and `checks`.
- AgentServices: `removeCheckLocked` is not modelled beyond removing the check.
- AgentServices: `sidecarServiceID`, `net.ParseIP` and `CheckType.Validate` are parameters.
- AgentServices: the DNS-name warnings in `validateService` are logging only.
- AgentServices: error texts other than "ServiceID missing" are constructors of `ServiceError`.
- AgentServices: not modelled are the service manager, the persistence and purge of services and checks, the check runners (`addCheck`), `cleanupRegistration`, `rerouteExposedChecks`/`resetExposedChecks`, `loadServices`/`unloadServices`, the reaping timer loop, and the logging of `RemoveService` errors.
- AgentServices.ValidateService models `validateService` as written, so the registration path accepts a WAN IPv6 tagged address of any family; the corrected check is kept beside it.
- AgentServices.Agent.AddServiceInternal: the registration always succeeds, because the failure paths of the store, the check runners and persistence are outside the model.
- The tagged-address key strings (`lan_ipv4` and so on) come from Consul's structs package, which is not part of this model.

## Findings

| source | as written | input that shows it | evidently intended | confidence | as-written member | corrected member |
|---|---|---|---|---|---|---|
| agent/services.go:191-196 | The fourth tagged-address check reads the LAN IPv6 key again, so the WAN IPv6 address is never validated | A service whose only tagged address is `wan_ipv6` → `10.0.0.1:8080` (an IPv4 address) is accepted | Validate `wan_ipv6` as an IPv6 address, like the other three keys | not executed | AgentServices.TaggedAddressErrorAsWritten (with WanIPv6IgnoredAsWritten and WanIPv6Counterexample) | AgentServices.TaggedAddressError (used by ServiceValidationCorrected, see ServiceValidationCorrectedAccepts) |

=== FILE: agent_tokens.dfy ===
// The agent's own copy of the token loading rule, run when the agent starts.

module AgentTokens {
  import opened Wrappers
  import opened Tokens

  /** The runtime configuration fields the loader reads. */
  datatype RuntimeConfig = RuntimeConfig(
    aclEnableTokenPersistence: bool,
    dataDir: string,
    aclToken: string,
    aclAgentToken: string,
    aclAgentMasterToken: string,
    aclReplicationToken: string)

  function Configured(conf: RuntimeConfig): (r: ConfiguredTokens)
    ensures r.defaultToken == conf.aclToken && r.replication == conf.aclReplicationToken
  {
    ConfiguredTokens(conf.aclToken, conf.aclAgentToken, conf.aclAgentMasterToken, conf.aclReplicationToken)
  }

  /** `getPersistedTokens`: nothing unless persistence is enabled, else the file's tokens and error. */
  function GetPersistedTokens(enabled: bool, file: TokensFile): (r: (PersistedTokens, Option<PersistError>))
    ensures !enabled ==> r == (NoTokens, None)
    ensures enabled ==> r == ReadTokensFile(file)
    ensures enabled && (file.Missing? || file.Stored?) ==> r.1 == None
    ensures enabled && (file.Unreadable? || file.Undecodable?) ==> r.1.Some?
  {
    if !enabled then (NoTokens, None) else ReadTokensFile(file)
  }

  /** The agent's token store, its configuration and the tokens file in its data directory. */
  class Agent {
    const tokens: Store
    const config: RuntimeConfig
    var tokensFile: TokensFile

    constructor(config: RuntimeConfig, tokensFile: TokensFile)
      ensures this.config == config && this.tokensFile == tokensFile && fresh(tokens)
    {
      this.tokens := new Store();
      this.config := config;
      this.tokensFile := tokensFile;
    }

    /**
     * `loadTokens`: whether to read the file follows the agent's own
     * configuration, the configured tokens come from `conf`; the read error
     * is returned after every slot is loaded.
     */
    method LoadTokens(conf: RuntimeConfig) returns (err: Option<PersistError>)
      modifies tokens
      ensures err == GetPersistedTokens(config.aclEnableTokenPersistence, tokensFile).1
      ensures tokens.Current() == Loaded(GetPersistedTokens(config.aclEnableTokenPersistence, tokensFile).0, Configured(conf))
    {
      var (persisted, persistenceErr) := GetPersistedTokens(config.aclEnableTokenPersistence, tokensFile);
      tokens.LoadSlots(persisted, Configured(conf));
      err := persistenceErr;
    }
  }

  /** A file that cannot be read still loads: every slot falls back to the configuration, and the error is reported. */
  lemma UnreadableFallsBack(conf: RuntimeConfig)
    ensures GetPersistedTokens(true, Unreadable).1.Some?
    ensures Loaded(GetPersistedTokens(true, Unreadable).0, Configured(conf)) ==
      Slots(Slot(conf.aclToken, TokenSourceConfig), Slot(conf.aclAgentToken, TokenSourceConfig),
            Slot(conf.aclAgentMasterToken, TokenSourceConfig), Slot(conf.aclReplicationToken, TokenSourceConfig))
  {
    LoadNothing(Configured(conf));
  }
}

=== FILE: blocking.dfy ===
// The UI service that shares one blocking event source per URI between the
// components observing it, caches where a closed source got to, and starts a
// reopened source from there.

module Blocking {
  import opened Wrappers
  import opened Strings

  // ---------------------------------------------------------------------
  // Choosing how to fetch a URI

  /**
   * The repository call a source makes: every `model` in a datacenter, the
   * sessions of a node, or one `model` by its slug. `None` is `undefined`,
   * what `shift`/`pop` give on a path with too few segments.
   */
  datatype FetchStrategy =
    | FindAllByDatacenter(model: Option<string>, dc: Option<string>, filter: Option<string>)
    | FindByNode(node: Option<string>, dc: Option<string>)
    | FindBySlug(model: Option<string>, slug: Option<string>, dc: Option<string>)

  /** `Array.prototype.pop`: the last element and what is left. */
  function Pop(s: seq<string>): (r: (Option<string>, seq<string>))
    ensures |s| > 0 ==> r == (Some(s[|s| - 1]), s[..|s| - 1])
    ensures |s| == 0 ==> r == (None, [])
  {
    if |s| == 0 then (None, []) else (Some(s[|s| - 1]), s[..|s| - 1])
  }

  /**
   * `finder`: of the `/`-separated path, the first segment is dropped, the
   * last is the slug, the one before it the model and the next after the
   * dropped one the datacenter. A `*` slug lists the datacenter, and only
   * that call takes the filter.
   */
  function Finder(src: string, filter: Option<string>): (r: FetchStrategy)
    ensures r.FindAllByDatacenter? ==> r.filter == filter
  {
    var temp := Split(src, "/")[1..];
    var (slug, t1) := Pop(temp);
    var (model, t2) := Pop(t1);
    var dc := if |t2| > 0 then Some(t2[0]) else None;
    if slug == Some("*") then FindAllByDatacenter(model, dc, filter)
    else if model == Some("session") then FindByNode(slug, dc)
    else FindBySlug(model, slug, dc)
  }

  /** `finder` applied to the parts of `uri.split('?filter=')`: the path, then the filter if there is one. */
  function FinderFor(uri: string): (r: FetchStrategy)
  {
    var parts := Split(uri, "?filter=");
    Finder(parts[0], if |parts| > 1 then Some(parts[1]) else None)
  }

  /**
   * A path `/dc/model/slug` of slash-free segments is read back into its
   * datacenter, model and slug, and the slug and model choose the call.
   */
  lemma FinderDecodes(dc: string, model: string, slug: string, filter: Option<string>)
    requires '/' !in dc && '/' !in model && '/' !in slug
    ensures Finder(Join(["", dc, model, slug], "/"), filter) ==
      if slug == "*" then FindAllByDatacenter(Some(model), Some(dc), filter)
      else if model == "session" then FindByNode(Some(slug), Some(dc))
      else FindBySlug(Some(model), Some(slug), Some(dc))
  {
    var parts := ["", dc, model, slug];
    assert forall i :: 0 <= i < |parts| - 1 ==> '/' !in parts[i];
    SplitJoin(parts, '/');
    SplitNone(slug, '/');
    assert Split(Join(parts, "/"), "/") == parts;
  }

  // ---------------------------------------------------------------------
  // What a source does after each fetch

  datatype RequestError = RequestError(status: Option<string>)

  /** An error a fetch rejects with; `errors` missing is the empty list. */
  datatype ErrorEvent = ErrorEvent(errors: seq<RequestError>)

  /** `errors.firstObject.status`. */
  function FirstStatus(e: ErrorEvent): (r: Option<string>)
    ensures |e.errors| == 0 ==> r == None
  {
    if |e.errors| == 0 then None else e.errors[0].status
  }

  /** What a failed fetch leads to: wait for the client to be available again, or rethrow. */
  datatype Recovery = WhenAvailable(event: ErrorEvent) | Rethrow(event: ErrorEvent)

  /** `restartWhenAvailable`: only an aborted request, status `'0'`, is retried; anything else is rethrown. */
  function RestartWhenAvailable(e: ErrorEvent): (r: Recovery)
    ensures r.event == e
    ensures r.WhenAvailable? <==> |e.errors| > 0 && e.errors[0].status == Some("0")
  {
    if FirstStatus(e) == Some("0") then WhenAvailable(e) else Rethrow(e)
  }

  /** `ifNotBlocking`: the client setting's `blocking` flag, negated (a missing flag is `false`). */
  function IfNotBlocking(blocking: bool): (r: bool)
    ensures r <==> !blocking
  {
    !blocking
  }

  /** `maybeCall`: the response passes through, and the callback runs exactly when `what` resolved to true. */
  function MaybeCall<R>(res: R, what: bool): (r: (R, bool))
    ensures r.0 == res
    ensures r.1 <==> what
  {
    (res, what)
  }

  // ---------------------------------------------------------------------
  // The registry

  /** Where a closed source got to: its last event and its cursor. */
  datatype Cached<E> = Cached(currentEvent: E, cursor: int)

  /**
   * The module-level `sources`, `refs` and `cache`, with sources named by
   * the order they were created in. Per source it records the URI it serves,
   * the fetch its callback makes, the configuration it was seeded with, and
   * whether its close listener is still attached.
   */
  class Registry<E> {
    var sources: map<string, nat>
    var refs: map<nat, set<nat>>
    var cache: map<string, Cached<E>>
    var uriOf: seq<string>
    var fetchOf: seq<FetchStrategy>
    var seedOf: seq<Option<Cached<E>>>
    var listening: seq<bool>

    /**
     * At most one live source per URI: each URI's source serves that URI
     * and still listens for its close, and a listening source is the one
     * registered for its URI. A source only has a ref set while it has refs.
     */
    ghost predicate Valid()
      reads this
    {
      |uriOf| == |fetchOf| == |seedOf| == |listening| &&
      (forall u :: u in sources ==> sources[u] < |uriOf| && uriOf[sources[u]] == u && listening[sources[u]]) &&
      (forall s :: 0 <= s < |listening| && listening[s] ==> uriOf[s] in sources && sources[uriOf[s]] == s) &&
      (forall s :: s in refs ==> refs[s] != {})
    }

    /** `refs.get(s)`, the empty set when there is none. */
    function RefsOf(s: nat): (r: set<nat>)
      reads this
      ensures s in refs ==> r == refs[s]
      ensures s !in refs ==> r == {}
    {
      if s in refs then refs[s] else {}
    }

    constructor()
      ensures Valid()
      ensures sources == map[] && refs == map[] && cache == map[] && uriOf == []
    {
      sources, refs, cache := map[], map[], map[];
      uriOf, fetchOf, seedOf, listening := [], [], [], [];
    }

    /** A new source for `uri`, fetching with `finder` and seeded from the cache; it is registered as the URI's source. */
    method AddSource(uri: string) returns (s: nat)
      requires Valid() && uri !in sources
      modifies this
      ensures Valid()
      ensures s == |old(uriOf)| && uriOf == old(uriOf) + [uri] && fetchOf == old(fetchOf) + [FinderFor(uri)]
      ensures seedOf == old(seedOf) + [if uri in cache then Some(cache[uri]) else None]
      ensures listening == old(listening) + [true]
      ensures sources == old(sources)[uri := s] && refs == old(refs) && cache == old(cache)
    {
      var cb := FinderFor(uri);
      var configuration := if uri in cache then Some(cache[uri]) else None;
      s := |uriOf|;
      uriOf, fetchOf, seedOf, listening := uriOf + [uri], fetchOf + [cb], seedOf + [configuration], listening + [true];
      sources := sources[uri := s];
    }

    /**
     * `open`: the URI's live source, or else a new one that fetches with
     * `finder` and starts from the cached configuration; `ref` is added to
     * the source's refs either way.
     */
    method Open(uri: string, ref: nat) returns (s: nat)
      requires Valid()
      modifies this
      ensures Valid()
      ensures uri in old(sources) ==> (s == old(sources)[uri] && uriOf == old(uriOf) &&
        fetchOf == old(fetchOf) && seedOf == old(seedOf) && listening == old(listening))
      ensures uri !in old(sources) ==> (s == |old(uriOf)| && uriOf == old(uriOf) + [uri] &&
        fetchOf == old(fetchOf) + [FinderFor(uri)] &&
        seedOf == old(seedOf) + [if uri in cache then Some(cache[uri]) else None] &&
        listening == old(listening) + [true])
      ensures sources == old(sources)[uri := s]
      ensures refs == old(refs)[s := old(RefsOf(s)) + {ref}]
      ensures cache == old(cache)
    {
      if uri in sources {
        s := sources[uri];
      } else {
        s := AddSource(uri);
      }
      refs := refs[s := RefsOf(s) + {ref}];
    }

    /**
     * The close listener: the first time source `s` closes, where it got to
     * is cached under its URI and it leaves `sources`; the listener then
     * removes itself, so later closes change nothing.
     */
    method SourceClosed(s: nat, currentEvent: E, cursor: int)
      requires Valid() && s < |uriOf|
      modifies this
      ensures Valid()
      ensures old(listening[s]) ==> (cache == old(cache)[old(uriOf[s]) := Cached(currentEvent, cursor)] &&
        sources == old(sources) - {old(uriOf[s])} && listening == old(listening)[s := false])
      ensures !old(listening[s]) ==> cache == old(cache) && sources == old(sources) && listening == old(listening)
      ensures refs == old(refs) && uriOf == old(uriOf) && fetchOf == old(fetchOf) && seedOf == old(seedOf)
    {
      if listening[s] {
        var uri := uriOf[s];
        cache := cache[uri := Cached(currentEvent, cursor)];
        sources := sources - {uri};
        listening := listening[s := false];
      }
    }

    /**
     * A fetch of source `s` that resolved with `res`: the source's callback
     * hands `res` on through `maybeCall(close, ifNotBlocking(settings))`, so
     * with blocking queries switched off the source closes itself and its
     * close listener caches where it got to and unregisters it; with them on
     * nothing changes. Refs are untouched either way.
     */
    method FetchResolved<R>(s: nat, res: R, blocking: bool, currentEvent: E, cursor: int) returns (r: R)
      requires Valid() && s < |uriOf|
      modifies this
      ensures r == res
      ensures Valid()
      ensures !blocking && old(listening[s]) ==>
        (cache == old(cache)[old(uriOf[s]) := Cached(currentEvent, cursor)] &&
        sources == old(sources) - {old(uriOf[s])} && listening == old(listening)[s := false])
      ensures blocking || !old(listening[s]) ==> (cache == old(cache) && sources == old(sources) && listening == old(listening))
      ensures refs == old(refs) && uriOf == old(uriOf) && fetchOf == old(fetchOf) && seedOf == old(seedOf)
    {
      var call := MaybeCall(res, IfNotBlocking(blocking));
      if call.1 {
        SourceClosed(s, currentEvent, cursor);
      }
      r := call.0;
    }

    /**
     * `close`: `ref` stops observing `s`, and `s` is closed exactly when
     * none are left. `currentEvent` and `cursor` are where the source has
     * got to, read by the close listener.
     */
    method Close(s: Option<nat>, ref: nat, currentEvent: E, cursor: int)
      requires Valid() && (s.Some? ==> s.value < |uriOf|)
      modifies this
      ensures Valid()
      ensures s.None? ==> refs == old(refs) && sources == old(sources) && cache == old(cache) && listening == old(listening)
      ensures s.Some? && old(RefsOf(s.value)) - {ref} != {} ==>
        (refs == old(refs)[s.value := old(RefsOf(s.value)) - {ref}] &&
        sources == old(sources) && cache == old(cache) && listening == old(listening))
      ensures s.Some? && old(RefsOf(s.value)) - {ref} == {} ==> refs == old(refs) - {s.value}
      ensures s.Some? && old(RefsOf(s.value)) - {ref} == {} && old(listening[s.value]) ==>
        (cache == old(cache)[old(uriOf[s.value]) := Cached(currentEvent, cursor)] &&
        sources == old(sources) - {old(uriOf[s.value])} && listening == old(listening)[s.value := false])
      ensures s.Some? && old(RefsOf(s.value)) - {ref} == {} && !old(listening[s.value]) ==>
        cache == old(cache) && sources == old(sources) && listening == old(listening)
      ensures uriOf == old(uriOf) && fetchOf == old(fetchOf) && seedOf == old(seedOf)
    {
      if s.Some? {
        var left := RefsOf(s.value) - {ref};
        if left == {} {
          refs := refs - {s.value};
          SourceClosed(s.value, currentEvent, cursor);
        } else {
          refs := refs[s.value := left];
        }
      }
    }
  }
}

=== FILE: common.dfy ===
// Shared value types and string helpers used by the models of the Go agent
// and of the JavaScript UI.

module Wrappers {
  datatype Option<+T> = None | Some(value: T) {
    function GetOr(default: T): (r: T)
      ensures Some? ==> r == value
      ensures None? ==> r == default
    {
      match this
      case None => default
      case Some(v) => v
    }
  }

  datatype Result<+T, +E> = Success(value: T) | Failure(error: E)

  /** Go's zero-value read of a map: a missing key reads as `zero`. */
  function Lookup<K, V>(m: map<K, V>, k: K, zero: V): (r: V)
    ensures k in m ==> r == m[k]
    ensures k !in m ==> r == zero
  {
    if k in m then m[k] else zero
  }
}

module Strings {
  /** `t` occurs in `s` starting at position `i`. */
  predicate OccursAt(s: string, t: string, i: int)
  {
    0 <= i && i + |t| <= |s| && s[i..i + |t|] == t
  }

  ghost predicate Contains(s: string, t: string)
  {
    exists i :: OccursAt(s, t, i)
  }

  predicate StartsWith(s: string, p: string)
  {
    |p| <= |s| && s[..|p|] == p
  }

  /** JavaScript `s.indexOf(t, from)`: the first occurrence at or after `from`, or -1. */
  function IndexOfFrom(s: string, t: string, from: nat): (r: int)
    ensures r == -1 || (from <= r && OccursAt(s, t, r))
    decreases |s| - from
  {
    if from + |t| > |s| then -1
    else if s[from..from + |t|] == t then from
    else IndexOfFrom(s, t, from + 1)
  }

  /** `indexOf` finds any occurrence at or after `from`, so it reports the first one. */
  lemma {:induction false} IndexOfFromFinds(s: string, t: string, from: nat, j: int)
    requires from <= j && OccursAt(s, t, j)
    ensures 0 <= IndexOfFrom(s, t, from) <= j
    decreases |s| - from
  {
    if from + |t| <= |s| && s[from..from + |t|] != t {
      assert from != j;
      IndexOfFromFinds(s, t, from + 1, j);
    }
  }

  /** JavaScript `s.indexOf(t)`. */
  function IndexOf(s: string, t: string): (r: int)
    ensures r == -1 || OccursAt(s, t, r)
  {
    IndexOfFrom(s, t, 0)
  }

  /** No occurrence of `t` lies before the one `s.indexOf(t)` reports. */
  lemma IndexOfEarliest(s: string, t: string)
    ensures IndexOf(s, t) != -1 ==> forall j :: 0 <= j < IndexOf(s, t) ==> !OccursAt(s, t, j)
  {
    forall j | 0 <= j < IndexOf(s, t) && OccursAt(s, t, j)
      ensures false
    {
      IndexOfFromFinds(s, t, 0, j);
    }
  }

  /** `s.indexOf(t) === -1` exactly when `t` does not occur in `s`. */
  lemma IndexOfMissing(s: string, t: string)
    ensures IndexOf(s, t) == -1 <==> !Contains(s, t)
  {
    if Contains(s, t) {
      var j :| OccursAt(s, t, j);
      IndexOfFromFinds(s, t, 0, j);
    }
  }

  /** JavaScript `s.split(sep)` for a non-empty separator. */
  function Split(s: string, sep: string): (r: seq<string>)
    requires |sep| > 0
    ensures |r| >= 1

    decreases |s|
  {
    var i := IndexOf(s, sep);
    if i < 0 then [s] else [s[..i]] + Split(s[i + |sep|..], sep)
  }

  /** JavaScript `parts.join(sep)`. */
  function Join(parts: seq<string>, sep: string): (r: string)
  {
    if |parts| == 0 then ""
    else if |parts| == 1 then parts[0]
    else parts[0] + sep + Join(parts[1..], sep)
  }

  lemma JoinCons(head: string, tail: seq<string>, sep: string)
    requires |tail| >= 1
    ensures Join([head] + tail, sep) == head + sep + Join(tail, sep)
  {
    assert ([head] + tail)[1..] == tail;
  }

  /** Joining one more part adds the separator and the part at the end. */
  lemma {:induction false} JoinSnoc(parts: seq<string>, x: string, sep: string)
    requires |parts| >= 1
    ensures Join(parts + [x], sep) == Join(parts, sep) + sep + x
    decreases |parts|
  {
    if |parts| == 1 {
      assert parts + [x] == [parts[0], x];
    } else {
      assert (parts + [x])[1..] == parts[1..] + [x];
      JoinSnoc(parts[1..], x, sep);
    }
  }

  lemma Reassemble(s: string, t: string, i: int)
    requires OccursAt(s, t, i)
    ensures s == s[..i] + t + s[i + |t|..]
  {
  }

  /** Splitting and joining again with the same separator gives back the string. */
  lemma {:induction false} JoinSplit(s: string, sep: string)
    requires |sep| > 0
    ensures Join(Split(s, sep), sep) == s
    decreases |s|
  {
    var i := IndexOf(s, sep);
    if i >= 0 {
      var rest := s[i + |sep|..];
      JoinSplit(rest, sep);
      var tail := Split(rest, sep);
      JoinCons(s[..i], tail, sep);
      Reassemble(s, sep, i);
    }
  }

  /** A string without the separator splits into itself alone. */
  lemma SplitNone(s: string, sep: char)
    requires sep !in s
    ensures Split(s, [sep]) == [s]
  {
    IndexOfFromAbsent(s, sep, 0);
  }

  /** A character that does not occur is not found from any position. */
  lemma {:induction false} IndexOfFromAbsent(s: string, c: char, from: nat)
    requires c !in s
    ensures IndexOfFrom(s, [c], from) == -1
    decreases |s| - from
  {
    if from + 1 <= |s| {
      assert s[from..from + 1][0] == s[from] != c;
      IndexOfFromAbsent(s, c, from + 1);
    }
  }

  /** Every position `indexOf` passes over before what it finds, or to the end when it finds nothing, holds another character. */
  lemma {:induction false} IndexOfFromSkips(s: string, c: char, from: nat, j: int)
    requires from <= j < |s|
    requires IndexOfFrom(s, [c], from) == -1 || j < IndexOfFrom(s, [c], from)
    ensures s[j] != c
    decreases |s| - from
  {
    assert s[from..from + 1] == [s[from]];
    if from < j {
      IndexOfFromSkips(s, c, from + 1, j);
    }
  }

  /** The string before the first `c`, or the whole string when there is none, holds no `c`. */
  lemma IndexOfFirst(s: string, c: char)
    ensures forall j :: 0 <= j < |s| && (IndexOf(s, [c]) == -1 || j < IndexOf(s, [c])) ==> s[j] != c
  {
    forall j | 0 <= j < |s| && (IndexOf(s, [c]) == -1 || j < IndexOf(s, [c])) ensures s[j] != c {
      IndexOfFromSkips(s, c, 0, j);
    }
  }

  /** A one-character string occurs exactly when the character does. */
  lemma ContainsChar(s: string, c: char)
    ensures Contains(s, [c]) <==> c in s
  {
    if c in s {
      var i :| 0 <= i < |s| && s[i] == c;
      assert OccursAt(s, [c], i);
    }
    if Contains(s, [c]) {
      var i :| OccursAt(s, [c], i);
      assert s[i..i + 1][0] == s[i];
    }
  }

  /** The first separator of `p + sep + rest`, when `p` has none, is the one after `p`. */
  lemma SplitFirst(p: string, sep: char, rest: string)
    requires sep !in p
    ensures Split(p + [sep] + rest, [sep]) == [p] + Split(rest, [sep])
  {
    var s := p + [sep] + rest;
    assert OccursAt(s, [sep], |p|);
    IndexOfFromFinds(s, [sep], 0, |p|);
    var i := IndexOf(s, [sep]);
    assert s[i..i + 1][0] == s[i] == sep;
    assert i == |p|;
    assert s[..i] == p && s[i + 1..] == rest;
  }

  /**
   * Splitting labels joined with a one-character separator gives the labels
   * back, provided none but the last contains the separator; the last one is
   * split in turn.
   */
  lemma {:induction false} SplitJoin(parts: seq<string>, sep: char)
    requires |parts| >= 1
    requires forall i :: 0 <= i < |parts| - 1 ==> sep !in parts[i]
    ensures Split(Join(parts, [sep]), [sep]) == parts[..|parts| - 1] + Split(parts[|parts| - 1], [sep])
    decreases |parts|
  {
    if |parts| > 1 {
      var rest := parts[1..];
      var last := parts[|parts| - 1];
      assert forall i :: 0 <= i < |rest| - 1 ==> sep !in rest[i] by {
        forall i | 0 <= i < |rest| - 1 ensures sep !in rest[i] {
          assert rest[i] == parts[i + 1];
        }
      }
      calc {
        Split(Join(parts, [sep]), [sep]);
        Split(parts[0] + [sep] + Join(rest, [sep]), [sep]);
        { SplitFirst(parts[0], sep, Join(rest, [sep])); }
        [parts[0]] + Split(Join(rest, [sep]), [sep]);
        { SplitJoin(rest, sep); assert rest[|rest| - 1] == last; }
        [parts[0]] + (rest[..|rest| - 1] + Split(last, [sep]));
        { assert parts[..|parts| - 1] == [parts[0]] + rest[..|rest| - 1]; }
        parts[..|parts| - 1] + Split(last, [sep]);
      }
    }
  }

  predicate IsSpace(c: char)
  {
    c == ' ' || c == '\t' || c == '\n' || c == '\r' || c == '\U{B}' || c == '\U{C}'
  }

  function TrimStart(s: string): (r: string)
    ensures |r| <= |s| && r == s[|s| - |r|..]
    ensures |r| > 0 ==> !IsSpace(r[0])
    ensures forall i :: 0 <= i < |s| - |r| ==> IsSpace(s[i])
  {
    if |s| > 0 && IsSpace(s[0]) then TrimStart(s[1..]) else s
  }

  function TrimEnd(s: string): (r: string)
    ensures |r| <= |s| && r == s[..|r|]
    ensures |r| > 0 ==> !IsSpace(r[|r| - 1])
    ensures forall i :: |r| <= i < |s| ==> IsSpace(s[i])
  {
    if |s| > 0 && IsSpace(s[|s| - 1]) then TrimEnd(s[..|s| - 1]) else s
  }

  /** JavaScript `s.trim()` over ASCII white space. */
  function Trim(s: string): (r: string)
  {
    TrimEnd(TrimStart(s))
  }

  /** Trimming a string that neither starts nor ends with white space leaves it alone. */
  lemma TrimUntouched(s: string)
    requires |s| > 0 ==> !IsSpace(s[0]) && !IsSpace(s[|s| - 1])
    ensures Trim(s) == s
  {
  }

  function LowerChar(c: char): (r: char)
    ensures 'A' <= c <= 'Z' ==> r as int == c as int + 32
    ensures !('A' <= c <= 'Z') ==> r == c
  {
    if 'A' <= c <= 'Z' then (c as int + 32) as char else c
  }

  /** A string without upper-case letters is its own lower case. */
  lemma ToLowerNoUpper(s: string)
    requires forall i :: 0 <= i < |s| ==> !('A' <= s[i] <= 'Z')
    ensures ToLower(s) == s
  {
  }

  /** ASCII lower-casing (`String.prototype.toLowerCase` restricted to ASCII letters). */
  function ToLower(s: string): (r: string)
    ensures |r| == |s|
    ensures forall i :: 0 <= i < |s| ==> r[i] == LowerChar(s[i])
  {
    if |s| == 0 then "" else [LowerChar(s[0])] + ToLower(s[1..])
  }

  function DigitChar(d: nat): (r: char)
    requires d < 10
    ensures '0' <= r <= '9'
  {
    ['0', '1', '2', '3', '4', '5', '6', '7', '8', '9'][d]
  }

  /** Decimal rendering of a natural number, as `String(n)` or `%d` print it. */
  function NatToString(n: nat): (r: string)
    ensures |r| >= 1
    ensures forall i :: 0 <= i < |r| ==> '0' <= r[i] <= '9'
  {
    if n < 10 then [DigitChar(n)] else NatToString(n / 10) + [DigitChar(n % 10)]
  }
}

=== FILE: config_source.dfy ===
// Where a service registration's configuration came from, and the names it
// is persisted under.

module ConfigSource {
  import opened Wrappers

  /** Go's `configSource int`: any integer, of which two are named. */
  type ConfigSource = int

  const ConfigSourceLocal: ConfigSource := 0
  const ConfigSourceRemote: ConfigSource := 1

  const configSourceToName: map<ConfigSource, string> := map[ConfigSourceLocal := "local", ConfigSourceRemote := "remote"]

  /** The empty name is the former default and still reads as local. */
  const configSourceFromName: map<string, ConfigSource> :=
    map["local" := ConfigSourceLocal, "remote" := ConfigSourceRemote, "" := ConfigSourceLocal]

  /** `configSource.String`: a missing value reads as the empty string. */
  function String(s: ConfigSource): (r: string)
    ensures s == ConfigSourceLocal ==> r == "local"
    ensures s == ConfigSourceRemote ==> r == "remote"
    ensures s != ConfigSourceLocal && s != ConfigSourceRemote ==> r == ""
  {
    Lookup(configSourceToName, s, "")
  }

  /** `ConfigSourceFromName`: the source and whether the name is known; an unknown name gives the zero source. */
  function FromName(name: string): (r: (ConfigSource, bool))
    ensures r.1 <==> name == "local" || name == "remote" || name == ""
    ensures r.1 ==> r.0 == (if name == "remote" then ConfigSourceRemote else ConfigSourceLocal)
    ensures !r.1 ==> r.0 == 0
  {
    (Lookup(configSourceFromName, name, 0), name in configSourceFromName)
  }

  /** Both named sources survive a trip through their name. */
  lemma FromNameOfString(s: ConfigSource)
    requires s == ConfigSourceLocal || s == ConfigSourceRemote
    ensures FromName(String(s)) == (s, true)
  {
  }

  /** Every known, non-empty name is the name of the source it reads as; the empty name reads as `local`. */
  lemma StringOfFromName(name: string)
    requires FromName(name).1
    ensures String(FromName(name).0) == if name == "" then "local" else name
  {
  }

  /** The names of the two sources differ, so a name identifies its source. */
  lemma StringInjective(s: ConfigSource, t: ConfigSource)
    requires String(s) != "" && String(s) == String(t)
    ensures s == t
  {
  }
}

=== FILE: convert_status.dfy ===
// The UI route helper that folds a `status` query parameter into the search
// text as a `status:<status>` term on a line of its own.

module ConvertStatus {
  import opened Wrappers
  import opened Strings

  /** The search term a status becomes. */
  function StatusTerm(status: string): (r: string)
    ensures |r| == |"status:"| + |status| && r[0] == 's'
  {
    "status:" + status
  }

  /**
   * The default export of `convert-status.js`. Missing arguments are the
   * empty string; `None` is `undefined`. A non-empty status whose term is not
   * yet in the search is added on a new line and the result trimmed;
   * otherwise the search is returned, or `undefined` when it is empty.
   */
  function ConvertStatus(search: string, status: string): (r: Option<string>)
    ensures status == "" ==> r == if search == "" then None else Some(search)
    ensures status != "" && Contains(search, StatusTerm(status)) ==> r == Some(search)
    ensures status != "" && !Contains(search, StatusTerm(status)) ==>
      r == Some(Trim(search + "\n" + StatusTerm(status)))
  {
    var term := StatusTerm(status);
    IndexOfMissing(search, term);
    if status != "" && IndexOf(search, term) == -1 then
      JoinSplit(search, "\n");
      JoinSnoc(Split(search, "\n"), term, "\n");
      Some(Trim(Join(Split(search, "\n") + [term], "\n")))
    else if search == "" then None
    else Some(search)
  }

  /** A string with `t` as its suffix contains `t`. */
  lemma SuffixContains(s: string, t: string)
    requires |t| <= |s| && s[|s| - |t|..] == t
    ensures Contains(s, t)
  {
    assert OccursAt(s, t, |s| - |t|);
  }

  /**
   * Trimming `x + t` keeps all of `t` when `t` starts with a non-space
   * character and ends with one.
   */
  lemma TrimKeepsSuffix(x: string, t: string)
    requires |t| > 0 && !IsSpace(t[0]) && !IsSpace(t[|t| - 1])
    ensures var r := Trim(x + t); |t| <= |r| && r[|r| - |t|..] == t
  {
    var s := x + t;
    var a := TrimStart(s);
    assert s[|x|] == t[0];
    assert |a| >= |t|;
    assert a[|a| - |t|..] == t;
    assert a[|a| - 1] == t[|t| - 1];
    assert TrimEnd(a) == a;
  }

  /**
   * With a non-empty status that does not end in white space, the result
   * always contains the status term, so converting it again changes nothing.
   */
  lemma ConvertStatusIdempotent(search: string, status: string)
    requires status != "" && !IsSpace(status[|status| - 1])
    ensures ConvertStatus(search, status).Some?
    ensures Contains(ConvertStatus(search, status).value, StatusTerm(status))
    ensures ConvertStatus(ConvertStatus(search, status).value, status) == ConvertStatus(search, status)
  {
    var term := StatusTerm(status);
    if !Contains(search, term) {
      assert term[|term| - 1] == status[|status| - 1];
      TrimKeepsSuffix(search + "\n", term);
      assert search + "\n" + term == (search + "\n") + term;
      var r := Trim(search + "\n" + term);
      SuffixContains(r, term);
    }
  }
}

=== FILE: ds_blocking.dfy ===
// The UI's data-store blocking query: how the next request carries the
// blocking index, and how records that disappeared from the latest response
// are unloaded from the store.

module DSBlocking {
  import opened Wrappers
  import opened Strings

  /** A header value as a number: `Null` is a missing (`null` or `undefined`) value. */
  datatype IndexValue = Null | Number(n: int)

  /** Response headers, names in their order. */
  type Headers = seq<(string, IndexValue)>

  /** A request: its URL and everything else, which is copied unchanged. */
  datatype Request<T> = Request(url: string, rest: T)

  const IndexHeader: string := "x-consul-index"

  /**
   * The headers keyed by their lower-cased names; when two names differ
   * only in case, the later header wins.
   */
  function LowerHeaders(h: Headers): (r: map<string, IndexValue>)
    ensures |h| > 0 ==> ToLower(h[|h| - 1].0) in r && r[ToLower(h[|h| - 1].0)] == h[|h| - 1].1
    decreases |h|
  {
    if |h| == 0 then map[]
    else LowerHeaders(h[..|h| - 1])[ToLower(h[|h| - 1].0) := h[|h| - 1].1]
  }

  /** A lower-cased name is found with the value of the last header carrying it. */
  lemma {:induction false} LowerHeadersLast(h: Headers, i: nat)
    requires i < |h|
    requires forall j :: i < j < |h| ==> ToLower(h[j].0) != ToLower(h[i].0)
    ensures ToLower(h[i].0) in LowerHeaders(h) && LowerHeaders(h)[ToLower(h[i].0)] == h[i].1
    decreases |h|
  {
    if i < |h| - 1 {
      var init := h[..|h| - 1];
      assert init[i] == h[i];
      forall j | i < j < |init| ensures ToLower(init[j].0) != ToLower(init[i].0) {
        assert init[j] == h[j];
      }
      LowerHeadersLast(init, i);
    }
  }

  /** A name whose lower-case form no header has is absent. */
  lemma LowerHeadersAbsent(h: Headers, k: string)
    requires forall j :: 0 <= j < |h| ==> ToLower(h[j].0) != k
    ensures k !in LowerHeaders(h)
  {
  }

  /** `?` when the URL has no query yet, `&` to add to the one it has. */
  function QuerySeparator(url: string): (r: string)
    ensures '?' in url ==> r == "&"
    ensures '?' !in url ==> r == "?"
  {
    IndexOfMissing(url, "?");
    ContainsChar(url, '?');
    if IndexOf(url, "?") == -1 then "?" else "&"
  }

  /**
   * The URL with the `index` query parameter added: it extends the URL, and
   * the character after it starts a query or adds to the one there is.
   */
  function WithIndex(url: string, n: nat): (r: string)
    ensures StartsWith(r, url) && |r| > |url|
    ensures r[|url|] == if '?' in url then '&' else '?'
    ensures '?' in r
    ensures r[|url| + 1..] == "index=" + NatToString(n)
  {
    var r := url + QuerySeparator(url) + "index=" + NatToString(n);
    assert r[..|url|] == url;
    assert r[|url|] == QuerySeparator(url)[0];
    assert forall i :: 0 <= i < |url| ==> r[i] == url[i];
    r
  }

  /**
   * `defaultGetRequest`: without response headers the configuration's index
   * stands in for them. When the index header is present the URL gains an
   * `index` query parameter, or becomes empty when the index is not positive;
   * otherwise the request is unchanged.
   */
  function DefaultGetRequest<T>(request: Request<T>, responseHeaders: Option<Headers>, configIndex: IndexValue): (r: Request<T>)
    ensures r.rest == request.rest
  {
    var headers := if responseHeaders.Some? then responseHeaders.value else [(IndexHeader, configIndex)];
    var index := Lookup(LowerHeaders(headers), IndexHeader, Null);
    if index.Null? then request
    else if index.n > 0 then request.(url := WithIndex(request.url, index.n))
    else request.(url := "")
  }

  /** The index the request is rewritten with: the last header named `x-consul-index` in any case. */
  function IndexOfHeaders(responseHeaders: Option<Headers>, configIndex: IndexValue): (r: IndexValue)
  {
    var headers := if responseHeaders.Some? then responseHeaders.value else [(IndexHeader, configIndex)];
    Lookup(LowerHeaders(headers), IndexHeader, Null)
  }

  /** The three outcomes, by the index found. */
  lemma DefaultGetRequestCases<T>(request: Request<T>, responseHeaders: Option<Headers>, configIndex: IndexValue)
    ensures var r := DefaultGetRequest(request, responseHeaders, configIndex);
      var index := IndexOfHeaders(responseHeaders, configIndex);
      (index.Null? ==> r == request) &&
      (index.Number? && index.n > 0 ==> r.url == WithIndex(request.url, index.n)) &&
      (index.Number? && index.n <= 0 ==> r.url == "")
  {
  }

  /** Without response headers, the configuration's index is used. */
  lemma ConfigIndexWithoutHeaders(configIndex: IndexValue)
    ensures IndexOfHeaders(None, configIndex) == configIndex
  {
    assert ToLower(IndexHeader) == IndexHeader by {
      ToLowerNoUpper(IndexHeader);
    }
  }

  /** The header name is matched in any case: a response whose only header is `X-Consul-Index` rewrites like `x-consul-index`. */
  lemma IndexHeaderAnyCase(name: string, v: IndexValue)
    requires ToLower(name) == IndexHeader
    ensures IndexOfHeaders(Some([(name, v)]), Null) == v
  {
    LowerHeadersLast([(name, v)], 0);
  }

  /** `configuration.getRequest` when it is a function, `defaultGetRequest` otherwise. */
  function GetRequestFor<F>(custom: Option<F>, default: F): (r: F)
    ensures custom.Some? ==> r == custom.value
    ensures custom.None? ==> r == default
  {
    custom.GetOr(default)
  }

  // ---------------------------------------------------------------------
  // Reconciling the records of successive responses

  /** The ids of `prev`, in order, that `cur` no longer has. */
  function Stale<Id(==)>(prev: seq<Id>, cur: seq<Id>): (r: seq<Id>)
    ensures |r| <= |prev|
  {
    if |prev| == 0 then []
    else Stale(prev[..|prev| - 1], cur) + (if prev[|prev| - 1] in cur then [] else [prev[|prev| - 1]])
  }

  /** An id is stale exactly when the previous response had it and the current one does not. */
  lemma {:induction false} StaleMeaning<Id>(prev: seq<Id>, cur: seq<Id>, x: Id)
    ensures x in Stale(prev, cur) <==> x in prev && x !in cur
    decreases |prev|
  {
    if |prev| > 0 {
      var init := prev[..|prev| - 1];
      StaleMeaning(init, cur, x);
      assert prev == init + [prev[|prev| - 1]];
    }
  }

  /**
   * The `ids` of the response in progress, those of the last complete one,
   * and the ids the store holds records for.
   */
  class Reconciler<Id(==)> {
    var previousIds: seq<Id>
    var ids: seq<Id>
    var records: set<Id>

    /** Every id of the last complete response and of the one in progress has a record. */
    ghost predicate Valid()
      reads this
    {
      (forall i :: 0 <= i < |previousIds| ==> previousIds[i] in records) &&
      (forall i :: 0 <= i < |ids| ==> ids[i] in records)
    }

    constructor(records: set<Id>)
      ensures Valid()
      ensures previousIds == [] && ids == [] && this.records == records
    {
      previousIds, ids := [], [];
      this.records := records;
    }

    /** `onmessage`: the item's id is noted and its record pushed to the store. */
    method OnMessage(id: Id)
      requires Valid()
      modifies this
      ensures Valid()
      ensures ids == old(ids) + [id] && records == old(records) + {id} && previousIds == old(previousIds)
    {
      ids := ids + [id];
      records := records + {id};
    }

    /**
     * `oncomplete`: the records of the previous response's ids missing from
     * this one are unloaded, in order; this response becomes the previous one.
     */
    method OnComplete() returns (unloaded: seq<Id>)
      requires Valid()
      modifies this
      ensures Valid()
      ensures unloaded == Stale(old(previousIds), old(ids))
      ensures records == old(records) - set x | x in unloaded
      ensures previousIds == old(ids) && ids == []
    {
      unloaded := [];
      var i := 0;
      while i < |previousIds|
        invariant 0 <= i <= |previousIds|
        invariant previousIds == old(previousIds) && ids == old(ids)
        invariant unloaded == Stale(previousIds[..i], ids)
        invariant records == old(records) - set x | x in unloaded
      {
        var id := previousIds[i];
        assert previousIds[..i + 1] == previousIds[..i] + [id];
        if id !in ids {
          unloaded := unloaded + [id];
          records := records - {id};
        }
        i := i + 1;
      }
      assert previousIds[..i] == previousIds;
      forall k | 0 <= k < |ids| ensures ids[k] in records {
        StaleMeaning(previousIds, ids, ids[k]);
      }
      previousIds := ids;
      ids := [];
    }
  }
}

=== FILE: envoy_patch.dfy ===
// The config entries that define a named, versioned set of Envoy patches and
// apply such a set to a service or at an index: their validation,
// normalisation and nil-safe accessors.

module EnvoyPatch {
  import opened Wrappers

  /** `EnvoyPatchSet` and `ApplyEnvoyPatchSet`, the kind names defined with the other config entry kinds; that file is not part of this model. */
  const EnvoyPatchSetKind: string
  const ApplyEnvoyPatchSetKind: string

  const Replace: string := "replace"
  const EntityFilter: string := "filter"
  const EntityCluster: string := "cluster"
  const PatchModeConnectProxy: string := "connect_proxy"
  const PatchModeTerminatingGateway: string := "terminating_gateway"

  /** A patch; `PathMatches` holds JSON values, modelled by their text. */
  datatype Patch = Patch(mode: string, entity: string, patchType: string, path: string, value: string, pathMatches: map<string, string>)

  datatype RaftIndex = RaftIndex(createIndex: nat, modifyIndex: nat)

  /** The name and version that identify a patch set. */
  datatype ApplyEnvoyPatchSetIdentifier = ApplyEnvoyPatchSetIdentifier(name: string, version: string)

  /** The first check `Validate` fails; `MetaInvalid` carries the meta validator's error. */
  datatype ValidationError =
    | MetaInvalid(message: string)
    | NameBlank
    | VersionBlank
    | NoPatches
    | PatchSetNameBlank
    | PatchSetVersionBlank
    | NeitherServiceNorIndex
    | BothServiceAndIndex

  datatype NormalizeError = EntryNil

  /** The enterprise metadata embedded in an entry; without the enterprise features it carries nothing, and normalising it changes nothing. */
  datatype EnterpriseMeta = EnterpriseMeta

  /** `EnvoyPatchSetConfigEntry`; `meta == None` is a nil map. */
  class EnvoyPatchSetConfigEntry {
    var kind: string
    var service: bool
    var name: string
    var version: string
    var meta: Option<map<string, string>>
    var patches: seq<Patch>
    var enterpriseMeta: EnterpriseMeta
    var raftIndex: RaftIndex

    constructor(name: string, version: string, patches: seq<Patch>)
      ensures kind == "" && !service && this.name == name && this.version == version
      ensures meta == None && this.patches == patches && raftIndex == RaftIndex(0, 0)
    {
      kind, service, this.name, this.version := "", false, name, version;
      meta, this.patches, raftIndex, enterpriseMeta := None, patches, RaftIndex(0, 0), EnterpriseMeta;
    }

    /**
     * `Validate`: `metaErr` is what validating the meta map returned. The
     * checks run in order and the first failure is reported.
     */
    function Validate(metaErr: Option<string>): (r: Option<ValidationError>)
      reads this
      ensures r.None? <==> metaErr.None? && name != "" && version != "" && |patches| > 0
      ensures metaErr.Some? ==> r == Some(MetaInvalid(metaErr.value))
      ensures metaErr.None? && name == "" ==> r == Some(NameBlank)
      ensures metaErr.None? && name != "" && version == "" ==> r == Some(VersionBlank)
      ensures metaErr.None? && name != "" && version != "" && |patches| == 0 ==> r == Some(NoPatches)
    {
      if metaErr.Some? then Some(MetaInvalid(metaErr.value))
      else if name == "" then Some(NameBlank)
      else if version == "" then Some(VersionBlank)
      else if |patches| == 0 then Some(NoPatches)
      else None
    }

    /** `GetEnvoyPatchSetIdentifier`: the set's name and version. */
    function GetEnvoyPatchSetIdentifier(): (r: ApplyEnvoyPatchSetIdentifier)
      reads this
      ensures r.name == name && r.version == version
    {
      ApplyEnvoyPatchSetIdentifier(name, version)
    }
  }

  /** `ApplyEnvoyPatchSetConfigEntry`: which patch set to apply, and to a service or at an index. */
  class ApplyEnvoyPatchSetConfigEntry {
    var kind: string
    var name: string
    var envoyPatchSet: ApplyEnvoyPatchSetIdentifier
    var applyIndex: int
    var service: string
    var arguments: Option<map<string, string>>
    var meta: Option<map<string, string>>
    var patches: seq<Patch>
    var enterpriseMeta: EnterpriseMeta
    var raftIndex: RaftIndex

    constructor(name: string, envoyPatchSet: ApplyEnvoyPatchSetIdentifier, applyIndex: int, service: string)
      ensures kind == "" && this.name == name && this.envoyPatchSet == envoyPatchSet
      ensures this.applyIndex == applyIndex && this.service == service
      ensures arguments == None && meta == None && patches == [] && raftIndex == RaftIndex(0, 0)
    {
      kind, this.name, this.envoyPatchSet := "", name, envoyPatchSet;
      this.applyIndex, this.service := applyIndex, service;
      arguments, meta, patches, raftIndex, enterpriseMeta := None, None, [], RaftIndex(0, 0), EnterpriseMeta;
    }

    /**
     * `Validate`: the checks run in order and the first failure is reported.
     * Exactly one of a service and an index must be given, where a zero index
     * is none and, once a service is given, only a positive index counts.
     */
    function Validate(metaErr: Option<string>): (r: Option<ValidationError>)
      reads this
      ensures r.None? <==> (metaErr.None? && name != "" && envoyPatchSet.name != "" && envoyPatchSet.version != "" &&
        (service != "" || applyIndex != 0) && !(service != "" && applyIndex > 0))
      ensures metaErr.Some? ==> r == Some(MetaInvalid(metaErr.value))
      ensures metaErr.None? && name == "" ==> r == Some(NameBlank)
      ensures metaErr.None? && name != "" && envoyPatchSet.name == "" ==> r == Some(PatchSetNameBlank)
      ensures metaErr.None? && name != "" && envoyPatchSet.name != "" && envoyPatchSet.version == "" ==>
        r == Some(PatchSetVersionBlank)
      ensures r == Some(NeitherServiceNorIndex) <==>
        (metaErr.None? && name != "" && envoyPatchSet.name != "" && envoyPatchSet.version != "" &&
        service == "" && applyIndex == 0)
      ensures r == Some(BothServiceAndIndex) <==>
        (metaErr.None? && name != "" && envoyPatchSet.name != "" && envoyPatchSet.version != "" &&
        service != "" && applyIndex > 0)
    {
      if metaErr.Some? then Some(MetaInvalid(metaErr.value))
      else if name == "" then Some(NameBlank)
      else if envoyPatchSet.name == "" then Some(PatchSetNameBlank)
      else if envoyPatchSet.version == "" then Some(PatchSetVersionBlank)
      else if service == "" && applyIndex == 0 then Some(NeitherServiceNorIndex)
      else if service != "" && applyIndex > 0 then Some(BothServiceAndIndex)
      else None
    }
  }

  // ---------------------------------------------------------------------
  // Nil-safe accessors: `None`/`null` is a nil entry

  /** `GetKind`: the kind name, whatever the entry holds. */
  function GetKind(e: EnvoyPatchSetConfigEntry?): (r: string)
    ensures r == EnvoyPatchSetKind
  {
    EnvoyPatchSetKind
  }

  /** `GetName`: the empty name for a nil entry. */
  function GetName(e: EnvoyPatchSetConfigEntry?): (r: string)
    reads e
    ensures e == null ==> r == ""
    ensures e != null ==> r == e.name
  {
    if e == null then "" else e.name
  }

  /** `GetMeta`: a nil map for a nil entry. */
  function GetMeta(e: EnvoyPatchSetConfigEntry?): (r: Option<map<string, string>>)
    reads e
    ensures e == null ==> r == None
    ensures e != null ==> r == e.meta
  {
    if e == null then None else e.meta
  }

  /** `GetEnterpriseMeta`: nil for a nil entry, else the entry's own metadata. */
  function GetEnterpriseMeta(e: EnvoyPatchSetConfigEntry?): (r: Option<EnterpriseMeta>)
    reads e
    ensures e == null <==> r == None
    ensures e != null ==> r == Some(e.enterpriseMeta)
  {
    if e == null then None else Some(e.enterpriseMeta)
  }

  /** `GetRaftIndex`: a zero index for a nil entry. */
  function GetRaftIndex(e: EnvoyPatchSetConfigEntry?): (r: RaftIndex)
    reads e
    ensures e == null ==> r == RaftIndex(0, 0)
    ensures e != null ==> r == e.raftIndex
  {
    if e == null then RaftIndex(0, 0) else e.raftIndex
  }

  /** `Normalize`: an error for a nil entry; otherwise the kind is set and nothing else changes. */
  method Normalize(e: EnvoyPatchSetConfigEntry?) returns (err: Option<NormalizeError>)
    modifies e
    ensures e == null <==> err == Some(EntryNil)
    ensures e != null ==> e.kind == EnvoyPatchSetKind
    ensures e != null ==> (e.name, e.version, e.service) == old((e.name, e.version, e.service))
    ensures e != null ==> (e.meta, e.patches, e.raftIndex, e.enterpriseMeta) == old((e.meta, e.patches, e.raftIndex, e.enterpriseMeta))
  {
    if e == null {
      return Some(EntryNil);
    }
    e.kind := EnvoyPatchSetKind;
    err := None;
  }

  function ApplyGetKind(e: ApplyEnvoyPatchSetConfigEntry?): (r: string)
    ensures r == ApplyEnvoyPatchSetKind
  {
    ApplyEnvoyPatchSetKind
  }

  function ApplyGetName(e: ApplyEnvoyPatchSetConfigEntry?): (r: string)
    reads e
    ensures e == null ==> r == ""
    ensures e != null ==> r == e.name
  {
    if e == null then "" else e.name
  }

  function ApplyGetMeta(e: ApplyEnvoyPatchSetConfigEntry?): (r: Option<map<string, string>>)
    reads e
    ensures e == null ==> r == None
    ensures e != null ==> r == e.meta
  {
    if e == null then None else e.meta
  }

  function ApplyGetEnterpriseMeta(e: ApplyEnvoyPatchSetConfigEntry?): (r: Option<EnterpriseMeta>)
    reads e
    ensures e == null <==> r == None
    ensures e != null ==> r == Some(e.enterpriseMeta)
  {
    if e == null then None else Some(e.enterpriseMeta)
  }

  function ApplyGetRaftIndex(e: ApplyEnvoyPatchSetConfigEntry?): (r: RaftIndex)
    reads e
    ensures e == null ==> r == RaftIndex(0, 0)
    ensures e != null ==> r == e.raftIndex
  {
    if e == null then RaftIndex(0, 0) else e.raftIndex
  }

  method ApplyNormalize(e: ApplyEnvoyPatchSetConfigEntry?) returns (err: Option<NormalizeError>)
    modifies e
    ensures e == null <==> err == Some(EntryNil)
    ensures e != null ==> e.kind == ApplyEnvoyPatchSetKind
    ensures e != null ==> (e.name, e.envoyPatchSet, e.applyIndex, e.service) == old((e.name, e.envoyPatchSet, e.applyIndex, e.service))
    ensures e != null ==> (e.arguments, e.meta, e.patches, e.raftIndex, e.enterpriseMeta) == old((e.arguments, e.meta, e.patches, e.raftIndex, e.enterpriseMeta))
  {
    if e == null {
      return Some(EntryNil);
    }
    e.kind := ApplyEnvoyPatchSetKind;
    err := None;
  }

  // ---------------------------------------------------------------------
  // The two entries together

  /**
   * An application that names a valid patch set by its identifier passes
   * both identifier checks, so whether it validates is down to its own
   * name, meta and target.
   */
  lemma ApplyingValidSet(patchSet: EnvoyPatchSetConfigEntry, app: ApplyEnvoyPatchSetConfigEntry, setMetaErr: Option<string>, metaErr: Option<string>)
    requires patchSet.Validate(setMetaErr).None?
    requires app.envoyPatchSet == patchSet.GetEnvoyPatchSetIdentifier()
    ensures app.Validate(metaErr) != Some(PatchSetNameBlank) && app.Validate(metaErr) != Some(PatchSetVersionBlank)
    ensures app.Validate(metaErr).None? <==>
      metaErr.None? && app.name != "" && (app.service != "" || app.applyIndex != 0) && !(app.service != "" && app.applyIndex > 0)
  {
  }
}

=== FILE: event_ring.dfy ===
// Value-level facts about the event ring buffer: how the readable window of
// a circular buffer is laid out, what a commit does to it, and the
// consistency of events, truncation index and per-topic high-water marks
// that the stream keeps.

module EventRing {
  import opened Wrappers
  import opened StreamFrame

  /** An event as the stream stores it: raft index, topic, key and its framed, encoded payload. */
  datatype Event = Event(index: nat, topic: StreamTopic, key: string, payload: seq<byte>)

  /** Go's zero `Event{}`; an index of 0 marks a slot (or the staged event) as empty. */
  const ZeroEvent := Event(0, StreamTopicAll, "", [])

  function Min(a: nat, b: nat): (r: nat)
    ensures r <= a && r <= b && (r == a || r == b)
  {
    if a < b then a else b
  }

  // ---------------------------------------------------------------------
  // Buffer sizing

  ghost predicate IsPowerOfTwo(n: nat)
  {
    n == 1 || (n >= 2 && n % 2 == 0 && IsPowerOfTwo(n / 2))
  }

  lemma PowerOfTwoDouble(p: nat)
    requires IsPowerOfTwo(p)
    ensures IsPowerOfTwo(2 * p)
  {
    assert (2 * p) / 2 == p;
  }

  lemma PowerOfTwo128()
    ensures IsPowerOfTwo(128)
  {
    assert IsPowerOfTwo(1);
    PowerOfTwoDouble(1);
    PowerOfTwoDouble(2);
    PowerOfTwoDouble(4);
    PowerOfTwoDouble(8);
    PowerOfTwoDouble(16);
    PowerOfTwoDouble(32);
    PowerOfTwoDouble(64);
  }

  /** Doubles `p` until it reaches `size`. */
  function RoundUp(size: nat, p: nat): (r: nat)
    requires IsPowerOfTwo(p)
    ensures IsPowerOfTwo(r) && size <= r
    ensures p >= size ==> r == p
    ensures p < size ==> r < 2 * size
    decreases size - p
  {
    PowerOfTwoDouble(p);
    if p >= size then p else RoundUp(size, 2 * p)
  }

  /**
   * `nextPowerOf2`: the smallest power of two at least `size`, or 128 when
   * `size` is below 2 or above 2^31.
   */
  function NextPowerOf2(size: int): (r: nat)
    ensures IsPowerOfTwo(r) && r >= 2
    ensures (size < 2 || size > 0x8000_0000) ==> r == 128
    ensures 2 <= size <= 0x8000_0000 ==> size <= r < 2 * size
  {
    PowerOfTwo128();
    if size < 2 || size > 0x8000_0000 then 128 else RoundUp(size, 1)
  }

  // ---------------------------------------------------------------------
  // Modular arithmetic on slot numbers

  lemma {:induction false} MulMono(a: nat, b: nat, n: nat)
    requires a <= b
    ensures a * n <= b * n
    decreases b - a
  {
    if a < b {
      MulMono(a, b - 1, n);
      assert (b - 1) * n + n == b * n;
    }
  }

  lemma ModUnique(y: nat, n: nat, q: nat, r: nat)
    requires n >= 1 && r < n && y == q * n + r
    ensures y % n == r
  {
    var q0 := y / n;
    var r0 := y % n;
    assert y == q0 * n + r0;
    if q0 > q {
      assert (q + 1) * n == q * n + n;
      MulMono(q + 1, q0, n);
    } else if q0 < q {
      assert (q0 + 1) * n == q0 * n + n;
      MulMono(q0 + 1, q, n);
    }
  }

  lemma ModShift(x: nat, n: nat)
    requires n >= 1 && x >= n
    ensures x % n == (x - n) % n
  {
    var q := x / n;
    var r := x % n;
    assert x == q * n + r;
    assert x - n == (q - 1) * n + r;
    ModUnique(x - n, n, q - 1, r);
  }

  lemma ModSmall(x: nat, n: nat)
    requires x < n
    ensures x % n == x
  {
    ModUnique(x, n, 0, x);
  }

  // ---------------------------------------------------------------------
  // The readable window of a ring buffer

  /**
   * `x & sizeMask` for a ring of `n` slots, `n` a power of two: the running
   * count `x` reduced below `n`. It is written as repeated subtraction, so
   * that proofs about the ring need no division; `MaskMod` shows it is
   * `x % n`.
   */
  function Mask(x: nat, n: nat): (r: nat)
    requires n >= 1
    ensures r < n
    decreases x
  {
    if x < n then x else Mask(x - n, n)
  }

  lemma {:induction false} MaskMod(x: nat, n: nat)
    requires n >= 1
    ensures Mask(x, n) == x % n
    decreases x
  {
    if x < n {
      ModSmall(x, n);
    } else {
      MaskMod(x - n, n);
      ModShift(x, n);
    }
  }

  /** A position less than two laps round the ring needs at most one subtraction. */
  lemma MaskTwoLaps(x: nat, n: nat)
    requires n >= 1 && x < 2 * n
    ensures Mask(x, n) == if x < n then x else x - n
  {
    if x >= n {
      assert Mask(x - n, n) == x - n;
    }
  }

  /** The slot after the one `x` names is the one `x + 1` names, wrapping to 0 after the last. */
  lemma {:induction false} MaskSucc(x: nat, n: nat)
    requires n >= 1
    ensures Mask(x + 1, n) == if Mask(x, n) + 1 == n then 0 else Mask(x, n) + 1
    decreases x
  {
    if x >= n {
      MaskSucc(x - n, n);
    } else {
      MaskTwoLaps(x + 1, n);
    }
  }

  /** Advancing the slot of offset `k` from `o` by one slot gives the slot of offset `k + 1`. */
  lemma SlotStep(o: nat, k: nat, n: nat, x: nat)
    requires n >= 1 && x == Mask(o + k, n)
    ensures Mask(x + 1, n) == Mask(o + (k + 1), n)
  {
    MaskSucc(o + k, n);
    MaskTwoLaps(x + 1, n);
  }

  /** Offset of the oldest readable slot after `w` writes into `n` slots. */
  function Oldest(n: nat, w: nat): (r: nat)
    requires n >= 1
    ensures r < n
  {
    if w < n then 0 else Mask(w, n)
  }

  /** The events readable after `w` writes into the slots `a`, oldest first. */
  ghost function View(a: seq<Event>, w: nat): (r: seq<Event>)
    requires |a| >= 1
    ensures |r| == Min(w, |a|)
  {
    if w < |a| then a[..w] else a[Mask(w, |a|)..] + a[..Mask(w, |a|)]
  }

  /** The `k`-th readable event sits `k` slots after the oldest one, wrapping around. */
  lemma ViewAt(a: seq<Event>, w: nat, k: nat)
    requires |a| >= 1 && k < |View(a, w)|
    ensures View(a, w)[k] == a[Mask(Oldest(|a|, w) + k, |a|)]
  {
    MaskTwoLaps(Oldest(|a|, w) + k, |a|);
  }

  /** The oldest readable event sits in the oldest slot. */
  lemma ViewFirst(a: seq<Event>, w: nat)
    requires |a| >= 1
    ensures w >= 1 ==> View(a, w)[0] == a[Oldest(|a|, w)]
  {
  }

  /** The newest readable event sits in the slot of the last write. */
  lemma LastSlot(w: nat, n: nat)
    requires n >= 1 && w >= 1
    ensures Mask(Oldest(n, w) + Min(w, n) - 1, n) == Mask(w - 1, n)
  {
    MaskTwoLaps(Oldest(n, w) + Min(w, n) - 1, n);
    if w >= n {
      MaskSucc(w - 1, n);
    }
  }

  /** A prefix one longer is the prefix followed by the next element. */
  lemma PrefixStep(c: seq<Event>, k: nat)
    requires k < |c|
    ensures c[..k + 1] == c[..k] + [c[k]]
  {
  }

  /** One step of the abstract ring: append, dropping the oldest event once `cap` are held. */
  ghost function RingAfter(c: seq<Event>, e: Event, cap: nat): (r: seq<Event>)
    requires cap >= 1 && |c| <= cap
    ensures |r| == Min(|c| + 1, cap) && r[|r| - 1] == e
  {
    if |c| < cap then c + [e] else c[1..] + [e]
  }

  /** Writing into the next slot moves the window exactly as `RingAfter` says. */
  lemma ViewCommit(a: seq<Event>, w: nat, e: Event)
    requires |a| >= 1
    ensures View(a[Mask(w, |a|) := e], w + 1) == RingAfter(View(a, w), e, |a|)
  {
    var n := |a|;
    var o := Mask(w, n);
    var a' := a[o := e];
    MaskSucc(w, n);
    if w < n {
      if w + 1 < n {
        assert a'[..w + 1] == a[..w] + [e];
      } else {
        assert a' == a[..w] + [e];
        assert View(a', w + 1) == a'[0..] + a'[..0];
      }
    } else {
      if o + 1 < n {
        assert a'[o + 1..] == a[o + 1..];
        assert a'[..o + 1] == a[..o] + [e];
        assert (a[o..] + a[..o])[1..] == a[o + 1..] + a[..o];
      } else {
        assert a' == a[..o] + [e];
        assert View(a', w + 1) == a'[0..] + a'[..0];
        assert (a[o..] + a[..o])[1..] == a[..o];
      }
    }
  }

  /** Filling the first `|es|` slots of a fresh buffer makes exactly `es` readable. */
  lemma ViewFilled(a: seq<Event>, es: seq<Event>)
    requires |a| >= 1 && |es| <= |a| && a[..|es|] == es
    ensures View(a, |es|) == es
  {
    if |es| == |a| {
      assert a == es;
      MaskTwoLaps(|a|, |a|);
    }
  }

  /** The ring after publishing `es` into an empty buffer of `cap` slots. */
  ghost function RingOf(es: seq<Event>, cap: nat): (r: seq<Event>)
    requires cap >= 1
    ensures |r| == Min(|es|, cap)
  {
    if |es| == 0 then [] else RingAfter(RingOf(es[..|es| - 1], cap), es[|es| - 1], cap)
  }

  /** After any run of publishes the ring holds the newest `cap` of them, in order. */
  lemma {:induction false} RingOfKeepsNewest(es: seq<Event>, cap: nat)
    requires cap >= 1
    ensures RingOf(es, cap) == es[|es| - Min(|es|, cap)..]
  {
    if |es| > 0 {
      var init := es[..|es| - 1];
      RingOfKeepsNewest(init, cap);
      var prev := RingOf(init, cap);
      assert prev == init[|init| - Min(|init|, cap)..];
      if |init| < cap {
        assert prev == init;
        assert init + [es[|es| - 1]] == es;
      } else {
        assert prev[1..] + [es[|es| - 1]] == es[|es| - cap..];
      }
    }
  }

  /** Publishing one more event than the capacity drops exactly the first one. */
  lemma OverflowDropsOldest(es: seq<Event>, cap: nat)
    requires cap >= 1 && |es| == cap + 1
    ensures RingOf(es, cap) == es[1..]
  {
    RingOfKeepsNewest(es, cap);
  }

  // ---------------------------------------------------------------------
  // Consistency of events, truncation index and high-water marks

  /** The event at position `i` of `c` was published before the one at `j`. */
  ghost predicate Older(c: seq<Event>, i: nat, j: nat)
    requires i < |c| && j < |c|
  {
    c[i].index < c[j].index
  }

  /** Indexes strictly increase from the oldest event to the newest. */
  ghost predicate Ordered(c: seq<Event>)
  {
    forall i, j :: 0 <= i < j < |c| ==> Older(c, i, j)
  }

  lemma OrderedAt(c: seq<Event>, i: nat, j: nat)
    requires Ordered(c) && i < j < |c|
    ensures c[i].index < c[j].index
  {
    assert Older(c, i, j);
  }

  /** Any run of an ordered buffer is ordered. */
  lemma OrderedSlice(c: seq<Event>, lo: nat, hi: nat)
    requires Ordered(c) && lo <= hi <= |c|
    ensures Ordered(c[lo..hi])
  {
    forall i, j | 0 <= i < j < hi - lo
      ensures Older(c[lo..hi], i, j)
    {
      OrderedAt(c, lo + i, lo + j);
    }
  }

  /** An event newer than the newest one of an ordered buffer extends it in order. */
  lemma OrderedAppend(c: seq<Event>, e: Event)
    requires Ordered(c) && (|c| > 0 ==> c[|c| - 1].index < e.index)
    ensures Ordered(c + [e])
  {
    var c' := c + [e];
    forall i, j | 0 <= i < j < |c'|
      ensures Older(c', i, j)
    {
      if j < |c| {
        OrderedAt(c, i, j);
      } else if i < |c| - 1 {
        OrderedAt(c, i, |c| - 1);
      }
    }
  }

  /** Index of the newest event, 0 when there is none. */
  ghost function NewestIndex(c: seq<Event>): nat
  {
    if |c| == 0 then 0 else c[|c| - 1].index
  }

  /** The newest index the stream vouches for: its last event, or the truncation point when empty. */
  ghost function TopOf(c: seq<Event>, lt: nat): nat
  {
    if |c| == 0 then lt else c[|c| - 1].index
  }

  /** Index of the newest event of topic `t` in `c`. */
  ghost function LastOfTopic(c: seq<Event>, t: StreamTopic): Option<nat>
  {
    if |c| == 0 then None
    else if c[|c| - 1].topic == t then Some(c[|c| - 1].index)
    else LastOfTopic(c[..|c| - 1], t)
  }

  /**
   * A high-water mark `m` for `t` is the index of `t`'s newest buffered event,
   * or, when none is buffered, lies before everything buffered.
   */
  ghost predicate MarkFits(c: seq<Event>, t: StreamTopic, m: nat)
  {
    match LastOfTopic(c, t)
    case Some(x) => m == x
    case None => |c| == 0 || m < c[0].index
  }

  /** The state the stream keeps: `c` readable events, `lt` last truncated index, `hwm` marks. */
  ghost predicate ConsistentState(c: seq<Event>, lt: nat, hwm: map<StreamTopic, nat>)
  {
    && Ordered(c)
    && (|c| > 0 ==> lt < c[0].index)
    && (forall t :: t in hwm ==> hwm[t] <= TopOf(c, lt) && MarkFits(c, t, hwm[t]))
    && (forall i :: 0 <= i < |c| ==> c[i].topic in hwm)
  }

  lemma LastOfTopicAppend(c: seq<Event>, e: Event, t: StreamTopic)
    ensures LastOfTopic(c + [e], t) == if e.topic == t then Some(e.index) else LastOfTopic(c, t)
  {
    assert (c + [e])[..|c|] == c;
  }

  /** Every event of topic `t` is at or before the newest one. */
  lemma {:induction false} LastOfTopicBound(c: seq<Event>, t: StreamTopic, i: nat)
    requires Ordered(c) && i < |c| && c[i].topic == t
    ensures LastOfTopic(c, t).Some? && c[i].index <= LastOfTopic(c, t).value
    decreases |c|
  {
    if c[|c| - 1].topic != t {
      assert i < |c| - 1;
      OrderedSlice(c, 0, |c| - 1);
      assert c[..|c| - 1] == c[0..|c| - 1];
      LastOfTopicBound(c[..|c| - 1], t, i);
    } else if i < |c| - 1 {
      OrderedAt(c, i, |c| - 1);
    }
  }

  /** The newest index of `t` is the index of some event of topic `t`. */
  lemma {:induction false} LastOfTopicWitness(c: seq<Event>, t: StreamTopic) returns (i: nat)
    requires LastOfTopic(c, t).Some?
    ensures i < |c| && c[i].topic == t && c[i].index == LastOfTopic(c, t).value
    decreases |c|
  {
    if c[|c| - 1].topic == t {
      i := |c| - 1;
    } else {
      i := LastOfTopicWitness(c[..|c| - 1], t);
    }
  }

  /**
   * Dropping the oldest `d` events keeps the newest index of a topic when one
   * remains, and otherwise it was among the dropped ones.
   */
  lemma {:induction false} LastOfTopicDrop(c: seq<Event>, d: nat, t: StreamTopic)
    requires d <= |c| && Ordered(c)
    ensures LastOfTopic(c[d..], t).Some? ==> LastOfTopic(c, t) == LastOfTopic(c[d..], t)
    ensures LastOfTopic(c[d..], t).None? && LastOfTopic(c, t).Some? ==>
      d >= 1 && LastOfTopic(c, t).value <= c[d - 1].index
    decreases |c|
  {
    if d == |c| {
      assert c[d..] == [];
      if LastOfTopic(c, t).Some? {
        var i := LastOfTopicWitness(c, t);
        assert i <= d - 1;
        if i < d - 1 {
          OrderedAt(c, i, d - 1);
        }
      }
    } else if c[|c| - 1].topic != t {
      var init := c[..|c| - 1];
      assert c[d..][..|c[d..]| - 1] == init[d..];
      OrderedSlice(c, 0, |c| - 1);
      assert init == c[0..|c| - 1];
      LastOfTopicDrop(init, d, t);
    }
  }

  /** The index a write into a ring holding `c` overwrites: the oldest event's once full, else 0. */
  ghost function Overwritten(c: seq<Event>, cap: nat): nat
  {
    if |c| < cap then 0 else if |c| == 0 then 0 else c[0].index
  }

  /** After a commit, the mark of each topic (the committed one included) fits what the ring holds. */
  lemma CommitMarkFits(c: seq<Event>, lt: nat, hwm: map<StreamTopic, nat>, e: Event, cap: nat, t: StreamTopic)
    requires cap >= 1 && |c| <= cap
    requires ConsistentState(c, lt, hwm) && e.index > TopOf(c, lt)
    requires t in hwm || t == e.topic
    ensures var c' := RingAfter(c, e, cap);
      var m := hwm[e.topic := e.index][t];
      m <= TopOf(c', Overwritten(c, cap)) && MarkFits(c', t, m)
  {
    var c' := RingAfter(c, e, cap);
    var rest := if |c| < cap then c else c[1..];
    assert c' == rest + [e];
    LastOfTopicAppend(rest, e, t);
    if t != e.topic && |c| == cap {
      assert rest == c[1..];
      LastOfTopicDrop(c, 1, t);
      if |c| >= 2 {
        OrderedAt(c, 0, 1);
      }
    }
  }

  /** Committing an event newer than everything vouched for keeps the state consistent. */
  lemma CommitKeepsConsistent(c: seq<Event>, lt: nat, hwm: map<StreamTopic, nat>, e: Event, cap: nat)
    requires cap >= 1 && |c| <= cap
    requires ConsistentState(c, lt, hwm) && e.index > TopOf(c, lt)
    ensures ConsistentState(RingAfter(c, e, cap), Overwritten(c, cap), hwm[e.topic := e.index])
  {
    var c' := RingAfter(c, e, cap);
    var lt' := Overwritten(c, cap);
    var hwm' := hwm[e.topic := e.index];
    var rest := if |c| < cap then c else c[1..];
    assert c' == rest + [e];
    if |c| < cap {
      assert rest == c;
    } else {
      OrderedSlice(c, 1, |c|);
      assert rest == c[1..|c|];
    }
    OrderedAppend(rest, e);
    if |c| == cap && |c| >= 2 {
      OrderedAt(c, 0, 1);
    }
    forall t | t in hwm'
      ensures hwm'[t] <= TopOf(c', lt') && MarkFits(c', t, hwm'[t])
    {
      CommitMarkFits(c, lt, hwm, e, cap, t);
    }
    forall i | 0 <= i < |c'|
      ensures c'[i].topic in hwm'
    {
      if i < |rest| {
        assert c'[i] == rest[i];
        if |c| == cap {
          assert rest[i] == c[i + 1];
        }
      }
    }
  }

  /** Dropping the oldest `d` events and truncating at the last dropped one keeps the state consistent. */
  lemma DropKeepsConsistent(c: seq<Event>, lt: nat, hwm: map<StreamTopic, nat>, d: nat)
    requires ConsistentState(c, lt, hwm) && 1 <= d <= |c|
    ensures ConsistentState(c[d..], c[d - 1].index, hwm)
  {
    var c' := c[d..];
    var lt' := c[d - 1].index;
    OrderedSlice(c, d, |c|);
    assert c' == c[d..|c|];
    if d < |c| {
      OrderedAt(c, d - 1, d);
      OrderedAt(c, 0, d);
    }
    forall t | t in hwm
      ensures hwm[t] <= TopOf(c', lt') && MarkFits(c', t, hwm[t])
    {
      LastOfTopicDrop(c, d, t);
    }
    forall i | 0 <= i < |c'|
      ensures c'[i].topic in hwm
    {
      assert c'[i] == c[d + i];
    }
  }

  // ---------------------------------------------------------------------
  // High-water marks carried by a snapshot

  /** The marks after recording each event of `es`, in order, over `base`. */
  ghost function MarksOf(es: seq<Event>, base: map<StreamTopic, nat>): map<StreamTopic, nat>
  {
    if |es| == 0 then base
    else MarksOf(es[..|es| - 1], base)[es[|es| - 1].topic := es[|es| - 1].index]
  }

  /** Marks below the oldest buffered index survive into a snapshot; the rest are rebuilt. */
  ghost function KeptMarks(hwm: map<StreamTopic, nat>, minIndex: nat): map<StreamTopic, nat>
  {
    map t | t in hwm && hwm[t] < minIndex :: hwm[t]
  }

  lemma MarksOfAppend(es: seq<Event>, e: Event, base: map<StreamTopic, nat>)
    ensures MarksOf(es + [e], base) == MarksOf(es, base)[e.topic := e.index]
  {
    assert (es + [e])[..|es|] == es;
  }

  /** A topic's mark after replay is its newest replayed index, else the base mark. */
  lemma {:induction false} MarksOfLookup(es: seq<Event>, base: map<StreamTopic, nat>, t: StreamTopic)
    ensures t in MarksOf(es, base) <==> LastOfTopic(es, t).Some? || t in base
    ensures LastOfTopic(es, t).Some? ==> MarksOf(es, base)[t] == LastOfTopic(es, t).value
    ensures LastOfTopic(es, t).None? && t in base ==> MarksOf(es, base)[t] == base[t]
    decreases |es|
  {
    if |es| > 0 {
      MarksOfLookup(es[..|es| - 1], base, t);
    }
  }

  /** Replaying a consistent, non-empty buffer over the kept marks rebuilds every mark. */
  lemma SnapshotMarksRestore(c: seq<Event>, lt: nat, hwm: map<StreamTopic, nat>)
    requires ConsistentState(c, lt, hwm) && |c| > 0
    ensures MarksOf(c, KeptMarks(hwm, c[0].index)) == hwm
  {
    var kept := KeptMarks(hwm, c[0].index);
    var rebuilt := MarksOf(c, kept);
    forall t
      ensures t in rebuilt <==> t in hwm
      ensures t in hwm ==> rebuilt[t] == hwm[t]
    {
      MarksOfLookup(c, kept, t);
      if LastOfTopic(c, t).Some? {
        var i := LastOfTopicWitness(c, t);
      }
    }
  }

  /** A snapshot cut at any non-empty prefix of a consistent buffer is itself consistent. */
  lemma SnapshotPrefixConsistent(c: seq<Event>, lt: nat, hwm: map<StreamTopic, nat>, n: nat)
    requires ConsistentState(c, lt, hwm) && 1 <= n <= |c|
    ensures ConsistentState(c[..n], lt, MarksOf(c[..n], KeptMarks(hwm, c[0].index)))
  {
    var p := c[..n];
    var kept := KeptMarks(hwm, c[0].index);
    var marks := MarksOf(p, kept);
    OrderedSlice(c, 0, n);
    assert p == c[0..n];
    forall t | t in marks
      ensures marks[t] <= TopOf(p, lt) && MarkFits(p, t, marks[t])
    {
      MarksOfLookup(p, kept, t);
      if LastOfTopic(p, t).Some? {
        var i := LastOfTopicWitness(p, t);
        if i < n - 1 {
          OrderedAt(p, i, n - 1);
        }
      } else if n > 1 {
        OrderedAt(c, 0, n - 1);
      }
    }
    forall i | 0 <= i < n
      ensures p[i].topic in marks
    {
      LastOfTopicBound(p, p[i].topic, i);
      MarksOfLookup(p, kept, p[i].topic);
    }
  }

  // ---------------------------------------------------------------------
  // Reading

  /** How many events from the front of `c` have an index at or below `x`. */
  ghost function CountUpTo(c: seq<Event>, x: nat): (m: nat)
    ensures m <= |c|
  {
    if |c| == 0 || c[0].index > x then 0 else 1 + CountUpTo(c[1..], x)
  }

  /** The counted events are at or below `x`, and the one after them is newer. */
  lemma {:induction false} CountUpToBounds(c: seq<Event>, x: nat)
    ensures forall i :: 0 <= i < CountUpTo(c, x) ==> c[i].index <= x
    ensures CountUpTo(c, x) < |c| ==> c[CountUpTo(c, x)].index > x
  {
    if |c| > 0 && c[0].index <= x {
      CountUpToBounds(c[1..], x);
    }
  }

  /** One more event at or below `x` right after `k` counted ones extends the count. */
  lemma {:induction false} CountUpToStep(c: seq<Event>, x: nat, k: nat)
    requires k <= CountUpTo(c, x) && k < |c| && c[k].index <= x
    ensures k + 1 <= CountUpTo(c, x)
    decreases k
  {
    if k > 0 {
      CountUpToStep(c[1..], x, k - 1);
    }
  }

  /** A count that reaches the end, or an event newer than `x`, is the whole count. */
  lemma {:induction false} CountUpToStop(c: seq<Event>, x: nat, k: nat)
    requires k <= CountUpTo(c, x) && (k == |c| || (k < |c| && c[k].index > x))
    ensures CountUpTo(c, x) == k
    decreases k
  {
    if k > 0 {
      CountUpToStop(c[1..], x, k - 1);
    }
  }

  /** Any position splitting `c` into events at or below `x` and a following newer one is the count. */
  lemma {:induction false} CountUpToUnique(c: seq<Event>, x: nat, m: nat)
    requires m <= |c|
    requires forall i :: 0 <= i < m ==> c[i].index <= x
    requires m < |c| ==> c[m].index > x
    ensures CountUpTo(c, x) == m
    decreases m
  {
    if m > 0 {
      CountUpToUnique(c[1..], x, m - 1);
    }
  }

  /** In an ordered buffer, a position between an old-enough event and a newer one is the count. */
  lemma CountAtBoundary(c: seq<Event>, x: nat, m: nat)
    requires Ordered(c) && m <= |c|
    requires m == 0 || c[m - 1].index <= x
    requires m < |c| ==> c[m].index > x
    ensures CountUpTo(c, x) == m
  {
    forall i | 0 <= i < m ensures c[i].index <= x {
      if i < m - 1 {
        OrderedAt(c, i, m - 1);
      }
    }
    CountUpToUnique(c, x, m);
  }

  /** Every event of an ordered buffer is at or below a bound past its newest one. */
  lemma CountAll(c: seq<Event>, x: nat)
    requires Ordered(c) && x >= NewestIndex(c)
    ensures CountUpTo(c, x) == |c|
  {
    if |c| > 0 {
      CountAtBoundary(c, x, |c|);
    }
  }

  /** The subscription filter of `next`: topic `All` or the same topic, and an empty or equal key. */
  predicate Matches(e: Event, topic: StreamTopic, key: string)
  {
    (topic == StreamTopicAll || e.topic == topic) && (key == "" || key == e.key)
  }

  /** The index a reader of `topic` may wait for: the newest event for `All`, else the topic's mark. */
  ghost function MaxFor(c: seq<Event>, hwm: map<StreamTopic, nat>, topic: StreamTopic): nat
  {
    if topic == StreamTopicAll then NewestIndex(c) else Lookup(hwm, topic, 0)
  }

  /** The first event from position `k` on that matches, or "nothing yet" at `index`. */
  ghost function ScanFrom(c: seq<Event>, k: nat, topic: StreamTopic, key: string, index: nat): NextResult
    requires k <= |c|
    decreases |c| - k
  {
    if k == |c| then NextResult(index, None, None)
    else if Matches(c[k], topic, key) then NextResult(c[k].index, Some(c[k].payload), None)
    else ScanFrom(c, k + 1, topic, key, index)
  }

  datatype NextError = ErrIndexTruncated

  /** What a read returns: an index, a payload (nil when there is no event) and an error. */
  datatype NextResult = NextResult(index: nat, payload: Option<seq<byte>>, err: Option<NextError>)

  /**
   * What a non-blocking read after `index` returns: nothing when the reader is
   * caught up, a truncation error when events it has not seen were dropped,
   * otherwise the first matching event after `index`.
   */
  ghost function NextSpec(c: seq<Event>, lt: nat, hwm: map<StreamTopic, nat>,
                          index: nat, topic: StreamTopic, key: string): NextResult
  {
    if MaxFor(c, hwm, topic) <= index then NextResult(index, None, None)
    else if index < lt then NextResult(index, None, Some(ErrIndexTruncated))
    else ScanFrom(c, CountUpTo(c, index), topic, key, index)
  }

  /** What a reader of `topic` and `key` relies on. */
  ghost predicate ReadableFor(c: seq<Event>, lt: nat, hwm: map<StreamTopic, nat>, topic: StreamTopic, key: string)
  {
    && Ordered(c)
    && (|c| > 0 ==> lt < c[0].index)
    && MaxFor(c, hwm, topic) <= TopOf(c, lt)
    && (forall i :: 0 <= i < |c| && Matches(c[i], topic, key) ==> c[i].index <= MaxFor(c, hwm, topic))
  }

  /** In a consistent state no event a reader wants lies beyond the index it may wait for. */
  lemma MatchBelowMax(c: seq<Event>, lt: nat, hwm: map<StreamTopic, nat>, topic: StreamTopic, key: string, i: nat)
    requires ConsistentState(c, lt, hwm) && i < |c| && Matches(c[i], topic, key)
    ensures c[i].index <= MaxFor(c, hwm, topic)
  {
    if topic != StreamTopicAll {
      LastOfTopicBound(c, topic, i);
    } else if i < |c| - 1 {
      OrderedAt(c, i, |c| - 1);
    }
  }

  /** A consistent stream can be read for any topic and key. */
  lemma ConsistentReadable(c: seq<Event>, lt: nat, hwm: map<StreamTopic, nat>, topic: StreamTopic, key: string)
    requires ConsistentState(c, lt, hwm)
    ensures ReadableFor(c, lt, hwm, topic, key)
  {
    forall i | 0 <= i < |c| && Matches(c[i], topic, key)
      ensures c[i].index <= MaxFor(c, hwm, topic)
    {
      MatchBelowMax(c, lt, hwm, topic, key, i);
    }
  }

  /** Once the scan has passed the reader's maximum, nothing more matches. */
  lemma {:induction false} ScanPastMax(c: seq<Event>, lt: nat, hwm: map<StreamTopic, nat>,
                                       topic: StreamTopic, key: string, k: nat, index: nat)
    requires ReadableFor(c, lt, hwm, topic, key) && 1 <= k <= |c|
    requires c[k - 1].index >= MaxFor(c, hwm, topic)
    ensures ScanFrom(c, k, topic, key, index) == NextResult(index, None, None)
    decreases |c| - k
  {
    if k < |c| {
      OrderedAt(c, k - 1, k);
      ScanPastMax(c, lt, hwm, topic, key, k + 1, index);
    }
  }

  /** A reader behind its maximum and past the truncation point starts its scan inside the buffer. */
  lemma ScanStart(c: seq<Event>, lt: nat, hwm: map<StreamTopic, nat>, topic: StreamTopic, key: string,
                  index: nat, off: nat)
    requires ReadableFor(c, lt, hwm, topic, key) && lt <= index < MaxFor(c, hwm, topic)
    requires off <= |c| && (off == |c| || c[off].index > index) && (off == 0 || c[off - 1].index <= index)
    ensures off < |c|
    ensures NextSpec(c, lt, hwm, index, topic, key) == ScanFrom(c, off, topic, key, index)
  {
    CountAtBoundary(c, index, off);
  }

  /** While the scan is below the reader's maximum there is a further event. */
  lemma ScanMore(c: seq<Event>, lt: nat, hwm: map<StreamTopic, nat>, topic: StreamTopic, key: string, k: nat)
    requires ReadableFor(c, lt, hwm, topic, key) && 1 <= k <= |c| && c[k - 1].index < MaxFor(c, hwm, topic)
    ensures k < |c|
  {
  }

  /** Every buffered event is newer than the truncation point. */
  lemma AboveTruncation(c: seq<Event>, lt: nat, hwm: map<StreamTopic, nat>, topic: StreamTopic, key: string, i: nat)
    requires ReadableFor(c, lt, hwm, topic, key) && i < |c|
    ensures lt < c[i].index
  {
    if i > 0 {
      OrderedAt(c, 0, i);
    }
  }

  /** A reader behind its maximum and past the truncation point has something buffered. */
  lemma Buffered(c: seq<Event>, lt: nat, hwm: map<StreamTopic, nat>, topic: StreamTopic, key: string, index: nat)
    requires ReadableFor(c, lt, hwm, topic, key) && lt <= index < MaxFor(c, hwm, topic)
    ensures |c| > 0
  {
  }

  /** What the scan from `k` finds: nothing matching from `k` on, or the first match. */
  lemma {:induction false} ScanFromMeaning(c: seq<Event>, k: nat, topic: StreamTopic, key: string, index: nat)
    requires k <= |c|
    ensures var r := ScanFrom(c, k, topic, key, index);
      && r.err == None
      && (r.payload == None ==> r.index == index && forall i :: k <= i < |c| ==> !Matches(c[i], topic, key))
      && (r.payload != None ==>
            exists i :: (k <= i < |c| && Matches(c[i], topic, key) &&
              r == NextResult(c[i].index, Some(c[i].payload), None) &&
              forall j :: k <= j < i ==> !Matches(c[j], topic, key)))
    decreases |c| - k
  {
    if k < |c| && !Matches(c[k], topic, key) {
      ScanFromMeaning(c, k + 1, topic, key, index);
    }
  }

  /**
   * The meaning of a read in a consistent stream: a truncation error exactly
   * when the reader is behind and below the truncation point; otherwise
   * either no newer event matches, or the result is the first one that does.
   */
  lemma NextSpecMeaning(c: seq<Event>, lt: nat, hwm: map<StreamTopic, nat>, index: nat, topic: StreamTopic, key: string)
    requires ConsistentState(c, lt, hwm)
    ensures var r := NextSpec(c, lt, hwm, index, topic, key);
      && (r.err == Some(ErrIndexTruncated) <==> index < MaxFor(c, hwm, topic) && index < lt)
      && (r.err == Some(ErrIndexTruncated) ==> r.index == index && r.payload == None)
      && (r.err == None && r.payload == None ==>
            r.index == index && forall i :: 0 <= i < |c| && c[i].index > index ==> !Matches(c[i], topic, key))
      && (r.payload != None ==> (r.err == None &&
            exists i :: (0 <= i < |c| && c[i].index > index &&
              Matches(c[i], topic, key) && r == NextResult(c[i].index, Some(c[i].payload), None) &&
              forall j :: 0 <= j < i && c[j].index > index ==> !Matches(c[j], topic, key))))
  {
    var m := CountUpTo(c, index);
    CountUpToBounds(c, index);
    if MaxFor(c, hwm, topic) <= index {
      forall i | 0 <= i < |c| && c[i].index > index && Matches(c[i], topic, key)
        ensures false
      {
        MatchBelowMax(c, lt, hwm, topic, key, i);
      }
    } else if index >= lt {
      ScanFromMeaning(c, m, topic, key, index);
      assert forall i :: m <= i < |c| ==> c[i].index > index by {
        forall i | m <= i < |c| ensures c[i].index > index {
          if i > m {
            OrderedAt(c, m, i);
          }
        }
      }
    }
  }

}

=== FILE: event_stream.dfy ===
// The server-side event stream: a fixed-size ring buffer of events ordered
// by raft index, with per-topic high-water marks, a two-phase publish
// (stage, then commit or abort), non-blocking reads and snapshot/restore.

module EventStream {
  import opened Wrappers
  import opened StreamFrame
  import opened EventRing

  datatype PublishError =
    | AlreadyStaged   // "event already staged for commit"
    | IndexInvalid    // "event index invalid"
    | EncodeFailed    // the msgpack encoder's error

  /** A stream's state as saved in a snapshot; a nil marks map is `None`. */
  datatype Snapshot = SnapshotOf(
    events: seq<Event>,
    highWaterMarks: Option<map<StreamTopic, nat>>,
    lastTruncatedIndex: nat)

  datatype RestoreError = SnapshotNil   // "snapshot is nil"

  /** A snapshot that restores into a consistent stream. */
  ghost predicate WellFormed(snap: Snapshot)
  {
    snap.highWaterMarks.Some? &&
    ConsistentState(snap.events, snap.lastTruncatedIndex, snap.highWaterMarks.value)
  }

  /** The staged payload: an event frame header announcing the body's length, then the body. */
  function Frame(body: seq<byte>): (r: seq<byte>)
    ensures |r| == StreamFrameHeaderLen + |body|
    ensures r[StreamFrameHeaderLen..] == body
    ensures ReadBytes(r) == Success(StreamFrameHeader(|body| % 0x1_0000_0000, StreamMsgTypeEvent, 0))
  {
    var h := StreamFrameHeader(|body| % 0x1_0000_0000, StreamMsgTypeEvent, 0);
    ReadWriteRoundTrip(h, body);
    EncodeHeader(h) + body
  }

  /** The events a restore keeps: the newest `size` of them when `size` is smaller. */
  ghost function Kept(size: int, events: seq<Event>): seq<Event>
    requires size >= 0
  {
    if size < |events| then events[|events| - size..] else events
  }

  /** The truncation index after a restore: the newest dropped event's, when events are dropped. */
  ghost function KeptTruncation(size: int, snap: Snapshot): nat
    requires size >= 0
  {
    if size < |snap.events| then snap.events[|snap.events| - size - 1].index else snap.lastTruncatedIndex
  }

  /**
   * A snapshot of a consistent stream that holds at least one event restores
   * into a consistent stream: its events are a prefix of the readable ones,
   * and its marks are the ones below the oldest event, rebuilt from the prefix.
   */
  lemma SnapshotWellFormed(c: seq<Event>, lt: nat, hwm: map<StreamTopic, nat>, n: nat)
    requires ConsistentState(c, lt, hwm) && 1 <= n <= |c|
    ensures WellFormed(SnapshotOf(c[..n], Some(MarksOf(c[..n], KeptMarks(hwm, c[0].index))), lt))
  {
    SnapshotPrefixConsistent(c, lt, hwm, n);
  }

  /** Dropping the oldest events of a well-formed snapshot keeps what is left consistent. */
  lemma RestoreConsistent(size: int, snap: Snapshot)
    requires size >= 0 && WellFormed(snap)
    ensures ConsistentState(Kept(size, snap.events), KeptTruncation(size, snap), snap.highWaterMarks.value)
  {
    if size < |snap.events| {
      DropKeepsConsistent(snap.events, snap.lastTruncatedIndex, snap.highWaterMarks.value, |snap.events| - size);
    }
  }

  class Stream {
    const size: nat
    const events: array<Event>
    var writeCount: nat
    var lastTruncatedIndex: nat
    var staged: Event
    var highWaterMarks: map<StreamTopic, nat>

    ghost predicate Shaped()
    {
      size >= 1 && events.Length == size
    }

    /** The readable events, oldest first. */
    ghost function Contents(): seq<Event>
      reads this`writeCount, events
      requires Shaped()
    {
      View(events[..], writeCount)
    }

    ghost predicate Valid()
      reads this`writeCount, this`staged, events
    {
      && Shaped()
      && size >= 2 && IsPowerOfTwo(size)
      && (forall i :: writeCount <= i < size ==> events[i].index == 0)
      && (staged.index != 0 ==> staged.index > NewestIndex(Contents()))
    }

    ghost predicate Consistent()
      reads this`writeCount, this`lastTruncatedIndex, this`highWaterMarks, events
      requires Shaped()
    {
      ConsistentState(Contents(), lastTruncatedIndex, highWaterMarks)
    }

    /** `New`: an empty stream of `NextPowerOf2(size)` slots. */
    constructor (size: int)
      ensures this.size == NextPowerOf2(size)
      ensures Valid() && Consistent()
      ensures Contents() == [] && writeCount == 0
      ensures lastTruncatedIndex == 0 && highWaterMarks == map[] && staged == ZeroEvent
      ensures fresh(events) && events[..] == seq(this.size, _ => ZeroEvent)
    {
      var n := NextPowerOf2(size);
      this.size := n;
      events := new Event[n](_ => ZeroEvent);
      writeCount := 0;
      lastTruncatedIndex := 0;
      staged := ZeroEvent;
      highWaterMarks := map[];
    }

    /** `Cap`: how many events the buffer holds. */
    function Cap(): (r: nat)
      reads this`writeCount, this`staged, events
      requires Valid()
      ensures IsPowerOfTwo(r) && r >= 2
      ensures |Contents()| <= r
    {
      size
    }

    /** `oldestIdx`: the slot of the oldest event, or `size` when nothing was written. */
    function OldestIdx(): (r: nat)
      reads this`writeCount, events
      requires Shaped()
      ensures Contents() == [] <==> r == size
      ensures Contents() != [] ==> r == Oldest(size, writeCount) && events[r] == Contents()[0]
    {
      ViewFirst(events[..], writeCount);
      if writeCount == 0 then size
      else if writeCount < size then 0
      else Mask(writeCount, size)
    }

    /** `MinIndex`: the index of the oldest event, 0 when nothing was written. */
    function MinIndex(): (r: nat)
      reads this`writeCount, events
      requires Shaped()
      ensures r == if Contents() == [] then 0 else Contents()[0].index
    {
      if writeCount == 0 then 0 else events[OldestIdx()].index
    }

    /** `MaxIndex`: the index of the newest event, 0 when nothing was written. */
    function MaxIndex(): (r: nat)
      reads this`writeCount, events
      requires Shaped()
      ensures r == NewestIndex(Contents())
    {
      if writeCount == 0 then 0
      else
        var c := Contents();
        ViewAt(events[..], writeCount, |c| - 1);
        LastSlot(writeCount, size);
        events[Mask(writeCount - 1, size)].index
    }

    /**
     * `PreparePublish`: stage an event for the next `Commit`. `encoding` is the
     * msgpack encoding of `e`, or `None` when the encoder fails; in that case
     * index, topic and key are already staged when the error is returned.
     */
    method PreparePublish(e: StreamEvent, encoding: Option<seq<byte>>) returns (err: Option<PublishError>)
      requires Valid()
      modifies this`staged
      ensures Valid()
      ensures old(staged.index) != 0 ==> err == Some(AlreadyStaged) && staged == old(staged)
      ensures old(staged.index) == 0 && (e.index < 1 || e.index <= NewestIndex(Contents())) ==>
        err == Some(IndexInvalid) && staged == old(staged)
      ensures old(staged.index) == 0 && e.index >= 1 && e.index > NewestIndex(Contents()) ==>
        match encoding
        case None =>
          err == Some(EncodeFailed) && staged == old(staged).(index := e.index, topic := e.topic, key := e.key)
        case Some(body) =>
          err == None && staged == Event(e.index, e.topic, e.key, Frame(body))
    {
      if staged.index != 0 {
        return Some(AlreadyStaged);
      }
      var maxIndex := MaxIndex();
      if e.index < 1 || e.index <= maxIndex {
        return Some(IndexInvalid);
      }
      staged := staged.(index := e.index, topic := e.topic, key := e.key);
      if encoding.None? {
        return Some(EncodeFailed);
      }
      staged := staged.(payload := Frame(encoding.value));
      return None;
    }

    /**
     * `Commit`: write the staged event into the next slot, swapping payload
     * buffers with the slot, and remember the index it overwrote.
     */
    method Commit()
      requires Valid()
      modifies this, events
      ensures Valid()
      ensures old(staged.index) == 0 ==> unchanged(this) && unchanged(events)
      ensures old(staged.index) != 0 ==>
        && events[..] == old(events[..])[Mask(old(writeCount), size) := old(staged)]
        && writeCount == old(writeCount) + 1
        && highWaterMarks == old(highWaterMarks)[old(staged.topic) := old(staged.index)]
        && lastTruncatedIndex == Overwritten(old(Contents()), size)
        && staged == old(staged).(index := 0, payload := old(events[Mask(writeCount, size)].payload))
        && Contents() == RingAfter(old(Contents()), old(staged), size)
    {
      if staged.index == 0 {
        return;
      }
      ghost var c := Contents();
      ghost var a := events[..];
      var newOffset := Mask(writeCount, size);
      var evt := events[newOffset];
      var overwrittenIndex := evt.index;
      events[newOffset] := Event(staged.index, staged.topic, staged.key, staged.payload);
      staged := staged.(payload := evt.payload);
      writeCount := writeCount + 1;
      highWaterMarks := highWaterMarks[staged.topic := staged.index];
      lastTruncatedIndex := overwrittenIndex;
      staged := staged.(index := 0);
      ViewCommit(a, writeCount - 1, old(staged));
      assert events[..] == a[newOffset := old(staged)];
      ViewFirst(a, writeCount - 1);
      assert overwrittenIndex == Overwritten(c, size);
    }

    /** `Abort`: drop the staged event, if any. */
    method Abort()
      requires Valid()
      modifies this`staged
      ensures Valid()
      ensures staged == old(staged).(index := 0)
    {
      staged := staged.(index := 0);
    }

    /** `Publish`: stage and commit in one step. */
    method Publish(e: StreamEvent, encoding: Option<seq<byte>>) returns (err: Option<PublishError>)
      requires Valid()
      modifies this, events
      ensures Valid()
      ensures err == None <==>
        old(staged.index) == 0 && e.index >= 1 && e.index > old(NewestIndex(Contents())) && encoding.Some?
      ensures err == None ==>
        && Contents() == RingAfter(old(Contents()), Event(e.index, e.topic, e.key, Frame(encoding.value)), size)
        && highWaterMarks == old(highWaterMarks)[e.topic := e.index]
        && lastTruncatedIndex == Overwritten(old(Contents()), size)
        && staged.index == 0
      ensures err != None ==>
        && Contents() == old(Contents())
        && highWaterMarks == old(highWaterMarks)
        && lastTruncatedIndex == old(lastTruncatedIndex)
    {
      err := PreparePublish(e, encoding);
      if err != None {
        return;
      }
      Commit();
    }

    /**
     * The copy loop of `NewFromSnapshot`: write `evs` into the first slots of
     * a stream nothing was written to yet, one write per event.
     */
    method Replay(evs: seq<Event>)
      requires Valid() && writeCount == 0 && staged.index == 0 && |evs| <= size
      requires forall i :: 0 <= i < size ==> events[i] == ZeroEvent
      modifies this`writeCount, events
      ensures Valid() && writeCount == |evs| && Contents() == evs
    {
      var idx := 0;
      while idx < |evs|
        invariant idx <= |evs| && writeCount == idx
        invariant forall i :: 0 <= i < idx ==> events[i] == evs[i]
        invariant forall i :: idx <= i < size ==> events[i] == ZeroEvent
      {
        events[idx] := evs[idx];
        writeCount := writeCount + 1;
        idx := idx + 1;
      }
      assert events[..][..|evs|] == evs;
      ViewFilled(events[..], evs);
    }

    /** The slot of the `k`-th readable event holds it, and the next slot holds the next one. */
    lemma Visiting(k: nat, x: nat)
      requires Shaped() && k < |Contents()| && x == Mask(Oldest(size, writeCount) + k, size)
      ensures events[x] == Contents()[k]
      ensures Mask(x + 1, size) == Mask(Oldest(size, writeCount) + (k + 1), size)
    {
      SlotOf(k);
      SlotStep(Oldest(size, writeCount), k, size, x);
    }

    /** Each readable event sits in the slot its offset from the oldest one names. */
    lemma SlotOf(k: nat)
      requires Shaped() && k < |Contents()|
      ensures Contents()[k] == events[Mask(Oldest(size, writeCount) + k, size)]
    {
      ViewAt(events[..], writeCount, k);
    }

    lemma SlotsOfContents()
      requires Shaped()
      ensures forall k :: 0 <= k < |Contents()| ==>
        Contents()[k] == events[Mask(Oldest(size, writeCount) + k, size)]
    {
      forall k | 0 <= k < |Contents()|
        ensures Contents()[k] == events[Mask(Oldest(size, writeCount) + k, size)]
      {
        ViewAt(events[..], writeCount, k);
      }
    }

    /**
     * `nextBufferIdxAfter`: binary search over the readable offsets for the
     * first event after `index`; `size` when the buffer is empty. `off` is
     * the offset found.
     */
    method NextBufferIdxAfter(index: nat) returns (r: nat, ghost off: nat)
      requires Shaped()
      ensures Contents() == [] ==> r == size
      ensures Contents() != [] ==>
        && off <= |Contents()|
        && r == Mask(Oldest(size, writeCount) + off, size)
        && (off == |Contents()| || Contents()[off].index > index)
        && (off == 0 || Contents()[off - 1].index <= index)
      ensures Contents() != [] && Ordered(Contents()) ==> off == CountUpTo(Contents(), index)
      ensures Contents() != [] && off == |Contents()| ==> r == Mask(writeCount, size)
    {
      var oldestIdx := OldestIdx();
      if oldestIdx == size {
        return size, 0;
      }
      var n := size;
      if writeCount < size {
        n := writeCount;
      }
      var lo := SearchAfter(events, oldestIdx, n, index);
      SearchLands(index, n, lo);
      r := Mask(oldestIdx + lo, size);
      off := lo;
    }

    /** What the search of `NextBufferIdxAfter` lands on, read back in terms of `Contents()`. */
    lemma SearchLands(index: nat, n: nat, lo: nat)
      requires Shaped() && Contents() != []
      requires n == (if writeCount < size then writeCount else size) && lo <= n
      requires lo == n || events[Mask(Oldest(size, writeCount) + lo, size)].index > index
      requires lo == 0 || events[Mask(Oldest(size, writeCount) + (lo - 1), size)].index <= index
      ensures lo <= |Contents()|
      ensures lo == |Contents()| || Contents()[lo].index > index
      ensures lo == 0 || Contents()[lo - 1].index <= index
      ensures Ordered(Contents()) ==> lo == CountUpTo(Contents(), index)
      ensures lo == |Contents()| ==> Mask(Oldest(size, writeCount) + lo, size) == Mask(writeCount, size)
    {
      var c := Contents();
      SlotsOfContents();
      assert n == |c|;
      if Ordered(c) {
        CountAtBoundary(c, index, lo);
      }
      if lo == n && size <= writeCount {
        MaskTwoLaps(Oldest(size, writeCount) + lo, size);
      }
    }

    /** The index a reader of `topic` may wait for: the newest event for `All`, else the topic's mark. */
    function ReaderMax(topic: StreamTopic): (r: nat)
      reads this`writeCount, this`highWaterMarks, events
      requires Shaped()
      ensures r == MaxFor(Contents(), highWaterMarks, topic)
    {
      if topic == StreamTopicAll then MaxIndex() else Lookup(highWaterMarks, topic, 0)
    }

    /**
     * The first round of `next`'s loop: the slot of the first event after
     * `index`, found by `nextBufferIdxAfter`. The source falls back to the
     * oldest slot when the search finds nothing, which cannot happen here.
     */
    method FirstSlotAfter(index: nat, ghost topic: StreamTopic, ghost key: string) returns (nextIdx: nat, ghost k: nat)
      requires Shaped() && ReadableFor(Contents(), lastTruncatedIndex, highWaterMarks, topic, key)
      requires lastTruncatedIndex <= index < MaxFor(Contents(), highWaterMarks, topic)
      ensures k < |Contents()| && nextIdx == Mask(Oldest(size, writeCount) + k, size)
      ensures NextSpec(Contents(), lastTruncatedIndex, highWaterMarks, index, topic, key) ==
              ScanFrom(Contents(), k, topic, key, index)
    {
      ghost var c := Contents();
      Buffered(c, lastTruncatedIndex, highWaterMarks, topic, key, index);
      nextIdx, k := NextBufferIdxAfter(index);
      if nextIdx == size {
        assert false;
      }
      ScanStart(c, lastTruncatedIndex, highWaterMarks, topic, key, index, k);
    }

    /**
     * One round of `next`'s scan at the slot of the `k`-th readable event: it
     * holds that event, which is past the truncation point; the scan either
     * stops there or goes on at the next slot, which holds the next event.
     */
    lemma ScanVisit(k: nat, x: nat, topic: StreamTopic, key: string, index: nat)
      requires Shaped() && ReadableFor(Contents(), lastTruncatedIndex, highWaterMarks, topic, key)
      requires k < |Contents()| && x == Mask(Oldest(size, writeCount) + k, size)
      ensures events[x] == Contents()[k] && lastTruncatedIndex < events[x].index
      ensures Matches(events[x], topic, key) ==>
        ScanFrom(Contents(), k, topic, key, index) == NextResult(events[x].index, Some(events[x].payload), None)
      ensures !Matches(events[x], topic, key) ==>
        ScanFrom(Contents(), k, topic, key, index) == ScanFrom(Contents(), k + 1, topic, key, index)
      ensures Mask(x + 1, size) == Mask(Oldest(size, writeCount) + (k + 1), size)
      ensures events[x].index >= MaxFor(Contents(), highWaterMarks, topic) ==>
        ScanFrom(Contents(), k + 1, topic, key, index) == NextResult(index, None, None)
      ensures events[x].index < MaxFor(Contents(), highWaterMarks, topic) ==> k + 1 < |Contents()|
    {
      var c := Contents();
      Visiting(k, x);
      AboveTruncation(c, lastTruncatedIndex, highWaterMarks, topic, key, k);
      if events[x].index >= MaxFor(c, highWaterMarks, topic) {
        ScanPastMax(c, lastTruncatedIndex, highWaterMarks, topic, key, k + 1, index);
      } else {
        ScanMore(c, lastTruncatedIndex, highWaterMarks, topic, key, k + 1);
      }
    }

    /**
     * `Next` (the non-blocking path of `next`): the first event after `index`
     * that matches the topic and key, `(index, nil, nil)` when there is none
     * yet, or `ErrIndexTruncated` when events after `index` were overwritten.
     * Its meaning is proved about `NextSpec` by `NextSpecMeaning`;
     * every consistent stream is readable (`ConsistentReadable`).
     */
    method Next(index: nat, topic: StreamTopic, key: string) returns (r: NextResult)
      requires Shaped() && ReadableFor(Contents(), lastTruncatedIndex, highWaterMarks, topic, key)
      ensures r == NextSpec(Contents(), lastTruncatedIndex, highWaterMarks, index, topic, key)
    {
      var maxIndex := ReaderMax(topic);
      if maxIndex <= index {
        return NextResult(index, None, None);
      }
      if index < lastTruncatedIndex {
        return NextResult(index, None, Some(ErrIndexTruncated));
      }
      var nextIdx;
      ghost var k;
      nextIdx, k := FirstSlotAfter(index, topic, key);
      r := ScanOn(index, topic, key, nextIdx, k);
    }

    /**
     * The rounds of `next`'s loop from the slot of the `k0`-th readable event
     * on: return the first matching event, or `(index, nil, nil)` once the
     * scan reaches the reader's maximum. The truncation check the source
     * repeats each round cannot fire here, since every buffered event is
     * newer than the truncation point.
     */
    method ScanOn(index: nat, topic: StreamTopic, key: string, start: nat, ghost k0: nat) returns (r: NextResult)
      requires Shaped() && ReadableFor(Contents(), lastTruncatedIndex, highWaterMarks, topic, key)
      requires k0 < |Contents()| && start == Mask(Oldest(size, writeCount) + k0, size)
      ensures r == ScanFrom(Contents(), k0, topic, key, index)
    {
      var nextIdx := start;
      ghost var k := k0;
      while true
        invariant k0 <= k < |Contents()| && nextIdx == Mask(Oldest(size, writeCount) + k, size)
        invariant ScanFrom(Contents(), k0, topic, key, index) == ScanFrom(Contents(), k, topic, key, index)
        decreases |Contents()| - k
      {
        ScanVisit(k, nextIdx, topic, key, index);
        var evt := events[nextIdx];
        if Matches(evt, topic, key) {
          return NextResult(evt.index, Some(evt.payload), None);
        }
        nextIdx := Mask(nextIdx + 1, size);
        var cur := evt.index;
        var maxIndex := ReaderMax(topic);
        if maxIndex <= cur {
          return NextResult(index, None, None);
        }
        if cur < lastTruncatedIndex {
          assert false;
        }
        k := k + 1;
      }
    }

    /**
     * The first loop of `Snapshot`: the marks below `minIndex`, whatever
     * order the map is walked in.
     */
    method MarksBelow(minIndex: nat) returns (marks: map<StreamTopic, nat>)
      ensures marks == KeptMarks(highWaterMarks, minIndex)
    {
      marks := map[];
      var todo := highWaterMarks.Keys;
      while todo != {}
        invariant todo <= highWaterMarks.Keys
        invariant marks == map t | t in highWaterMarks && t !in todo && highWaterMarks[t] < minIndex :: highWaterMarks[t]
        decreases |todo|
      {
        var t :| t in todo;
        if highWaterMarks[t] < minIndex {
          marks := marks[t := highWaterMarks[t]];
        }
        todo := todo - {t};
      }
    }

    /**
     * `Snapshot`: the events up to the first one after `snapIndex`, the marks
     * below the oldest event, marks rebuilt from the included events, and the
     * truncation index.
     */
    method Snapshot(snapIndex: nat) returns (snap: Snapshot)
      requires Shaped()
      ensures snap.lastTruncatedIndex == lastTruncatedIndex
      ensures snap.events == Contents()[..CountUpTo(Contents(), snapIndex)]
      ensures snap.highWaterMarks == Some(MarksOf(snap.events, KeptMarks(highWaterMarks, MinIndex())))
    {
      var marks := MarksBelow(MinIndex());
      ghost var kept := marks;
      ghost var c := Contents();
      ghost var o := Oldest(size, writeCount);
      var idx := OldestIdx();
      var n := size;
      if writeCount < size {
        n := writeCount;
      }
      var evs: seq<Event> := [];
      while |evs| < n
        invariant |evs| <= n == |c|
        invariant evs == c[..|evs|]
        invariant |evs| <= CountUpTo(c, snapIndex)
        invariant marks == MarksOf(evs, kept)
        invariant |evs| < n ==> idx == Mask(o + |evs|, size)
      {
        var e := events[idx];
        Visiting(|evs|, idx);
        if e.index > snapIndex {
          break;
        }
        CountUpToStep(c, snapIndex, |evs|);
        MarksOfAppend(evs, e, kept);
        PrefixStep(c, |evs|);
        evs := evs + [e];
        marks := marks[e.topic := e.index];
        idx := Mask(idx + 1, size);
      }
      CountUpToStop(c, snapIndex, |evs|);
      snap := SnapshotOf(evs, Some(marks), lastTruncatedIndex);
    }
  }

  /**
   * `sort.Search` over `n` ring slots starting at slot `oldest`: the first
   * offset whose event is newer than `index`, or `n`.
   */
  method SearchAfter(a: array<Event>, oldest: nat, n: nat, index: nat) returns (lo: nat)
    requires 1 <= a.Length && n <= a.Length
    ensures lo <= n
    ensures lo == n || a[Mask(oldest + lo, a.Length)].index > index
    ensures lo == 0 || a[Mask(oldest + (lo - 1), a.Length)].index <= index
  {
    lo := 0;
    var hi := n;
    while lo < hi
      invariant 0 <= lo <= hi <= n
      invariant lo == 0 || a[Mask(oldest + (lo - 1), a.Length)].index <= index
      invariant hi == n || a[Mask(oldest + hi, a.Length)].index > index
    {
      var h := (lo + hi) / 2;
      if !(a[Mask(oldest + h, a.Length)].index > index) {
        lo := h + 1;
      } else {
        hi := h;
      }
    }
  }

  /**
   * `NewFromSnapshot`: a stream of `NextPowerOf2(size)` slots replaying the
   * snapshot's events, keeping only the newest `size` of them, with the
   * snapshot's marks. A nil snapshot is an error. The source panics for a
   * negative `size`, or when more events are kept than the buffer has slots.
   */
  method NewFromSnapshot(size: int, snap: Option<Snapshot>) returns (s: Stream?, err: Option<RestoreError>)
    requires snap.Some? ==>
      size >= 0 && Min(size, |snap.value.events|) <= NextPowerOf2(size)
    ensures snap.None? ==> s == null && err == Some(SnapshotNil)
    ensures snap.Some? ==>
      && err == None && s != null && fresh(s) && fresh(s.events)
      && s.size == NextPowerOf2(size) && s.Valid()
      && s.Contents() == Kept(size, snap.value.events)
      && s.lastTruncatedIndex == KeptTruncation(size, snap.value)
      && s.highWaterMarks == snap.value.highWaterMarks.GetOr(map[])
      && s.staged == ZeroEvent
  {
    if snap.None? {
      return null, Some(SnapshotNil);
    }
    var sn := snap.value;
    s := new Stream(size);
    s.lastTruncatedIndex := sn.lastTruncatedIndex;
    var evs := sn.events;
    var snapSize := |evs|;
    if size < snapSize {
      evs := evs[snapSize - size..];
      s.lastTruncatedIndex := sn.events[snapSize - size - 1].index;
    }
    assert evs == Kept(size, sn.events) && s.lastTruncatedIndex == KeptTruncation(size, sn);
    s.Replay(evs);
    if sn.highWaterMarks.Some? {
      s.highWaterMarks := sn.highWaterMarks.value;
    }
    err := None;
  }

  /**
   * Saving a consistent stream at an index past its newest event and
   * restoring it into a buffer at least as large gives back the same events,
   * truncation index and marks.
   */
  method SnapshotRoundTrip(st: Stream, size: int, snapIndex: nat) returns (restored: Stream)
    requires st.Valid() && st.Consistent() && st.Contents() != []
    requires snapIndex >= NewestIndex(st.Contents())
    requires |st.Contents()| <= size <= 0x8000_0000
    ensures restored.Valid() && restored.Consistent()
    ensures restored.Contents() == st.Contents()
    ensures restored.lastTruncatedIndex == st.lastTruncatedIndex
    ensures restored.highWaterMarks == st.highWaterMarks
  {
    var snap := st.Snapshot(snapIndex);
    ghost var c := st.Contents();
    CountAll(c, snapIndex);
    assert snap.events == c;
    SnapshotMarksRestore(c, st.lastTruncatedIndex, st.highWaterMarks);
    RestoreConsistent(size, snap);
    var r, err := NewFromSnapshot(size, Some(snap));
    restored := r;
  }
}

=== FILE: paged_collection.dfy ===
// The pagination arithmetic of the UI's paged collection component: which
// slice of a list is rendered, and the heights of the space above and below
// it, in one of three modes (the whole list, one numbered page, or a window
// that follows the scroll position).

module PagedCollection {
  import opened Wrappers

  const NativeScroll: string := "native-scroll"
  const IndexMode: string := "index"
  const VirtualScroll: string := "virtual-scroll"

  /** The row height used when none is given. */
  const DefaultRowHeight: int := 70
  /** The rows rendered beyond each edge of the viewport when scrolling virtually. */
  const DefaultOverflow: int := 10

  /**
   * The component's arguments and tracked fields. `typeArg == ""` is a
   * missing type and `rowHeightArg == 0` a missing (or zero) row height;
   * `perPageArg`, `pageArg` and `rowHeightArg` are the already parsed
   * integers. `rectY` is the pane's top relative to the viewport.
   */
  datatype Paged<T> = Paged(
    items: seq<T>,
    typeArg: string,
    perPageArg: int,
    pageArg: int,
    rowHeightArg: int,
    rectY: int,
    visibleItems: int,
    overflow: int)

  /** The tracked fields as the component starts: no scroll offset, the default overflow. */
  function Initial<T>(items: seq<T>, typeArg: string, perPageArg: int, pageArg: int, rowHeightArg: int, visibleItems: int): (r: Paged<T>)
    ensures r.items == items && r.typeArg == typeArg && r.visibleItems == visibleItems
    ensures ItemsBefore(r) == 0
    ensures Type(r) == VirtualScroll ==> Cursor(r) == Some(0)
  {
    Paged(items, typeArg, perPageArg, pageArg, rowHeightArg, 0, visibleItems, DefaultOverflow)
  }

  function Max(a: int, b: int): int { if a < b then b else a }
  function Min(a: int, b: int): int { if a < b then a else b }

  /** `Math.floor(a / b)` on integers: the greatest integer not above the exact quotient. */
  function FloorDiv(a: int, b: int): (r: int)
    requires b != 0
    ensures b > 0 ==> r * b <= a < r * b + b
    ensures b < 0 ==> r * b >= a > r * b + b
  {
    if b > 0 then a / b else (-a) / (-b)
  }

  /** How `Array.prototype.slice` reads a bound: a negative one counts back from the end, and both are clamped to the list. */
  function SliceBound(i: int, len: nat): (r: nat)
    ensures r <= len
    ensures 0 <= i <= len ==> r == i
    ensures i < 0 ==> r == Max(0, len + i)
  {
    if i < 0 then (if len + i < 0 then 0 else len + i)
    else if i > len then len
    else i
  }

  /** `Array.prototype.slice(start, end)`: empty when the clamped bounds cross. */
  function Slice<T>(s: seq<T>, start: int, end: int): (r: seq<T>)
    ensures |r| <= |s|
    ensures 0 <= start <= end <= |s| ==> r == s[start..end]
    ensures |r| == Max(0, SliceBound(end, |s|) - SliceBound(start, |s|))
  {
    var from := SliceBound(start, |s|);
    var to := SliceBound(end, |s|);
    if from < to then s[from..to] else []
  }

  /** `type`: a missing type is native scrolling. */
  function Type<T>(p: Paged<T>): (r: string)
    ensures r != ""
    ensures p.typeArg != "" ==> r == p.typeArg
  {
    if p.typeArg == "" then NativeScroll else p.typeArg
  }

  /** `total`. */
  function Total<T>(p: Paged<T>): nat
  {
    |p.items|
  }

  /** `perPage`: `None` is the `undefined` an unknown type gives. */
  function PerPage<T>(p: Paged<T>): (r: Option<int>)
    ensures r.Some? <==> Type(p) in {NativeScroll, IndexMode, VirtualScroll}
    ensures Type(p) == VirtualScroll ==> r.value >= 0
  {
    var t := Type(p);
    if t == VirtualScroll then Some(Max(0, p.visibleItems + p.overflow * 2))
    else if t == IndexMode then Some(p.perPageArg)
    else if t == NativeScroll then Some(Total(p))
    else None
  }

  /** `rowHeight`: a missing or zero row height is the default, so the row height is never zero. */
  function RowHeight<T>(p: Paged<T>): (r: int)
    ensures r != 0
    ensures p.rowHeightArg == 0 ==> r == DefaultRowHeight
  {
    if p.rowHeightArg == 0 then DefaultRowHeight else p.rowHeightArg
  }

  /** `itemsBefore`: the whole rows scrolled above the viewport, none while the pane's top is visible. */
  function ItemsBefore<T>(p: Paged<T>): (r: int)
    ensures p.rectY >= 0 ==> r == 0
    ensures p.rectY < 0 && RowHeight(p) > 0 ==> r >= 0 && r * RowHeight(p) <= -p.rectY < (r + 1) * RowHeight(p)
  {
    if p.rectY < 0 then FloorDiv(-p.rectY, RowHeight(p)) else 0
  }

  /** `cursor`: the position of the first rendered item. */
  function Cursor<T>(p: Paged<T>): (r: Option<int>)
    ensures r.Some? <==> PerPage(p).Some?
    ensures Type(p) == VirtualScroll ==> r.value >= 0
    ensures Type(p) == VirtualScroll && p.overflow >= 0 ==> r.value <= Max(0, ItemsBefore(p))
  {
    var t := Type(p);
    if t == VirtualScroll then Some(Max(0, ItemsBefore(p) - p.overflow))
    else if t == IndexMode then Some((p.pageArg - 1) * PerPage(p).value)
    else if t == NativeScroll then Some(0)
    else None
  }

  /**
   * `items`: the slice from the cursor up to the cursor plus a page, but no
   * further than the list. With an unknown type both bounds are undefined;
   * the end is `NaN`, which `slice` reads as 0, so nothing is rendered.
   */
  function Items<T>(p: Paged<T>): (r: seq<T>)
    ensures |r| <= |p.items|
    ensures PerPage(p).None? ==> r == []
  {
    match (Cursor(p), PerPage(p))
    case (Some(c), Some(n)) => Slice(p.items, c, Min(Total(p), c + n))
    case _ => []
  }

  /** `itemsAfter`: the items below the rendered page; negative when the page runs past the list. */
  function ItemsAfter<T>(p: Paged<T>): (r: Option<int>)
    ensures r.Some? <==> PerPage(p).Some?
    ensures r.Some? ==> r.value + PerPage(p).value + Cursor(p).value == Total(p)
  {
    if PerPage(p).Some? then Some(Total(p) - PerPage(p).value - Cursor(p).value) else None
  }

  /** `startHeight`: the space taken by the items above the rendered page. */
  function StartHeight<T>(p: Paged<T>): (r: Option<int>)
    ensures r.Some? <==> PerPage(p).Some?
  {
    if PerPage(p).Some? then Some(Cursor(p).value * RowHeight(p)) else None
  }

  /** `endHeight`: the space taken by the items below the rendered page. */
  function EndHeight<T>(p: Paged<T>): (r: Option<int>)
    ensures r.Some? <==> PerPage(p).Some?
  {
    if PerPage(p).Some? then Some(ItemsAfter(p).value * RowHeight(p)) else None
  }

  /** `totalHeight`: the space above, the page, and the space below. */
  function TotalHeight<T>(p: Paged<T>): (r: Option<int>)
    ensures r.Some? <==> PerPage(p).Some?
  {
    if PerPage(p).Some? then
      Some(StartHeight(p).value + PerPage(p).value * RowHeight(p) + EndHeight(p).value)
    else None
  }

  // ---------------------------------------------------------------------
  // What the getters promise together

  /** The space above, the page and the space below always add up to the height of the whole list. */
  lemma HeightsPartition<T>(p: Paged<T>)
    requires PerPage(p).Some?
    ensures TotalHeight(p) == Some(Total(p) * RowHeight(p))
  {
    var c, n, a, h := Cursor(p).value, PerPage(p).value, ItemsAfter(p).value, RowHeight(p);
    assert a == Total(p) - n - c;
    calc {
      c * h + n * h + a * h;
      (c + n + a) * h;
      Total(p) * h;
    }
  }

  /** Native scrolling renders the whole list from the top, with no space above or below. */
  lemma NativeScrollWholeList<T>(p: Paged<T>)
    requires Type(p) == NativeScroll
    ensures Cursor(p) == Some(0) && PerPage(p) == Some(Total(p))
    ensures Items(p) == p.items
    ensures StartHeight(p) == Some(0) && EndHeight(p) == Some(0)
  {
  }

  /** Slicing from `c` to at most `n` past it, but not past the end, takes at most `n` items. */
  lemma SliceWithin<T>(s: seq<T>, c: int, n: nat)
    ensures |Slice(s, c, Min(|s|, c + n))| <= n
  {
    var len := |s|;
    var e := Min(len, c + n);
    if c >= 0 {
      assert SliceBound(c, len) == Min(c, len);
      assert SliceBound(e, len) == e;
    } else if c + n >= 0 {
      assert SliceBound(e, len) == e;
    } else {
      assert SliceBound(e, len) <= SliceBound(c, len) + n;
    }
  }

  /** Never more items are rendered than a page holds. */
  lemma ItemsWithinPage<T>(p: Paged<T>)
    requires PerPage(p).Some? && PerPage(p).value >= 0
    ensures |Items(p)| <= PerPage(p).value
  {
    SliceWithin(p.items, Cursor(p).value, PerPage(p).value);
  }

  /** A page that starts inside the list renders the contiguous run from the cursor to the end of the page or of the list. */
  lemma ItemsContiguous<T>(p: Paged<T>)
    requires Cursor(p).Some? && 0 <= Cursor(p).value <= Total(p) && PerPage(p).value >= 0
    ensures var c := Cursor(p).value; Items(p) == p.items[c..Min(Total(p), c + PerPage(p).value)]
  {
  }

  /**
   * In index mode, page `k` (counted from 1) of a list that reaches it is
   * the `k`-th run of `perPage` items, cut short at the end of the list.
   */
  lemma IndexPage<T>(p: Paged<T>)
    requires Type(p) == IndexMode && p.pageArg >= 1 && p.perPageArg >= 0
    requires (p.pageArg - 1) * p.perPageArg <= Total(p)
    ensures Cursor(p) == Some((p.pageArg - 1) * p.perPageArg)
    ensures Items(p) == p.items[(p.pageArg - 1) * p.perPageArg..Min(Total(p), p.pageArg * p.perPageArg)]
  {
    var k, n := p.pageArg - 1, p.perPageArg;
    assert PerPage(p) == Some(n);
    assert Cursor(p) == Some(k * n);
    NextRun(k, n);
    ItemsContiguous(p);
  }

  /** The run after the `k`-th of `n` items starts where it ends. */
  lemma NextRun(k: nat, n: nat)
    ensures 0 <= k * n && k * n + n == (k + 1) * n
  {
  }

  /**
   * Virtual scrolling with a positive row height renders every row the
   * viewport shows: the rows from the first one scrolled past through the
   * next `visibleItems` all lie inside the rendered window.
   */
  lemma VirtualWindowCoversViewport<T>(p: Paged<T>)
    requires Type(p) == VirtualScroll && RowHeight(p) > 0
    requires p.visibleItems >= 1 && p.overflow >= 0
    ensures var c := Cursor(p).value;
      c <= ItemsBefore(p) && ItemsBefore(p) + p.visibleItems <= c + PerPage(p).value
  {
  }
}

=== FILE: serverless_hack.dfy ===
// The first serverless hook of the xDS server: services tagged as AWS Lambda
// functions have their clusters replaced and the HTTP connection managers of
// their listeners' filter chains rewritten to invoke the function. Building
// the new cluster and filter lives outside these files and is a parameter.

module ServerlessHack {
  import opened Wrappers
  import opened XdsShared

  const LambdaEnabledTag: string := "serverless/lambda/enabled"
  const ArnTag: string := "serverless/lambda/arn"
  const PayloadPassthroughTag: string := "serverless/lambda/payload-passhthrough"
  const RegionTag: string := "serverless/lambda/region"

  const HttpConnectionManager: string := "envoy.filters.network.http_connection_manager"

  /** A service is a Lambda when its enabled tag is set (a missing tag reads as ""). */
  predicate Enabled(meta: Meta)
  {
    Lookup(meta, LambdaEnabledTag, "") != ""
  }

  /** `mutateConfiguration`: the meta of each service of the snapshot, by service name. */
  datatype HackConfiguration = HackConfiguration(serviceMeta: map<ServiceName, Meta>, kind: ServiceKind, datacenter: string, trustDomain: string)

  /** `makeMutateConfiguration`: the services of a terminating gateway or of a connect proxy, none for any other kind. */
  method MakeHackConfiguration(snap: ConfigSnapshot) returns (c: HackConfiguration)
    ensures snap.kind == TerminatingGateway ==> c.serviceMeta == snap.gatewayServiceConfigs
    ensures snap.kind == ConnectProxy ==> c.serviceMeta == snap.proxyServiceConfigs
    ensures snap.kind != TerminatingGateway && snap.kind != ConnectProxy ==> c.serviceMeta == map[]
    ensures c.kind == snap.kind && c.datacenter == snap.datacenter
    ensures c.trustDomain == if snap.roots.Some? then snap.roots.value else ""
  {
    var serviceMeta: map<ServiceName, Meta> := map[];
    var source: map<ServiceName, Meta> := map[];
    if snap.kind == TerminatingGateway {
      source := snap.gatewayServiceConfigs;
    } else if snap.kind == ConnectProxy {
      source := snap.proxyServiceConfigs;
    }
    var todo := source.Keys;
    while todo != {}
      invariant todo <= source.Keys
      invariant serviceMeta == map s | s in source && s !in todo :: source[s]
      decreases todo
    {
      var s :| s in todo;
      serviceMeta := serviceMeta[s := source[s]];
      todo := todo - {s};
    }
    var trustDomain := if snap.roots.Some? then snap.roots.value else "";
    c := HackConfiguration(serviceMeta, snap.kind, snap.datacenter, trustDomain);
  }

  /** The services to hack by name: each Lambda's name maps to the meta of a Lambda of that name. */
  ghost predicate NamesToHackFrom(serviceMeta: map<ServiceName, Meta>, names: map<string, Meta>)
  {
    names.Keys == (set s | s in serviceMeta && Enabled(serviceMeta[s]) :: s.name) &&
    forall n :: n in names ==> exists s :: s in serviceMeta && Enabled(serviceMeta[s]) && s.name == n && names[n] == serviceMeta[s]
  }

  /** `makeServiceNamesToHack`: the loop over the services, keeping the Lambdas by name. */
  method MakeServiceNamesToHack(serviceMeta: map<ServiceName, Meta>) returns (names: map<string, Meta>)
    ensures NamesToHackFrom(serviceMeta, names)
  {
    names := map[];
    var todo := serviceMeta.Keys;
    while todo != {}
      invariant todo <= serviceMeta.Keys
      invariant names.Keys == set s | s in serviceMeta && s !in todo && Enabled(serviceMeta[s]) :: s.name
      invariant forall n :: n in names ==> exists s :: s in serviceMeta && Enabled(serviceMeta[s]) && s.name == n && names[n] == serviceMeta[s]
      decreases todo
    {
      var s :| s in todo;
      if Enabled(serviceMeta[s]) {
        names := names[s.name := serviceMeta[s]];
      }
      todo := todo - {s};
    }
  }

  /** The SNIs to hack: each Lambda's SNI maps to the meta of a Lambda with that SNI. */
  ghost predicate SnisToHackFrom(c: HackConfiguration, sni: SniFn, snis: map<string, Meta>)
  {
    snis.Keys == (set s | s in c.serviceMeta && Enabled(c.serviceMeta[s]) :: ServiceSni(sni, s, c.datacenter, c.trustDomain)) &&
    forall x :: x in snis ==>
      (exists s :: s in c.serviceMeta && Enabled(c.serviceMeta[s]) && ServiceSni(sni, s, c.datacenter, c.trustDomain) == x && snis[x] == c.serviceMeta[s])
  }

  /** `makeSnisToHack`: the loop over the services, keeping the Lambdas by SNI. */
  method MakeSnisToHack(c: HackConfiguration, sni: SniFn) returns (snis: map<string, Meta>)
    ensures SnisToHackFrom(c, sni, snis)
  {
    snis := map[];
    var todo := c.serviceMeta.Keys;
    while todo != {}
      invariant todo <= c.serviceMeta.Keys
      invariant snis.Keys == set s | s in c.serviceMeta && s !in todo && Enabled(c.serviceMeta[s]) :: ServiceSni(sni, s, c.datacenter, c.trustDomain)
      invariant forall x :: x in snis ==>
        (exists s :: s in c.serviceMeta && Enabled(c.serviceMeta[s]) && ServiceSni(sni, s, c.datacenter, c.trustDomain) == x && snis[x] == c.serviceMeta[s])
      decreases todo
    {
      var s :| s in todo;
      if Enabled(c.serviceMeta[s]) {
        snis := snis[ServiceSni(sni, s, c.datacenter, c.trustDomain) := c.serviceMeta[s]];
      }
      todo := todo - {s};
    }
  }

  /** Every service to hack is a Lambda, so its meta is never empty. */
  lemma HackedMetaNonEmpty(serviceMeta: map<ServiceName, Meta>, names: map<string, Meta>, n: string)
    requires NamesToHackFrom(serviceMeta, names) && n in names
    ensures Enabled(names[n]) && |names[n]| > 0
  {
    var s :| s in serviceMeta && Enabled(serviceMeta[s]) && s.name == n && names[n] == serviceMeta[s];
    assert LambdaEnabledTag in names[n];
  }

  // ---------------------------------------------------------------------
  // Rewriting filters

  /** The configuration of the Lambda filter: the ARN tag, and passthrough exactly when its tag is `true`. */
  datatype LambdaConfig = LambdaConfig(arn: string, payloadPassthrough: bool)

  function LambdaConfigFor(meta: Meta): (r: LambdaConfig)
    ensures r.arn == Lookup(meta, ArnTag, "")
    ensures r.payloadPassthrough <==> PayloadPassthroughTag in meta && meta[PayloadPassthroughTag] == "true"
  {
    LambdaConfig(Lookup(meta, ArnTag, ""), Lookup(meta, PayloadPassthroughTag, "") == "true")
  }

  /**
   * Building the rewritten connection manager filter from an old one and the
   * Lambda configuration: `None` when its configuration does not decode or
   * the new filters cannot be made. Building a cluster for a Lambda from its
   * meta, or an error.
   */
  datatype HackFns = HackFns(
    rewriteHcm: (Filter, LambdaConfig) -> Option<Filter>,
    hackCluster: (Cluster, Meta) -> Result<Message, string>)

  /**
   * The filter loop of both listener hacks: other filters are kept, a
   * connection manager with a typed configuration is rewritten, and one
   * without is dropped; the first failed rewrite fails the whole list.
   */
  function HackedFilters(fs: seq<Filter>, cfg: LambdaConfig, rw: (Filter, LambdaConfig) -> Option<Filter>): (r: Option<seq<Filter>>)
    ensures r.Some? ==> |r.value| <= |fs|
    ensures (forall i :: 0 <= i < |fs| ==> fs[i].name != HttpConnectionManager) ==> r == Some(fs)
    decreases |fs|
  {
    if |fs| == 0 then Some([])
    else
      var f := fs[|fs| - 1];
      match HackedFilters(fs[..|fs| - 1], cfg, rw)
      case None => None
      case Some(acc) =>
        if f.name != HttpConnectionManager then
          assert fs == fs[..|fs| - 1] + [f];
          Some(acc + [f])
        else if f.typedConfig.None? then Some(acc)
        else
          match rw(f, cfg)
          case None => None
          case Some(nf) => Some(acc + [nf])
  }

  /** Once a prefix of the filters fails, the whole list fails. */
  lemma {:induction false} HackedFiltersFailurePersists(fs: seq<Filter>, k: nat, cfg: LambdaConfig, rw: (Filter, LambdaConfig) -> Option<Filter>)
    requires k <= |fs| && HackedFilters(fs[..k], cfg, rw).None?
    ensures HackedFilters(fs, cfg, rw).None?
    decreases |fs| - k
  {
    if k < |fs| {
      assert fs[..k + 1][..k] == fs[..k];
      HackedFiltersFailurePersists(fs, k + 1, cfg, rw);
    } else {
      assert fs[..k] == fs;
    }
  }

  /** The filter loop itself. */
  method HackFilters(fs: seq<Filter>, cfg: LambdaConfig, rw: (Filter, LambdaConfig) -> Option<Filter>) returns (r: Option<seq<Filter>>)
    ensures r == HackedFilters(fs, cfg, rw)
  {
    var filters: seq<Filter> := [];
    var k := 0;
    while k < |fs|
      invariant 0 <= k <= |fs|
      invariant HackedFilters(fs[..k], cfg, rw) == Some(filters)
    {
      var f := fs[k];
      assert fs[..k + 1][..k] == fs[..k] && fs[..k + 1][k] == f;
      if f.name != HttpConnectionManager {
        filters := filters + [f];
      } else if f.typedConfig.Some? {
        var nf := rw(f, cfg);
        if nf.None? {
          HackedFiltersFailurePersists(fs, k + 1, cfg, rw);
          return None;
        }
        filters := filters + [nf.value];
      }
      k := k + 1;
    }
    assert fs[..k] == fs;
    r := Some(filters);
  }

  // ---------------------------------------------------------------------
  // Rewriting listeners

  /**
   * Which chains of a listener are rewritten, and with which meta: every
   * chain with one service's meta (a connect proxy), or each chain whose SNI
   * has a non-empty meta to hack (a terminating gateway).
   */
  datatype Selection = AllChains(meta: Meta) | BySni(snis: map<string, Meta>)

  function ChainMeta(sel: Selection, chain: FilterChain): (r: Option<Meta>)
    ensures sel.AllChains? ==> r == Some(sel.meta)
    ensures sel.BySni? ==> (r.Some? <==> GetSni(Some(chain)) in sel.snis && |sel.snis[GetSni(Some(chain))]| > 0)
    ensures sel.BySni? && r.Some? ==> r.value == sel.snis[GetSni(Some(chain))]
  {
    match sel
    case AllChains(meta) => Some(meta)
    case BySni(snis) =>
      var sni := GetSni(Some(chain));
      if |Lookup(snis, sni, map[])| == 0 then None else Some(snis[sni])
  }

  /** One chain: kept when it is not selected, else its filters rewritten with its meta's Lambda configuration. */
  function HackedChain(chain: FilterChain, sel: Selection, rw: (Filter, LambdaConfig) -> Option<Filter>): (r: Option<FilterChain>)
    ensures ChainMeta(sel, chain).None? ==> r == Some(chain)
    ensures r.Some? ==> r.value.filterChainMatch == chain.filterChainMatch
  {
    match ChainMeta(sel, chain)
    case None => Some(chain)
    case Some(meta) =>
      match HackedFilters(chain.filters, LambdaConfigFor(meta), rw)
      case None => None
      case Some(fs) => Some(chain.(filters := fs))
  }

  /** Every chain rewritten, in order; any failure fails them all. */
  function HackedChains(cs: seq<FilterChain>, sel: Selection, rw: (Filter, LambdaConfig) -> Option<Filter>): (r: Option<seq<FilterChain>>)
    ensures r.Some? <==> forall i :: 0 <= i < |cs| ==> HackedChain(cs[i], sel, rw).Some?
    ensures r.Some? ==> |r.value| == |cs| && forall i :: 0 <= i < |cs| ==> r.value[i] == HackedChain(cs[i], sel, rw).value
    decreases |cs|
  {
    if |cs| == 0 then Some([])
    else
      var init := cs[..|cs| - 1];
      assert forall i :: 0 <= i < |init| ==> init[i] == cs[i];
      match HackedChains(init, sel, rw)
      case None => None
      case Some(acc) =>
        match HackedChain(cs[|cs| - 1], sel, rw)
        case None => None
        case Some(c) => Some(acc + [c])
  }

  /** `hackConnectProxyListener` and `hackTerminatingGatewayListener` as values: the listener with its chains rewritten. */
  function HackedListener(l: Listener, sel: Selection, rw: (Filter, LambdaConfig) -> Option<Filter>): (r: Option<Listener>)
    ensures r.Some? <==> HackedChains(l.filterChains, sel, rw).Some?
    ensures r.Some? ==> r.value == l.(filterChains := HackedChains(l.filterChains, sel, rw).value)
  {
    match HackedChains(l.filterChains, sel, rw)
    case None => None
    case Some(cs) => Some(l.(filterChains := cs))
  }

  /** The position of the first chain whose rewrite fails, or the number of chains when none does. */
  function FirstFailingChain(cs: seq<FilterChain>, sel: Selection, rw: (Filter, LambdaConfig) -> Option<Filter>): (n: nat)
    ensures n <= |cs|
    ensures forall j :: 0 <= j < n ==> HackedChain(cs[j], sel, rw).Some?
    ensures n < |cs| ==> HackedChain(cs[n], sel, rw).None?
    decreases |cs|
  {
    if |cs| == 0 || HackedChain(cs[0], sel, rw).None? then 0
    else
      var n := FirstFailingChain(cs[1..], sel, rw);
      assert forall j :: 1 <= j <= n ==> cs[j] == cs[1..][j - 1];
      1 + n
  }

  /**
   * The chains as the chain loop leaves them in place: each chain is
   * rewritten in turn until one fails, and that chain and the ones after it
   * are untouched.
   */
  function PartialChains(cs: seq<FilterChain>, sel: Selection, rw: (Filter, LambdaConfig) -> Option<Filter>): (r: seq<FilterChain>)
    ensures |r| == |cs|
    ensures forall j :: 0 <= j < FirstFailingChain(cs, sel, rw) ==> r[j] == HackedChain(cs[j], sel, rw).value
    ensures forall j :: FirstFailingChain(cs, sel, rw) <= j < |cs| ==> r[j] == cs[j]
  {
    var n := FirstFailingChain(cs, sel, rw);
    seq(|cs|, j requires 0 <= j < |cs| => if j < n then HackedChain(cs[j], sel, rw).value else cs[j])
  }

  /**
   * The listener as either listener hack leaves it: on success the hacked
   * listener; on a failure, the chains before the failing one rewritten and
   * the rest, the failing one included, as they were.
   */
  function PartialListener(l: Listener, sel: Selection, rw: (Filter, LambdaConfig) -> Option<Filter>): (r: Listener)
    ensures HackedListener(l, sel, rw).Some? ==> r == HackedListener(l, sel, rw).value
    ensures r == l.(filterChains := r.filterChains) && |r.filterChains| == |l.filterChains|
    ensures HackedListener(l, sel, rw).None? ==>
      var n := FirstFailingChain(l.filterChains, sel, rw);
      n < |l.filterChains| && HackedChain(l.filterChains[n], sel, rw).None? &&
      (forall j :: 0 <= j < n ==> r.filterChains[j] == HackedChain(l.filterChains[j], sel, rw).value) &&
      r.filterChains[n..] == l.filterChains[n..]
  {
    PartialChainsComplete(l.filterChains, sel, rw);
    PartialChainsIncomplete(l.filterChains, sel, rw);
    l.(filterChains := PartialChains(l.filterChains, sel, rw))
  }

  /** When some chain fails, the first failing one and all after it are left as they were. */
  lemma PartialChainsIncomplete(cs: seq<FilterChain>, sel: Selection, rw: (Filter, LambdaConfig) -> Option<Filter>)
    ensures HackedChains(cs, sel, rw).None? ==>
      var n := FirstFailingChain(cs, sel, rw);
      n < |cs| && PartialChains(cs, sel, rw)[n..] == cs[n..]
  {
    var n := FirstFailingChain(cs, sel, rw);
    if HackedChains(cs, sel, rw).None? {
      var k :| 0 <= k < |cs| && HackedChain(cs[k], sel, rw).None?;
      assert n <= k;
      SuffixKept(PartialChains(cs, sel, rw), cs, n);
    }
  }

  /** Chains that agree from `n` on have the same suffix from `n`. */
  lemma SuffixKept(r: seq<FilterChain>, cs: seq<FilterChain>, n: nat)
    requires |r| == |cs| && n <= |cs|
    requires forall j :: n <= j < |cs| ==> r[j] == cs[j]
    ensures r[n..] == cs[n..]
  {
  }

  /** When no chain fails, the chains left in place are the hacked ones. */
  lemma PartialChainsComplete(cs: seq<FilterChain>, sel: Selection, rw: (Filter, LambdaConfig) -> Option<Filter>)
    ensures HackedChains(cs, sel, rw).Some? ==> PartialChains(cs, sel, rw) == HackedChains(cs, sel, rw).value
  {
    if HackedChains(cs, sel, rw).Some? {
      assert FirstFailingChain(cs, sel, rw) == |cs|;
    }
  }

  /**
   * When chain `i` is the first to fail and `done` holds the chains before
   * it rewritten, the chains left in place are `done` and then the rest.
   */
  lemma PartialChainsAtFailure(cs: seq<FilterChain>, sel: Selection, rw: (Filter, LambdaConfig) -> Option<Filter>, i: nat, done: seq<FilterChain>)
    requires i < |cs| && |done| == i && HackedChain(cs[i], sel, rw).None?
    requires forall j :: 0 <= j < i ==> HackedChain(cs[j], sel, rw) == Some(done[j])
    ensures PartialChains(cs, sel, rw) == done + cs[i..]
  {
    assert FirstFailingChain(cs, sel, rw) == i;
    var r := PartialChains(cs, sel, rw);
    assert r[..i] == done;
    SuffixKept(r, cs, i);
    assert r == r[..i] + r[i..];
  }

  /**
   * The chain loop of both listener hacks, with the filter loop for each
   * selected chain. `r` is what the hack returns, `left` the listener as
   * the loop leaves it in place, also when it fails.
   */
  method HackListener(l: Listener, sel: Selection, rw: (Filter, LambdaConfig) -> Option<Filter>) returns (r: Option<Listener>, left: Listener)
    ensures r == HackedListener(l, sel, rw)
    ensures left == PartialListener(l, sel, rw)
  {
    var done: seq<FilterChain> := [];
    var i := 0;
    while i < |l.filterChains|
      invariant 0 <= i <= |l.filterChains| && |done| == i
      invariant forall j :: 0 <= j < i ==> HackedChain(l.filterChains[j], sel, rw) == Some(done[j])
    {
      var chain := l.filterChains[i];
      var meta := ChainMeta(sel, chain);
      if meta.None? {
        done := done + [chain];
      } else {
        var fs := HackFilters(chain.filters, LambdaConfigFor(meta.value), rw);
        if fs.None? {
          assert HackedChain(chain, sel, rw).None?;
          PartialChainsAtFailure(l.filterChains, sel, rw, i, done);
          return None, l.(filterChains := done + l.filterChains[i..]);
        }
        assert HackedChain(chain, sel, rw) == Some(chain.(filters := fs.value));
        done := done + [chain.(filters := fs.value)];
      }
      i := i + 1;
    }
    assert HackedChains(l.filterChains, sel, rw).value == done;
    r := Some(l.(filterChains := done));
    left := r.value;
  }

  // ---------------------------------------------------------------------
  // The passes over the resources

  /** What the connect proxy's listener pass reads. */
  datatype ProxyCtx = ProxyCtx(names: map<string, Meta>, fns: HackFns)

  /** What the cluster passes and the terminating gateway's listener pass read. */
  datatype SniCtx = SniCtx(snis: map<string, Meta>, fns: HackFns)

  /**
   * A connect proxy's listener entry: anything but a listener is an error; a
   * listener for a service with a meta to hack has its chains rewritten (a
   * failure is an error naming it); any other listener is kept.
   */
  function ProxyListenerStep(ctx: ProxyCtx, name: string, msg: Message): (r: Result<Message, string>)
    ensures !msg.ListenerMsg? ==> r == Failure("error decoding listener")
    ensures var s := ListenerServiceName(name);
      msg.ListenerMsg? && (s !in ctx.names || |ctx.names[s]| == 0 || s == "") ==> r == Success(msg)
    ensures r.Success? && r.value != msg ==> (msg.ListenerMsg? && r.value.ListenerMsg? && ListenerServiceName(name) in ctx.names &&
      HackedListener(msg.listener, AllChains(ctx.names[ListenerServiceName(name)]), ctx.fns.rewriteHcm) == Some(r.value.listener))
  {
    if !msg.ListenerMsg? then Failure("error decoding listener")
    else
      var service := ListenerServiceName(name);
      if service !in ctx.names || |ctx.names[service]| == 0 || service == "" then Success(msg)
      else
        match HackedListener(msg.listener, AllChains(ctx.names[service]), ctx.fns.rewriteHcm)
        case None => Failure("Error hacking listener " + name)
        case Some(l) => Success(ListenerMsg(l))
  }

  /** A cluster entry: anything but a cluster is an error; a cluster whose name is an SNI to hack is rebuilt (a failure is an error naming it); any other is kept. */
  function ClusterStep(ctx: SniCtx, name: string, msg: Message): (r: Result<Message, string>)
    ensures !msg.ClusterMsg? ==> r == Failure("error decoding cluster")
    ensures msg.ClusterMsg? && name !in ctx.snis ==> r == Success(msg)
    ensures msg.ClusterMsg? && name in ctx.snis && ctx.fns.hackCluster(msg.cluster, ctx.snis[name]).Success? ==>
      r == ctx.fns.hackCluster(msg.cluster, ctx.snis[name])
  {
    if !msg.ClusterMsg? then Failure("error decoding cluster")
    else if name !in ctx.snis then Success(msg)
    else
      match ctx.fns.hackCluster(msg.cluster, ctx.snis[name])
      case Failure(_) => Failure("Error hacking cluster " + name)
      case Success(c) => Success(c)
  }

  /** A terminating gateway's listener entry: anything but a listener is an error; a listener has the chains of its SNIs to hack rewritten. */
  function GatewayListenerStep(ctx: SniCtx, name: string, msg: Message): (r: Result<Message, string>)
    ensures !msg.ListenerMsg? ==> r == Failure("error decoding listener")
    ensures msg.ListenerMsg? && HackedListener(msg.listener, BySni(ctx.snis), ctx.fns.rewriteHcm).Some? ==>
      r == Success(ListenerMsg(HackedListener(msg.listener, BySni(ctx.snis), ctx.fns.rewriteHcm).value))
  {
    if !msg.ListenerMsg? then Failure("error decoding listener")
    else
      match HackedListener(msg.listener, BySni(ctx.snis), ctx.fns.rewriteHcm)
      case None => Failure("Error hacking listener " + name)
      case Some(l) => Success(ListenerMsg(l))
  }

  /**
   * What a connect proxy's listener entry holds after its step: the step's
   * result when it succeeds; when the hack of a selected listener fails,
   * the listener with its chains rewritten up to the failing one, since
   * `hackConnectProxyListener` rewrites them in place.
   */
  function ProxyListenerLeft(ctx: ProxyCtx, name: string, msg: Message): (r: Message)
    ensures ProxyListenerStep(ctx, name, msg).Success? ==> r == ProxyListenerStep(ctx, name, msg).value
    ensures !msg.ListenerMsg? ==> r == msg
    ensures msg.ListenerMsg? && ProxyListenerStep(ctx, name, msg).Failure? ==>
      ListenerServiceName(name) in ctx.names &&
      r == ListenerMsg(PartialListener(msg.listener, AllChains(ctx.names[ListenerServiceName(name)]), ctx.fns.rewriteHcm))
  {
    var service := ListenerServiceName(name);
    if !msg.ListenerMsg? || service !in ctx.names || |ctx.names[service]| == 0 || service == "" then msg
    else ListenerMsg(PartialListener(msg.listener, AllChains(ctx.names[service]), ctx.fns.rewriteHcm))
  }

  /**
   * What a terminating gateway's listener entry holds after its step: the
   * step's result when it succeeds; when the hack fails, the listener with
   * its selected chains rewritten up to the failing one.
   */
  function GatewayListenerLeft(ctx: SniCtx, name: string, msg: Message): (r: Message)
    ensures GatewayListenerStep(ctx, name, msg).Success? ==> r == GatewayListenerStep(ctx, name, msg).value
    ensures !msg.ListenerMsg? ==> r == msg
    ensures msg.ListenerMsg? && GatewayListenerStep(ctx, name, msg).Failure? ==>
      r == ListenerMsg(PartialListener(msg.listener, BySni(ctx.snis), ctx.fns.rewriteHcm))
  {
    if !msg.ListenerMsg? then msg
    else ListenerMsg(PartialListener(msg.listener, BySni(ctx.snis), ctx.fns.rewriteHcm))
  }

  /**
   * A connect proxy: the listener pass, then the cluster pass. The error is
   * the first failing step's: without one every entry of both passes was
   * rewritten; with one, the failing pass rewrote some of its entries, the
   * passes before it all of theirs, and the passes after it none.
   * `makeSnisToHack` reads only the configuration, so it is built before the
   * listener pass, where the map is needed to state the outcome.
   */
  method HackConnectProxy(res: IndexedResources, c: HackConfiguration, sni: SniFn, fns: HackFns)
    returns (err: Option<string>, ghost names: map<string, Meta>, ghost snis: map<string, Meta>)
    modifies res
    ensures res.childIndex == old(res.childIndex)
    ensures NamesToHackFrom(c.serviceMeta, names) && SnisToHackFrom(c, sni, snis)
    ensures OthersKept(old(res.index), res.index, {ListenerType, ClusterType})
    ensures err.None? <==>
      StepsSucceed(Sub(old(res.index), ListenerType), ProxyListenerStep, ProxyCtx(names, fns)) &&
      StepsSucceed(Sub(old(res.index), ClusterType), ClusterStep, SniCtx(snis, fns))
    ensures err.None? ==> RewroteAll(Sub(old(res.index), ListenerType), Sub(res.index, ListenerType), ProxyListenerStep, ProxyCtx(names, fns))
    ensures err.None? ==> RewroteAll(Sub(old(res.index), ClusterType), Sub(res.index, ClusterType), ClusterStep, SniCtx(snis, fns))
    ensures err.Some? && !StepsSucceed(Sub(old(res.index), ListenerType), ProxyListenerStep, ProxyCtx(names, fns)) ==>
      (FailsWith(Sub(old(res.index), ListenerType), Sub(res.index, ListenerType), ProxyListenerStep, ProxyListenerLeft, ProxyCtx(names, fns), err.value) &&
      RewroteSome(Sub(old(res.index), ListenerType), Sub(res.index, ListenerType), ProxyListenerStep, ProxyListenerLeft, ProxyCtx(names, fns)) &&
      Sub(res.index, ClusterType) == Sub(old(res.index), ClusterType))
    ensures err.Some? && StepsSucceed(Sub(old(res.index), ListenerType), ProxyListenerStep, ProxyCtx(names, fns)) ==>
      (RewroteAll(Sub(old(res.index), ListenerType), Sub(res.index, ListenerType), ProxyListenerStep, ProxyCtx(names, fns)) &&
      FailsWith(Sub(old(res.index), ClusterType), Sub(res.index, ClusterType), ClusterStep, Kept, SniCtx(snis, fns), err.value) &&
      RewroteSome(Sub(old(res.index), ClusterType), Sub(res.index, ClusterType), ClusterStep, Kept, SniCtx(snis, fns)))
  {
    TypeUrlsDistinct();
    var toHackByName := MakeServiceNamesToHack(c.serviceMeta);
    var toHack := MakeSnisToHack(c, sni);
    names, snis := toHackByName, toHack;
    err := RewriteEach(res, ListenerType, ProxyListenerStep, ProxyListenerLeft, ProxyCtx(toHackByName, fns));
    if err.Some? {
      return;
    }
    err := RewriteEach(res, ClusterType, ClusterStep, Kept, SniCtx(toHack, fns));
  }

  /**
   * A terminating gateway: the cluster pass, then the listener pass, with
   * the error and the outcome of each pass as for a connect proxy.
   */
  method HackTerminatingGateway(res: IndexedResources, c: HackConfiguration, sni: SniFn, fns: HackFns)
    returns (err: Option<string>, ghost snis: map<string, Meta>)
    modifies res
    ensures res.childIndex == old(res.childIndex)
    ensures SnisToHackFrom(c, sni, snis)
    ensures OthersKept(old(res.index), res.index, {ListenerType, ClusterType})
    ensures err.None? <==>
      StepsSucceed(Sub(old(res.index), ClusterType), ClusterStep, SniCtx(snis, fns)) &&
      StepsSucceed(Sub(old(res.index), ListenerType), GatewayListenerStep, SniCtx(snis, fns))
    ensures err.None? ==> RewroteAll(Sub(old(res.index), ClusterType), Sub(res.index, ClusterType), ClusterStep, SniCtx(snis, fns))
    ensures err.None? ==> RewroteAll(Sub(old(res.index), ListenerType), Sub(res.index, ListenerType), GatewayListenerStep, SniCtx(snis, fns))
    ensures err.Some? && !StepsSucceed(Sub(old(res.index), ClusterType), ClusterStep, SniCtx(snis, fns)) ==>
      (FailsWith(Sub(old(res.index), ClusterType), Sub(res.index, ClusterType), ClusterStep, Kept, SniCtx(snis, fns), err.value) &&
      RewroteSome(Sub(old(res.index), ClusterType), Sub(res.index, ClusterType), ClusterStep, Kept, SniCtx(snis, fns)) &&
      Sub(res.index, ListenerType) == Sub(old(res.index), ListenerType))
    ensures err.Some? && StepsSucceed(Sub(old(res.index), ClusterType), ClusterStep, SniCtx(snis, fns)) ==>
      (RewroteAll(Sub(old(res.index), ClusterType), Sub(res.index, ClusterType), ClusterStep, SniCtx(snis, fns)) &&
      FailsWith(Sub(old(res.index), ListenerType), Sub(res.index, ListenerType), GatewayListenerStep, GatewayListenerLeft, SniCtx(snis, fns), err.value) &&
      RewroteSome(Sub(old(res.index), ListenerType), Sub(res.index, ListenerType), GatewayListenerStep, GatewayListenerLeft, SniCtx(snis, fns)))
  {
    TypeUrlsDistinct();
    var toHack := MakeSnisToHack(c, sni);
    snis := toHack;
    err := RewriteEach(res, ClusterType, ClusterStep, Kept, SniCtx(toHack, fns));
    if err.Some? {
      return;
    }
    err := RewriteEach(res, ListenerType, GatewayListenerStep, GatewayListenerLeft, SniCtx(toHack, fns));
  }

  /**
   * `MutateIndexedResources`: the passes of the proxy's kind, with their
   * error and outcome; any other kind changes nothing. `names` and `snis`
   * are the Lambdas to hack, by name and by SNI.
   */
  method MutateIndexedResources(res: IndexedResources, c: HackConfiguration, sni: SniFn, fns: HackFns)
    returns (err: Option<string>, ghost names: map<string, Meta>, ghost snis: map<string, Meta>)
    modifies res
    ensures res.childIndex == old(res.childIndex)
    ensures OthersKept(old(res.index), res.index, {ListenerType, ClusterType})
    ensures c.kind != ConnectProxy && c.kind != TerminatingGateway ==> res.index == old(res.index) && err.None?
    ensures c.kind == ConnectProxy ==> NamesToHackFrom(c.serviceMeta, names)
    ensures c.kind == ConnectProxy || c.kind == TerminatingGateway ==> SnisToHackFrom(c, sni, snis)
    // A connect proxy: listeners, then clusters.
    ensures c.kind == ConnectProxy ==>
      (err.None? <==>
        StepsSucceed(Sub(old(res.index), ListenerType), ProxyListenerStep, ProxyCtx(names, fns)) &&
        StepsSucceed(Sub(old(res.index), ClusterType), ClusterStep, SniCtx(snis, fns)))
    ensures c.kind == ConnectProxy && err.None? ==>
      RewroteAll(Sub(old(res.index), ListenerType), Sub(res.index, ListenerType), ProxyListenerStep, ProxyCtx(names, fns))
    ensures c.kind == ConnectProxy && err.None? ==>
      RewroteAll(Sub(old(res.index), ClusterType), Sub(res.index, ClusterType), ClusterStep, SniCtx(snis, fns))
    ensures c.kind == ConnectProxy && err.Some? && !StepsSucceed(Sub(old(res.index), ListenerType), ProxyListenerStep, ProxyCtx(names, fns)) ==>
      (FailsWith(Sub(old(res.index), ListenerType), Sub(res.index, ListenerType), ProxyListenerStep, ProxyListenerLeft, ProxyCtx(names, fns), err.value) &&
      RewroteSome(Sub(old(res.index), ListenerType), Sub(res.index, ListenerType), ProxyListenerStep, ProxyListenerLeft, ProxyCtx(names, fns)) &&
      Sub(res.index, ClusterType) == Sub(old(res.index), ClusterType))
    ensures c.kind == ConnectProxy && err.Some? && StepsSucceed(Sub(old(res.index), ListenerType), ProxyListenerStep, ProxyCtx(names, fns)) ==>
      (RewroteAll(Sub(old(res.index), ListenerType), Sub(res.index, ListenerType), ProxyListenerStep, ProxyCtx(names, fns)) &&
      FailsWith(Sub(old(res.index), ClusterType), Sub(res.index, ClusterType), ClusterStep, Kept, SniCtx(snis, fns), err.value) &&
      RewroteSome(Sub(old(res.index), ClusterType), Sub(res.index, ClusterType), ClusterStep, Kept, SniCtx(snis, fns)))
    // A terminating gateway: clusters, then listeners.
    ensures c.kind == TerminatingGateway ==>
      (err.None? <==>
        StepsSucceed(Sub(old(res.index), ClusterType), ClusterStep, SniCtx(snis, fns)) &&
        StepsSucceed(Sub(old(res.index), ListenerType), GatewayListenerStep, SniCtx(snis, fns)))
    ensures c.kind == TerminatingGateway && err.None? ==>
      RewroteAll(Sub(old(res.index), ClusterType), Sub(res.index, ClusterType), ClusterStep, SniCtx(snis, fns))
    ensures c.kind == TerminatingGateway && err.None? ==>
      RewroteAll(Sub(old(res.index), ListenerType), Sub(res.index, ListenerType), GatewayListenerStep, SniCtx(snis, fns))
    ensures c.kind == TerminatingGateway && err.Some? && !StepsSucceed(Sub(old(res.index), ClusterType), ClusterStep, SniCtx(snis, fns)) ==>
      (FailsWith(Sub(old(res.index), ClusterType), Sub(res.index, ClusterType), ClusterStep, Kept, SniCtx(snis, fns), err.value) &&
      RewroteSome(Sub(old(res.index), ClusterType), Sub(res.index, ClusterType), ClusterStep, Kept, SniCtx(snis, fns)) &&
      Sub(res.index, ListenerType) == Sub(old(res.index), ListenerType))
    ensures c.kind == TerminatingGateway && err.Some? && StepsSucceed(Sub(old(res.index), ClusterType), ClusterStep, SniCtx(snis, fns)) ==>
      (RewroteAll(Sub(old(res.index), ClusterType), Sub(res.index, ClusterType), ClusterStep, SniCtx(snis, fns)) &&
      FailsWith(Sub(old(res.index), ListenerType), Sub(res.index, ListenerType), GatewayListenerStep, GatewayListenerLeft, SniCtx(snis, fns), err.value) &&
      RewroteSome(Sub(old(res.index), ListenerType), Sub(res.index, ListenerType), GatewayListenerStep, GatewayListenerLeft, SniCtx(snis, fns)))
  {
    err, names, snis := None, map[], map[];
    if c.kind == ConnectProxy {
      err, names, snis := HackConnectProxy(res, c, sni, fns);
    } else if c.kind == TerminatingGateway {
      err, snis := HackTerminatingGateway(res, c, sni, fns);
    }
  }

  /** A listener with no `:` in its name, or for a service that is no Lambda, is kept. */
  lemma NonLambdaListenerKept(ctx: ProxyCtx, name: string, l: Listener)
    requires ':' !in name || ListenerServiceName(name) !in ctx.names
    ensures ProxyListenerStep(ctx, name, ListenerMsg(l)) == Success(ListenerMsg(l))
  {
  }

  /** Chains of a terminating gateway whose SNI is not to be hacked are kept as they are. */
  lemma UnselectedChainsKept(l: Listener, snis: map<string, Meta>, rw: (Filter, LambdaConfig) -> Option<Filter>)
    requires forall i :: 0 <= i < |l.filterChains| ==> GetSni(Some(l.filterChains[i])) !in snis
    ensures HackedListener(l, BySni(snis), rw) == Some(l)
  {
    var r := HackedChains(l.filterChains, BySni(snis), rw);
    assert r.Some?;
    assert r.value == l.filterChains;
  }
}

=== FILE: serverless_patcher.dfy ===
// The serverless patcher plugin: which services are AWS Lambda functions,
// going by their meta tags, and which listeners, clusters, routes and filter
// chains are handed to a service's patcher. What a patcher does to a resource
// lives with the patcher and is a parameter here.

module ServerlessPatcher {
  import opened Wrappers
  import opened XdsShared

  const LambdaPrefix: string := "consul-serverless-patcher.hashicorp.com/"
  const LambdaEnabledTag: string := LambdaPrefix + "alpha/lambda/enabled"
  const LambdaArnTag: string := LambdaPrefix + "alpha/lambda/arn"
  const LambdaPayloadPassthroughTag: string := LambdaPrefix + "alpha/lambda/payload-passhthrough"
  const LambdaRegionTag: string := LambdaPrefix + "alpha/lambda/region"

  /** `lambdaPatcher`. */
  datatype LambdaPatcher = LambdaPatcher(arn: string, payloadPassthrough: bool, region: string, kind: ServiceKind)

  /** Why a service gets no patcher: not a Lambda, or a Lambda without an ARN or a region. */
  datatype PatcherError = NotEnabled | ArnMissing | RegionMissing

  /** A meta tag, read the Go way: a missing tag reads as "". */
  function Tag(meta: Meta, tag: string): string
  {
    Lookup(meta, tag, "")
  }

  /**
   * `makePatcher`: a service whose enabled tag is set gets a patcher, if it
   * has both an ARN and a region; payload passthrough is on when its tag is
   * present with any value but `false`.
   */
  function MakePatcher(sc: ServiceConfig): (r: Result<LambdaPatcher, PatcherError>)
    ensures r.Success? <==> Tag(sc.meta, LambdaEnabledTag) != "" && Tag(sc.meta, LambdaArnTag) != "" && Tag(sc.meta, LambdaRegionTag) != ""
    ensures Tag(sc.meta, LambdaEnabledTag) == "" ==> r == Failure(NotEnabled)
    ensures Tag(sc.meta, LambdaEnabledTag) != "" && Tag(sc.meta, LambdaArnTag) == "" ==> r == Failure(ArnMissing)
    ensures Tag(sc.meta, LambdaEnabledTag) != "" && Tag(sc.meta, LambdaArnTag) != "" && Tag(sc.meta, LambdaRegionTag) == "" ==>
      r == Failure(RegionMissing)
    ensures r.Success? ==> r.value.arn == Tag(sc.meta, LambdaArnTag) && r.value.region == Tag(sc.meta, LambdaRegionTag) && r.value.kind == sc.kind
    ensures r.Success? ==> (r.value.payloadPassthrough <==> LambdaPayloadPassthroughTag in sc.meta && sc.meta[LambdaPayloadPassthroughTag] != "false")
  {
    if LambdaEnabledTag in sc.meta && sc.meta[LambdaEnabledTag] != "" then
      var arn := Tag(sc.meta, LambdaArnTag);
      if arn == "" then Failure(ArnMissing)
      else
        var region := Tag(sc.meta, LambdaRegionTag);
        if region == "" then Failure(RegionMissing)
        else
          var passthrough := LambdaPayloadPassthroughTag in sc.meta && sc.meta[LambdaPayloadPassthroughTag] != "false";
          Success(LambdaPatcher(arn, passthrough, region, sc.kind))
    else Failure(NotEnabled)
  }

  /** The patchers of a configuration: one for each service `MakePatcher` accepts. */
  function PatchersFor(configs: map<string, ServiceConfig>): (r: map<string, LambdaPatcher>)
    ensures forall n :: n in r <==> n in configs && MakePatcher(configs[n]).Success?
    ensures forall n :: n in r ==> MakePatcher(configs[n]) == Success(r[n])
  {
    map n | n in configs && MakePatcher(configs[n]).Success? :: MakePatcher(configs[n]).value
  }

  /** `GetPatchers`: the loop over the service configurations, keeping each patcher made. */
  method GetPatchers(configs: map<string, ServiceConfig>) returns (patchers: map<string, LambdaPatcher>)
    ensures patchers == PatchersFor(configs)
  {
    patchers := map[];
    var todo := configs.Keys;
    while todo != {}
      invariant todo <= configs.Keys
      invariant forall n :: n in patchers <==> n in configs && n !in todo && MakePatcher(configs[n]).Success?
      invariant forall n :: n in patchers ==> MakePatcher(configs[n]) == Success(patchers[n])
      decreases todo
    {
      var name :| name in todo;
      var p := MakePatcher(configs[name]);
      if p.Success? {
        patchers := patchers[name := p.value];
      }
      todo := todo - {name};
    }
  }

  datatype SniError = NoSniMapping | NoPatcher

  /** `GetPacherBySni`: the patcher of the service an SNI maps to. */
  function GetPacherBySni(config: MutateConfiguration, patchers: map<string, LambdaPatcher>, sni: string): (r: Result<LambdaPatcher, SniError>)
    ensures sni !in config.sniToServiceName ==> r == Failure(NoSniMapping)
    ensures sni in config.sniToServiceName && config.sniToServiceName[sni] !in patchers ==> r == Failure(NoPatcher)
    ensures r.Success? <==> sni in config.sniToServiceName && config.sniToServiceName[sni] in patchers
    ensures r.Success? ==> r.value == patchers[config.sniToServiceName[sni]]
  {
    if sni !in config.sniToServiceName then Failure(NoSniMapping)
    else if config.sniToServiceName[sni] !in patchers then Failure(NoPatcher)
    else Success(patchers[config.sniToServiceName[sni]])
  }

  /**
   * What a patcher does to each kind of resource: the new listener of a
   * connect proxy (its error is ignored), the new cluster or an error, the
   * route after it is patched in place (its error is ignored), and the new
   * filter (its error is ignored).
   */
  datatype PatchFns = PatchFns(
    connectProxyListener: (LambdaPatcher, Message) -> Message,
    cluster: (LambdaPatcher, Message) -> Result<Message, string>,
    route: (LambdaPatcher, Message) -> Message,
    filter: (LambdaPatcher, Filter) -> Filter)

  /** What every pass reads: the configuration, the patchers made from it, and the patch operations. */
  datatype Ctx = Ctx(config: MutateConfiguration, patchers: map<string, LambdaPatcher>, fns: PatchFns)

  /** A connect proxy's listener is patched by the patcher of the service its name starts with, and kept otherwise. */
  function ProxyListenerStep(ctx: Ctx, name: string, msg: Message): (r: Result<Message, string>)
    ensures r.Success?
    ensures ListenerServiceName(name) !in ctx.patchers ==> r.value == msg
    ensures ListenerServiceName(name) in ctx.patchers ==> r.value == ctx.fns.connectProxyListener(ctx.patchers[ListenerServiceName(name)], msg)
  {
    var service := ListenerServiceName(name);
    if service in ctx.patchers then Success(ctx.fns.connectProxyListener(ctx.patchers[service], msg))
    else Success(msg)
  }

  /** A cluster is replaced by what its SNI's patcher makes of it, and kept when there is no patcher or patching fails. */
  function ClusterStep(ctx: Ctx, sni: string, msg: Message): (r: Result<Message, string>)
    ensures r.Success?
    ensures GetPacherBySni(ctx.config, ctx.patchers, sni).Failure? ==> r.value == msg
    ensures GetPacherBySni(ctx.config, ctx.patchers, sni).Success? ==>
      var c := ctx.fns.cluster(GetPacherBySni(ctx.config, ctx.patchers, sni).value, msg);
      r.value == if c.Success? then c.value else msg
  {
    match GetPacherBySni(ctx.config, ctx.patchers, sni)
    case Failure(_) => Success(msg)
    case Success(p) =>
      match ctx.fns.cluster(p, msg)
      case Failure(_) => Success(msg)
      case Success(c) => Success(c)
  }

  /** A route is patched in place by its SNI's patcher, and kept when there is none. */
  function RouteStep(ctx: Ctx, sni: string, msg: Message): (r: Result<Message, string>)
    ensures r.Success?
    ensures GetPacherBySni(ctx.config, ctx.patchers, sni).Failure? ==> r.value == msg
    ensures GetPacherBySni(ctx.config, ctx.patchers, sni).Success? ==>
      r.value == ctx.fns.route(GetPacherBySni(ctx.config, ctx.patchers, sni).value, msg)
  {
    match GetPacherBySni(ctx.config, ctx.patchers, sni)
    case Failure(_) => Success(msg)
    case Success(p) => Success(ctx.fns.route(p, msg))
  }

  /** Every filter of a chain, patched by `p`, in order. */
  function PatchedFilters(fns: PatchFns, p: LambdaPatcher, filters: seq<Filter>): (r: seq<Filter>)
    ensures |r| == |filters|
    ensures forall i :: 0 <= i < |r| ==> r[i] == fns.filter(p, filters[i])
  {
    seq(|filters|, i requires 0 <= i < |filters| => fns.filter(p, filters[i]))
  }

  /** A terminating gateway's filter chain: its filters are patched by its SNI's patcher, or it is kept when there is none. */
  function PatchedChain(ctx: Ctx, chain: FilterChain): (r: FilterChain)
    ensures r.filterChainMatch == chain.filterChainMatch && |r.filters| == |chain.filters|
    ensures GetPacherBySni(ctx.config, ctx.patchers, GetSni(Some(chain))).Failure? ==> r == chain
  {
    match GetPacherBySni(ctx.config, ctx.patchers, GetSni(Some(chain)))
    case Failure(_) => chain
    case Success(p) => chain.(filters := PatchedFilters(ctx.fns, p, chain.filters))
  }

  /** `patchTerminatingGatewayListener` as a value: every chain patched, nothing else changed. */
  function PatchedGatewayListener(ctx: Ctx, l: Listener): (r: Listener)
    ensures r.name == l.name && |r.filterChains| == |l.filterChains|
    ensures forall i :: 0 <= i < |r.filterChains| ==> r.filterChains[i] == PatchedChain(ctx, l.filterChains[i])
  {
    l.(filterChains := seq(|l.filterChains|, i requires 0 <= i < |l.filterChains| => PatchedChain(ctx, l.filterChains[i])))
  }

  /**
   * `patchTerminatingGatewayListener`: the loop over the chains, and for a
   * chain with a patcher the loop over its filters.
   */
  method PatchTerminatingGatewayListener(ctx: Ctx, l: Listener) returns (r: Listener)
    ensures r == PatchedGatewayListener(ctx, l)
  {
    var chains := l.filterChains;
    var i := 0;
    while i < |chains|
      invariant 0 <= i <= |chains| && |chains| == |l.filterChains|
      invariant forall j :: 0 <= j < i ==> chains[j] == PatchedChain(ctx, l.filterChains[j])
      invariant forall j :: i <= j < |chains| ==> chains[j] == l.filterChains[j]
    {
      var chain := chains[i];
      var p := GetPacherBySni(ctx.config, ctx.patchers, GetSni(Some(chain)));
      if p.Success? {
        var filters: seq<Filter> := [];
        var k := 0;
        while k < |chain.filters|
          invariant 0 <= k <= |chain.filters|
          invariant filters == PatchedFilters(ctx.fns, p.value, chain.filters[..k])
        {
          filters := filters + [ctx.fns.filter(p.value, chain.filters[k])];
          k := k + 1;
        }
        assert chain.filters[..k] == chain.filters;
        chains := chains[i := chain.(filters := filters)];
      }
      i := i + 1;
    }
    r := l.(filterChains := chains);
  }

  /** A terminating gateway's listener entry: the listener with its chains patched; any other message aborts the pass. */
  function GatewayListenerStep(ctx: Ctx, name: string, msg: Message): (r: Result<Message, string>)
    ensures r.Failure? <==> !msg.ListenerMsg?
    ensures r.Failure? ==> r.error == "error decoding listener"
    ensures r.Success? ==> r.value == ListenerMsg(PatchedGatewayListener(ctx, msg.listener))
  {
    if msg.ListenerMsg? then Success(ListenerMsg(PatchedGatewayListener(ctx, msg.listener)))
    else Failure("error decoding listener")
  }

  /** The connect proxy passes: its listeners, then its clusters. */
  method PatchConnectProxy(res: IndexedResources, ctx: Ctx)
    modifies res
    ensures res.childIndex == old(res.childIndex)
    ensures OthersKept(old(res.index), res.index, {ListenerType, ClusterType})
    ensures RewroteAll(Sub(old(res.index), ListenerType), Sub(res.index, ListenerType), ProxyListenerStep, ctx)
    ensures RewroteAll(Sub(old(res.index), ClusterType), Sub(res.index, ClusterType), ClusterStep, ctx)
  {
    TypeUrlsDistinct();
    var _ := RewriteEach(res, ListenerType, ProxyListenerStep, Kept, ctx);
    var _ := RewriteEach(res, ClusterType, ClusterStep, Kept, ctx);
  }

  /**
   * The listener and route passes of a terminating gateway: a message that
   * is not a listener aborts with an error before the routes are patched.
   */
  method PatchGatewayListenersAndRoutes(res: IndexedResources, ctx: Ctx) returns (err: Option<string>)
    modifies res
    ensures res.childIndex == old(res.childIndex)
    ensures Sub(res.index, ClusterType) == Sub(old(res.index), ClusterType)
    ensures err.None? <==> forall k :: k in Sub(old(res.index), ListenerType) ==> Sub(old(res.index), ListenerType)[k].ListenerMsg?
    ensures err.None? ==> OthersKept(old(res.index), res.index, {ListenerType, RouteType})
    ensures err.None? ==> RewroteAll(Sub(old(res.index), ListenerType), Sub(res.index, ListenerType), GatewayListenerStep, ctx)
    ensures err.None? ==> RewroteAll(Sub(old(res.index), RouteType), Sub(res.index, RouteType), RouteStep, ctx)
    ensures err.Some? ==> err.value == "error decoding listener" && OthersKept(old(res.index), res.index, {ListenerType})
    ensures err.Some? ==> RewroteSome(Sub(old(res.index), ListenerType), Sub(res.index, ListenerType), GatewayListenerStep, Kept, ctx)
  {
    TypeUrlsDistinct();
    err := RewriteEach(res, ListenerType, GatewayListenerStep, Kept, ctx);
    if err.Some? {
      return;
    }
    var _ := RewriteEach(res, RouteType, RouteStep, Kept, ctx);
  }

  /** The terminating gateway passes: its clusters, then its listeners and routes. */
  method PatchTerminatingGateway(res: IndexedResources, ctx: Ctx) returns (err: Option<string>)
    modifies res
    ensures res.childIndex == old(res.childIndex)
    ensures RewroteAll(Sub(old(res.index), ClusterType), Sub(res.index, ClusterType), ClusterStep, ctx)
    ensures err.None? <==> forall k :: k in Sub(old(res.index), ListenerType) ==> Sub(old(res.index), ListenerType)[k].ListenerMsg?
    ensures err.None? ==> OthersKept(old(res.index), res.index, {ListenerType, ClusterType, RouteType})
    ensures err.None? ==> RewroteAll(Sub(old(res.index), ListenerType), Sub(res.index, ListenerType), GatewayListenerStep, ctx)
    ensures err.None? ==> RewroteAll(Sub(old(res.index), RouteType), Sub(res.index, RouteType), RouteStep, ctx)
    ensures err.Some? ==> err.value == "error decoding listener" && OthersKept(old(res.index), res.index, {ListenerType, ClusterType})
    ensures err.Some? ==> RewroteSome(Sub(old(res.index), ListenerType), Sub(res.index, ListenerType), GatewayListenerStep, Kept, ctx)
  {
    TypeUrlsDistinct();
    var _ := RewriteEach(res, ClusterType, ClusterStep, Kept, ctx);
    err := PatchGatewayListenersAndRoutes(res, ctx);
  }

  /**
   * `MutateIndexedResources`: the patchers are made from the configuration,
   * then the passes of the proxy's kind run; any other kind changes nothing.
   */
  method MutateIndexedResources(res: IndexedResources, config: MutateConfiguration, fns: PatchFns) returns (err: Option<string>)
    modifies res
    ensures res.childIndex == old(res.childIndex)
    ensures config.kind != ConnectProxy && config.kind != TerminatingGateway ==> res.index == old(res.index) && err.None?
    ensures config.kind == ConnectProxy ==> err.None?
    ensures config.kind == ConnectProxy ==> OthersKept(old(res.index), res.index, {ListenerType, ClusterType})
    ensures config.kind == ConnectProxy ==>
      RewroteAll(Sub(old(res.index), ListenerType), Sub(res.index, ListenerType), ProxyListenerStep, Ctx(config, PatchersFor(config.serviceConfigs), fns))
    ensures config.kind == ConnectProxy ==>
      RewroteAll(Sub(old(res.index), ClusterType), Sub(res.index, ClusterType), ClusterStep, Ctx(config, PatchersFor(config.serviceConfigs), fns))
    ensures config.kind == TerminatingGateway ==>
      RewroteAll(Sub(old(res.index), ClusterType), Sub(res.index, ClusterType), ClusterStep, Ctx(config, PatchersFor(config.serviceConfigs), fns))
    ensures config.kind == TerminatingGateway ==>
      (err.None? <==> forall k :: k in Sub(old(res.index), ListenerType) ==> Sub(old(res.index), ListenerType)[k].ListenerMsg?)
    ensures config.kind == TerminatingGateway && err.None? ==> OthersKept(old(res.index), res.index, {ListenerType, ClusterType, RouteType})
    ensures config.kind == TerminatingGateway && err.None? ==>
      RewroteAll(Sub(old(res.index), ListenerType), Sub(res.index, ListenerType), GatewayListenerStep, Ctx(config, PatchersFor(config.serviceConfigs), fns))
    ensures config.kind == TerminatingGateway && err.None? ==>
      RewroteAll(Sub(old(res.index), RouteType), Sub(res.index, RouteType), RouteStep, Ctx(config, PatchersFor(config.serviceConfigs), fns))
    ensures config.kind == TerminatingGateway && err.Some? ==>
      err.value == "error decoding listener" && OthersKept(old(res.index), res.index, {ListenerType, ClusterType})
    ensures config.kind == TerminatingGateway && err.Some? ==>
      RewroteSome(Sub(old(res.index), ListenerType), Sub(res.index, ListenerType), GatewayListenerStep, Kept, Ctx(config, PatchersFor(config.serviceConfigs), fns))
  {
    var patchers := GetPatchers(config.serviceConfigs);
    var ctx := Ctx(config, patchers, fns);
    err := None;
    if config.kind == ConnectProxy {
      PatchConnectProxy(res, ctx);
    } else if config.kind == TerminatingGateway {
      err := PatchTerminatingGateway(res, ctx);
    }
  }

  // ---------------------------------------------------------------------
  // What the selection promises

  /** A listener whose service has no patcher, a cluster or a route whose SNI maps to none, is left as it was. */
  lemma UnpatchedEntriesKept(ctx: Ctx, name: string, msg: Message)
    ensures ListenerServiceName(name) !in ctx.patchers ==> ProxyListenerStep(ctx, name, msg) == Success(msg)
    ensures GetPacherBySni(ctx.config, ctx.patchers, name).Failure? ==>
      ClusterStep(ctx, name, msg) == Success(msg) && RouteStep(ctx, name, msg) == Success(msg)
  {
  }

  /** A listener named without a `:` is for no service, and no patcher is registered for the empty name unless a service has it. */
  lemma ListenerWithoutServiceKept(ctx: Ctx, name: string, msg: Message)
    requires ':' !in name && "" !in ctx.patchers
    ensures ProxyListenerStep(ctx, name, msg) == Success(msg)
  {
  }

  /** A service is patched exactly when it is a Lambda with an ARN and a region. */
  lemma PatchedServices(configs: map<string, ServiceConfig>, name: string)
    requires name in configs
    ensures name in PatchersFor(configs) <==>
      Tag(configs[name].meta, LambdaEnabledTag) != "" && Tag(configs[name].meta, LambdaArnTag) != "" && Tag(configs[name].meta, LambdaRegionTag) != ""
  {
  }
}

=== FILE: services.dfy ===
// The agent's service registration: validating a service and its checks,
// filling in default tagged addresses and check fields, replacing the checks
// of a re-registered service, removing a service with its sidecars, and
// reaping services whose checks stay critical too long.
//
// The agent's local state store is not part of this model: it is the maps
// `services` and `checks` of `Agent`, where adding overwrites an entry and
// removing a service deletes it and then its checks, doing nothing for an
// unknown service.

module AgentServices {
  import opened Wrappers
  import opened Strings
  import opened ConfigSource

  /** The tagged address keys and the critical status of Consul's structs and api packages. */
  const TaggedAddressLANIPv4: string := "lan_ipv4"
  const TaggedAddressWANIPv4: string := "wan_ipv4"
  const TaggedAddressLANIPv6: string := "lan_ipv6"
  const TaggedAddressWANIPv6: string := "wan_ipv6"
  const HealthCritical: string := "critical"

  /** What `net.ParseIP` makes of an address: nothing, an address with a four-byte form, or one without. */
  datatype IpKind = NotIp | IPv4 | IPv6

  datatype ServiceAddress = ServiceAddress(address: string, port: int)

  datatype Weights = Weights(passing: int, warning: int)

  /** A registered service as the local state holds it. */
  datatype ServiceRecord = ServiceRecord(
    id: string, service: string, tags: seq<string>, address: string, port: int,
    weights: Option<Weights>, taggedAddresses: Option<map<string, ServiceAddress>>,
    locallyRegisteredAsSidecar: bool)

  /** `structs.NodeService`: the fields registration reads or fills in; `None` is a nil pointer or map. */
  class NodeService {
    var id: string
    var service: string
    var tags: seq<string>
    var address: string
    var port: int
    var weights: Option<Weights>
    var taggedAddresses: Option<map<string, ServiceAddress>>
    var locallyRegisteredAsSidecar: bool

    constructor(id: string, service: string, tags: seq<string>, address: string, port: int)
      ensures this.id == id && this.service == service && this.tags == tags
      ensures this.address == address && this.port == port
      ensures weights == None && taggedAddresses == None && !locallyRegisteredAsSidecar
    {
      this.id, this.service, this.tags := id, service, tags;
      this.address, this.port := address, port;
      weights, taggedAddresses, locallyRegisteredAsSidecar := None, None, false;
    }

    function Record(): (r: ServiceRecord)
      reads this
      ensures r.id == id && r.service == service && r.taggedAddresses == taggedAddresses
    {
      ServiceRecord(id, service, tags, address, port, weights, taggedAddresses, locallyRegisteredAsSidecar)
    }

    /** The four `if`s of `addServiceInternal` that fill in the tagged addresses. */
    method SetDefaultTaggedAddresses(parseIp: string -> IpKind)
      modifies this
      ensures taggedAddresses == Some(DefaultTaggedAddresses(old(taggedAddresses), address, port, parseIp(address)))
      ensures (id, service, tags, address, port) == old((id, service, tags, address, port))
      ensures (weights, locallyRegisteredAsSidecar) == old((weights, locallyRegisteredAsSidecar))
    {
      var kind := parseIp(address);
      var tagged := if taggedAddresses.Some? then taggedAddresses.value else map[];
      var sa := ServiceAddress(address, port);
      if TaggedAddressLANIPv4 !in tagged && kind == IPv4 {
        tagged := tagged[TaggedAddressLANIPv4 := sa];
      }
      if TaggedAddressWANIPv4 !in tagged && kind == IPv4 {
        tagged := tagged[TaggedAddressWANIPv4 := sa];
      }
      if TaggedAddressLANIPv6 !in tagged && kind == IPv6 {
        tagged := tagged[TaggedAddressLANIPv6 := sa];
      }
      if TaggedAddressWANIPv6 !in tagged && kind == IPv6 {
        tagged := tagged[TaggedAddressWANIPv6 := sa];
      }
      taggedAddresses := Some(tagged);
    }
  }

  // ---------------------------------------------------------------------
  // Validation

  /** A check definition; `kind` is what its `Type()` reports. */
  datatype CheckType = CheckType(checkId: string, name: string, status: string, notes: string, kind: string)

  /** Why a service is rejected; the texts of the errors are not modelled. */
  datatype ServiceError =
    | NameMissing
    | CheckInvalid(reason: string)
    | TaggedAddressNotIPv4(key: string)
    | TaggedAddressNotIPv6(key: string)

  /** The first check definition that does not validate, by its error. */
  function FirstCheckError(cs: seq<CheckType>, checkErr: CheckType -> Option<string>): (r: Option<string>)
    ensures r.None? <==> forall i :: 0 <= i < |cs| ==> checkErr(cs[i]).None?
    ensures r.Some? ==> exists i :: 0 <= i < |cs| && checkErr(cs[i]) == r && forall j :: 0 <= j < i ==> checkErr(cs[j]).None?
    decreases |cs|
  {
    if |cs| == 0 then None
    else if checkErr(cs[0]).Some? then checkErr(cs[0])
    else
      var r := FirstCheckError(cs[1..], checkErr);
      assert forall i :: 0 <= i < |cs| - 1 ==> cs[1..][i] == cs[i + 1];
      r
  }

  /** A tagged address under `key`, if there is one, parses to the `want` family. */
  predicate FamilyOk(tagged: map<string, ServiceAddress>, key: string, want: IpKind, parseIp: string -> IpKind)
  {
    key in tagged ==> parseIp(tagged[key].address) == want
  }

  /** One tagged address check: a missing key passes, a wrong family is an error naming the key. */
  function CheckFamily(tagged: map<string, ServiceAddress>, key: string, want: IpKind, parseIp: string -> IpKind): (r: Option<ServiceError>)
    requires want != NotIp
    ensures r.None? <==> FamilyOk(tagged, key, want, parseIp)
    ensures r.Some? ==> r.value == if want == IPv4 then TaggedAddressNotIPv4(key) else TaggedAddressNotIPv6(key)
  {
    if key in tagged && parseIp(tagged[key].address) != want then
      Some(if want == IPv4 then TaggedAddressNotIPv4(key) else TaggedAddressNotIPv6(key))
    else None
  }

  /** The tagged address checks as `validateService` runs them: the LAN IPv6 check is made twice and the WAN IPv6 one never. */
  function TaggedAddressErrorAsWritten(tagged: Option<map<string, ServiceAddress>>, parseIp: string -> IpKind): (r: Option<ServiceError>)
    ensures tagged.None? ==> r.None?
    ensures tagged.Some? ==> (r.None? <==> (FamilyOk(tagged.value, TaggedAddressLANIPv4, IPv4, parseIp) &&
      FamilyOk(tagged.value, TaggedAddressWANIPv4, IPv4, parseIp) && FamilyOk(tagged.value, TaggedAddressLANIPv6, IPv6, parseIp)))
  {
    if tagged.None? then None
    else
      var t := tagged.value;
      var lan4 := CheckFamily(t, TaggedAddressLANIPv4, IPv4, parseIp);
      var wan4 := CheckFamily(t, TaggedAddressWANIPv4, IPv4, parseIp);
      var lan6 := CheckFamily(t, TaggedAddressLANIPv6, IPv6, parseIp);
      if lan4.Some? then lan4 else if wan4.Some? then wan4 else if lan6.Some? then lan6 else CheckFamily(t, TaggedAddressLANIPv6, IPv6, parseIp)
  }

  /** The tagged address checks with the second LAN IPv6 check reading the WAN IPv6 key, as the error text and the defaults intend. */
  function TaggedAddressError(tagged: Option<map<string, ServiceAddress>>, parseIp: string -> IpKind): (r: Option<ServiceError>)
    ensures tagged.None? ==> r.None?
    ensures tagged.Some? ==> (r.None? <==> AddressesOk(tagged.value, parseIp))
  {
    if tagged.None? then None
    else
      var t := tagged.value;
      var lan4 := CheckFamily(t, TaggedAddressLANIPv4, IPv4, parseIp);
      var wan4 := CheckFamily(t, TaggedAddressWANIPv4, IPv4, parseIp);
      var lan6 := CheckFamily(t, TaggedAddressLANIPv6, IPv6, parseIp);
      if lan4.Some? then lan4 else if wan4.Some? then wan4 else if lan6.Some? then lan6 else CheckFamily(t, TaggedAddressWANIPv6, IPv6, parseIp)
  }

  /** Each of the four tagged addresses present is of its family. */
  predicate AddressesOk(t: map<string, ServiceAddress>, parseIp: string -> IpKind)
  {
    FamilyOk(t, TaggedAddressLANIPv4, IPv4, parseIp) && FamilyOk(t, TaggedAddressWANIPv4, IPv4, parseIp) &&
    FamilyOk(t, TaggedAddressLANIPv6, IPv6, parseIp) && FamilyOk(t, TaggedAddressWANIPv6, IPv6, parseIp)
  }

  /** As written, the WAN IPv6 address plays no part in validation. */
  lemma WanIPv6IgnoredAsWritten(t: map<string, ServiceAddress>, parseIp: string -> IpKind)
    ensures TaggedAddressErrorAsWritten(Some(t), parseIp) == TaggedAddressErrorAsWritten(Some(t - {TaggedAddressWANIPv6}), parseIp)
  {
    var u := t - {TaggedAddressWANIPv6};
    assert forall k :: k != TaggedAddressWANIPv6 ==> (k in t <==> k in u) && (k in t ==> t[k] == u[k]);
  }

  /** A WAN IPv6 tagged address holding an IPv4 address passes as written and fails once corrected. */
  lemma WanIPv6Counterexample()
    ensures var t := map[TaggedAddressWANIPv6 := ServiceAddress("10.0.0.1", 8080)];
      var parseIp := (a: string) => IPv4;
      TaggedAddressErrorAsWritten(Some(t), parseIp) == None &&
      TaggedAddressError(Some(t), parseIp) == Some(TaggedAddressNotIPv6(TaggedAddressWANIPv6))
  {
    var t := map[TaggedAddressWANIPv6 := ServiceAddress("10.0.0.1", 8080)];
    var parseIp := (a: string) => IPv4;
    assert TaggedAddressLANIPv4 !in t && TaggedAddressWANIPv4 !in t && TaggedAddressLANIPv6 !in t;
    assert CheckFamily(t, TaggedAddressWANIPv6, IPv6, parseIp) == Some(TaggedAddressNotIPv6(TaggedAddressWANIPv6));
  }

  /** The three tagged addresses `validateService` as written reads (LAN IPv4, WAN IPv4, LAN IPv6) are of their families. */
  predicate AddressesOkAsWritten(t: map<string, ServiceAddress>, parseIp: string -> IpKind)
  {
    FamilyOk(t, TaggedAddressLANIPv4, IPv4, parseIp) && FamilyOk(t, TaggedAddressWANIPv4, IPv4, parseIp) &&
    FamilyOk(t, TaggedAddressLANIPv6, IPv6, parseIp)
  }

  /** The outcome of `validateService` as written: the name, then each check definition, then the tagged addresses. */
  function ServiceValidation(name: string, tagged: Option<map<string, ServiceAddress>>, chkTypes: seq<CheckType>,
                             checkErr: CheckType -> Option<string>, parseIp: string -> IpKind): (r: Option<ServiceError>)
  {
    if name == "" then Some(NameMissing)
    else match FirstCheckError(chkTypes, checkErr)
      case Some(reason) => Some(CheckInvalid(reason))
      case None => TaggedAddressErrorAsWritten(tagged, parseIp)
  }

  /**
   * A service is accepted exactly when it is named, all its check
   * definitions validate and its LAN IPv4, WAN IPv4 and LAN IPv6 tagged
   * addresses are of their families; the WAN IPv6 one is not looked at.
   */
  lemma ServiceValidationAccepts(name: string, tagged: Option<map<string, ServiceAddress>>, chkTypes: seq<CheckType>,
                                 checkErr: CheckType -> Option<string>, parseIp: string -> IpKind)
    ensures ServiceValidation(name, tagged, chkTypes, checkErr, parseIp).None? <==>
      name != "" && (forall i :: 0 <= i < |chkTypes| ==> checkErr(chkTypes[i]).None?) &&
      (tagged.Some? ==> AddressesOkAsWritten(tagged.value, parseIp))
    ensures name == "" ==> ServiceValidation(name, tagged, chkTypes, checkErr, parseIp) == Some(NameMissing)
    ensures (ServiceValidation(name, tagged, chkTypes, checkErr, parseIp).Some? &&
      ServiceValidation(name, tagged, chkTypes, checkErr, parseIp).value.CheckInvalid?) ==>
      exists i :: 0 <= i < |chkTypes| && checkErr(chkTypes[i]) == Some(ServiceValidation(name, tagged, chkTypes, checkErr, parseIp).value.reason)
  {
  }

  /** `validateService` with the fourth tagged address check reading the WAN IPv6 key. */
  function ServiceValidationCorrected(name: string, tagged: Option<map<string, ServiceAddress>>, chkTypes: seq<CheckType>,
                                      checkErr: CheckType -> Option<string>, parseIp: string -> IpKind): (r: Option<ServiceError>)
  {
    if name == "" then Some(NameMissing)
    else match FirstCheckError(chkTypes, checkErr)
      case Some(reason) => Some(CheckInvalid(reason))
      case None => TaggedAddressError(tagged, parseIp)
  }

  /**
   * Once corrected, a service is accepted exactly when it is named, all its
   * check definitions validate and all four tagged addresses are of their
   * families; the corrected validation accepts only what the written one does.
   */
  lemma ServiceValidationCorrectedAccepts(name: string, tagged: Option<map<string, ServiceAddress>>, chkTypes: seq<CheckType>,
                                          checkErr: CheckType -> Option<string>, parseIp: string -> IpKind)
    ensures ServiceValidationCorrected(name, tagged, chkTypes, checkErr, parseIp).None? <==>
      name != "" && (forall i :: 0 <= i < |chkTypes| ==> checkErr(chkTypes[i]).None?) &&
      (tagged.Some? ==> AddressesOk(tagged.value, parseIp))
    ensures ServiceValidationCorrected(name, tagged, chkTypes, checkErr, parseIp).None? ==>
      ServiceValidation(name, tagged, chkTypes, checkErr, parseIp).None?
    ensures tagged.Some? && TaggedAddressWANIPv6 !in tagged.value ==>
      ServiceValidationCorrected(name, tagged, chkTypes, checkErr, parseIp) == ServiceValidation(name, tagged, chkTypes, checkErr, parseIp)
  {
  }

  /**
   * `validateService`: the same outcome as `ServiceValidation`, with the
   * service's ID defaulted to its name once it is named, and its weights
   * defaulted once its checks are valid.
   */
  method ValidateService(s: NodeService, chkTypes: seq<CheckType>, checkErr: CheckType -> Option<string>, parseIp: string -> IpKind)
    returns (err: Option<ServiceError>)
    modifies s
    ensures err == ServiceValidation(old(s.service), old(s.taggedAddresses), chkTypes, checkErr, parseIp)
    ensures s.id == if old(s.service) != "" && old(s.id) == "" then old(s.service) else old(s.id)
    ensures s.weights == if old(s.service) != "" && FirstCheckError(chkTypes, checkErr).None? && old(s.weights).None?
      then Some(Weights(1, 1)) else old(s.weights)
    ensures (s.service, s.tags, s.address, s.port) == old((s.service, s.tags, s.address, s.port))
    ensures (s.taggedAddresses, s.locallyRegisteredAsSidecar) == old((s.taggedAddresses, s.locallyRegisteredAsSidecar))
  {
    if s.service == "" {
      return Some(NameMissing);
    }
    if s.id == "" && s.service != "" {
      s.id := s.service;
    }
    var i := 0;
    while i < |chkTypes|
      invariant 0 <= i <= |chkTypes|
      invariant FirstCheckError(chkTypes, checkErr) == FirstCheckError(chkTypes[i..], checkErr)
      invariant s.id == if old(s.id) == "" then old(s.service) else old(s.id)
      invariant (s.service, s.tags, s.address, s.port, s.weights) == old((s.service, s.tags, s.address, s.port, s.weights))
      invariant (s.taggedAddresses, s.locallyRegisteredAsSidecar) == old((s.taggedAddresses, s.locallyRegisteredAsSidecar))
    {
      var e := checkErr(chkTypes[i]);
      if e.Some? {
        return Some(CheckInvalid(e.value));
      }
      assert chkTypes[i..][1..] == chkTypes[i + 1..];
      i := i + 1;
    }
    if s.weights.None? {
      s.weights := Some(Weights(1, 1));
    }
    err := TaggedAddressErrorAsWritten(s.taggedAddresses, parseIp);
  }

  // ---------------------------------------------------------------------
  // Defaults

  /**
   * The tagged addresses after defaulting: the ones given are kept, and each
   * of the two keys of the service address's family is added, holding the
   * service's address and port, when it is missing.
   */
  function DefaultTaggedAddresses(tagged: Option<map<string, ServiceAddress>>, address: string, port: int, kind: IpKind): (r: map<string, ServiceAddress>)
    ensures forall k :: k in r <==> (k in tagged.GetOr(map[]) ||
      (kind == IPv4 && (k == TaggedAddressLANIPv4 || k == TaggedAddressWANIPv4)) ||
      (kind == IPv6 && (k == TaggedAddressLANIPv6 || k == TaggedAddressWANIPv6)))
    ensures forall k :: k in r ==> r[k] == if k in tagged.GetOr(map[]) then tagged.GetOr(map[])[k] else ServiceAddress(address, port)
  {
    var t := tagged.GetOr(map[]);
    var sa := ServiceAddress(address, port);
    var t1 := if TaggedAddressLANIPv4 !in t && kind == IPv4 then t[TaggedAddressLANIPv4 := sa] else t;
    var t2 := if TaggedAddressWANIPv4 !in t1 && kind == IPv4 then t1[TaggedAddressWANIPv4 := sa] else t1;
    var t3 := if TaggedAddressLANIPv6 !in t2 && kind == IPv6 then t2[TaggedAddressLANIPv6 := sa] else t2;
    if TaggedAddressWANIPv6 !in t3 && kind == IPv6 then t3[TaggedAddressWANIPv6 := sa] else t3
  }

  /** Defaulting twice is defaulting once. */
  lemma DefaultTaggedAddressesIdempotent(tagged: Option<map<string, ServiceAddress>>, address: string, port: int, kind: IpKind)
    ensures var once := DefaultTaggedAddresses(tagged, address, port, kind);
      DefaultTaggedAddresses(Some(once), address, port, kind) == once
  {
  }

  /** The defaults never make a valid service invalid: each added address is of the family its key names. */
  lemma DefaultsStayValid(tagged: Option<map<string, ServiceAddress>>, address: string, port: int, parseIp: string -> IpKind)
    requires tagged.Some? ==> AddressesOk(tagged.value, parseIp)
    ensures AddressesOk(DefaultTaggedAddresses(tagged, address, port, parseIp(address)), parseIp)
  {
  }

  /** A health check as the agent registers it. */
  datatype HealthCheck = HealthCheck(
    node: string, checkId: string, name: string, status: string, notes: string, output: string,
    serviceId: string, serviceName: string, serviceTags: seq<string>, kind: string)

  /** The ID of the `i`th of `n` check definitions: its own, or `service:<ID>`, numbered from 1 when there are several. */
  function CheckIdFor(serviceId: string, ct: CheckType, i: nat, n: nat): (r: string)
    ensures ct.checkId != "" ==> r == ct.checkId
    ensures ct.checkId == "" && n <= 1 ==> r == "service:" + serviceId
    ensures ct.checkId == "" && n > 1 ==> r == "service:" + serviceId + ":" + NatToString(i + 1)
  {
    if ct.checkId != "" then ct.checkId
    else "service:" + serviceId + (if n > 1 then ":" + NatToString(i + 1) else "")
  }

  /** Different numbers are written differently. */
  lemma {:induction false} NatToStringInjective(a: nat, b: nat)
    requires NatToString(a) == NatToString(b)
    ensures a == b
  {
    if a >= 10 && b >= 10 {
      var sa, sb := NatToString(a / 10), NatToString(b / 10);
      assert NatToString(a)[..|sa|] == sa && NatToString(b)[..|sb|] == sb;
      assert |sa| == |sb|;
      NatToStringInjective(a / 10, b / 10);
      assert DigitChar(a % 10) == NatToString(a)[|sa|] == DigitChar(b % 10);
      DigitCharInjective(a % 10, b % 10);
    } else if a < 10 && b < 10 {
      DigitCharInjective(a, b);
    }
  }

  lemma DigitCharInjective(a: nat, b: nat)
    requires a < 10 && b < 10 && DigitChar(a) == DigitChar(b)
    ensures a == b
  {
    var digits := ['0', '1', '2', '3', '4', '5', '6', '7', '8', '9'];
    assert DigitChar(a) == digits[a] && DigitChar(b) == digits[b];
  }

  /** Two definitions without their own IDs get different IDs. */
  lemma DefaultCheckIdsDistinct(serviceId: string, cts: seq<CheckType>, i: nat, j: nat)
    requires i < |cts| && j < |cts| && i != j
    requires cts[i].checkId == "" && cts[j].checkId == ""
    ensures CheckIdFor(serviceId, cts[i], i, |cts|) != CheckIdFor(serviceId, cts[j], j, |cts|)
  {
    var p := "service:" + serviceId + ":";
    var x, y := NatToString(i + 1), NatToString(j + 1);
    if p + x == p + y {
      assert (p + x)[|p|..] == x && (p + y)[|p|..] == y;
      NatToStringInjective(i + 1, j + 1);
    }
  }

  /**
   * The check registered for the `i`th definition: critical unless the
   * definition gives a status, with status and output restored from the
   * snapshot of the check's previous incarnation.
   */
  function HealthCheckFor(node: string, s: ServiceRecord, chkTypes: seq<CheckType>, i: nat, snap: map<string, HealthCheck>): (r: HealthCheck)
    requires i < |chkTypes|
    ensures r.checkId == CheckIdFor(s.id, chkTypes[i], i, |chkTypes|)
    ensures r.name == if chkTypes[i].name != "" then chkTypes[i].name else "Service '" + s.service + "' check"
    ensures r.checkId in snap ==> r.status == snap[r.checkId].status && r.output == snap[r.checkId].output
    ensures r.checkId !in snap ==> r.output == "" && r.status == if chkTypes[i].status != "" then chkTypes[i].status else HealthCritical
    ensures (r.node, r.notes, r.serviceId, r.serviceName, r.serviceTags, r.kind) == (node, chkTypes[i].notes, s.id, s.service, s.tags, chkTypes[i].kind)
  {
    var ct := chkTypes[i];
    var checkId := CheckIdFor(s.id, ct, i, |chkTypes|);
    var name := if ct.name != "" then ct.name else "Service '" + s.service + "' check";
    var status := if ct.status != "" then ct.status else HealthCritical;
    var check := HealthCheck(node, checkId, name, status, ct.notes, "", s.id, s.service, s.tags, ct.kind);
    if checkId in snap then check.(output := snap[checkId].output, status := snap[checkId].status) else check
  }

  /** The checks registered for the definitions, one each, in order. */
  function HealthChecksFor(node: string, s: ServiceRecord, chkTypes: seq<CheckType>, snap: map<string, HealthCheck>): (r: seq<HealthCheck>)
    ensures |r| == |chkTypes|
    ensures forall i :: 0 <= i < |chkTypes| ==> r[i] == HealthCheckFor(node, s, chkTypes, i, snap)
  {
    seq(|chkTypes|, i requires 0 <= i < |chkTypes| => HealthCheckFor(node, s, chkTypes, i, snap))
  }

  /** Every check registered for a service names it, and their IDs are the produced ones. */
  lemma HealthChecksForService(node: string, s: ServiceRecord, chkTypes: seq<CheckType>, snap: map<string, HealthCheck>)
    ensures forall i :: 0 <= i < |chkTypes| ==> HealthChecksFor(node, s, chkTypes, snap)[i].serviceId == s.id
    ensures CheckIds(HealthChecksFor(node, s, chkTypes, snap)) == ProducedIds(s.id, chkTypes)
  {
    var cs := HealthChecksFor(node, s, chkTypes, snap);
    forall c | c in ProducedIds(s.id, chkTypes) ensures c in CheckIds(cs) {
      var i :| 0 <= i < |chkTypes| && c == CheckIdFor(s.id, chkTypes[i], i, |chkTypes|);
      assert cs[i].checkId == c;
    }
  }

  /** The IDs the first `k` of the definitions produce. */
  function ProducedIdsUpTo(serviceId: string, chkTypes: seq<CheckType>, k: nat): set<string>
    requires k <= |chkTypes|
  {
    set i | 0 <= i < k :: CheckIdFor(serviceId, chkTypes[i], i, |chkTypes|)
  }

  /** The IDs of the checks one registration produces. */
  function ProducedIds(serviceId: string, chkTypes: seq<CheckType>): set<string>
  {
    ProducedIdsUpTo(serviceId, chkTypes, |chkTypes|)
  }

  /** The checks the local state holds for a service. */
  function ChecksOf(checks: map<string, HealthCheck>, serviceId: string): set<string>
  {
    set c | c in checks && checks[c].serviceId == serviceId
  }

  /** The local state's checks after a registration: the produced ones added and, when replacing, the service's stale ones removed. */
  function RegisteredChecks(checks: map<string, HealthCheck>, node: string, s: ServiceRecord, chkTypes: seq<CheckType>,
                            snap: map<string, HealthCheck>, replace: bool): map<string, HealthCheck>
  {
    WithChecks(checks, HealthChecksFor(node, s, chkTypes, snap)) - (if replace then ChecksOf(checks, s.id) - ProducedIds(s.id, chkTypes) else {})
  }

  /** With replacing, the service's checks afterwards are exactly the produced ones; other services keep theirs unless a produced ID takes one over. */
  lemma ReplacingLeavesProduced(checks: map<string, HealthCheck>, node: string, s: ServiceRecord, chkTypes: seq<CheckType>, snap: map<string, HealthCheck>)
    ensures var after := RegisteredChecks(checks, node, s, chkTypes, snap, true);
      ChecksOf(after, s.id) == ProducedIds(s.id, chkTypes) &&
      forall c :: c !in ProducedIds(s.id, chkTypes) && c in checks && checks[c].serviceId != s.id ==> c in after && after[c] == checks[c]
  {
    HealthChecksForService(node, s, chkTypes, snap);
    ReplacedChecksAreProduced(checks, HealthChecksFor(node, s, chkTypes, snap), s.id);
  }

  /** Without replacing, no check is removed. */
  lemma AddingKeepsChecks(checks: map<string, HealthCheck>, node: string, s: ServiceRecord, chkTypes: seq<CheckType>, snap: map<string, HealthCheck>)
    ensures var after := RegisteredChecks(checks, node, s, chkTypes, snap, false);
      after.Keys == checks.Keys + ProducedIds(s.id, chkTypes) &&
      forall c :: c in checks && c !in ProducedIds(s.id, chkTypes) ==> after[c] == checks[c]
  {
    HealthChecksForService(node, s, chkTypes, snap);
  }

  /** The IDs a replacing registration removes: those marked as not kept. */
  function Unkept(existing: map<string, bool>): set<string>
  {
    set c | c in existing && !existing[c]
  }

  /**
   * The loop of `addServiceInternal` that builds the checks: one per
   * definition, in order, each marking its ID as kept in `existing`.
   */
  method BuildChecks(node: string, s: ServiceRecord, chkTypes: seq<CheckType>, snap: map<string, HealthCheck>, existing0: map<string, bool>)
    returns (checks: seq<HealthCheck>, existing: map<string, bool>)
    ensures checks == HealthChecksFor(node, s, chkTypes, snap)
    ensures existing == Marked(existing0, ProducedIds(s.id, chkTypes))
  {
    checks := [];
    existing := existing0;
    assert existing0 == Marked(existing0, {});
    var i := 0;
    while i < |chkTypes|
      invariant 0 <= i <= |chkTypes|
      invariant checks == HealthChecksFor(node, s, chkTypes, snap)[..i]
      invariant existing == Marked(existing0, ProducedIdsUpTo(s.id, chkTypes, i))
    {
      var check := HealthCheckFor(node, s, chkTypes, i, snap);
      ProducedIdsStep(s.id, chkTypes, i);
      MarkedStep(existing0, ProducedIdsUpTo(s.id, chkTypes, i), check.checkId);
      existing := existing[check.checkId := true];
      checks := checks + [check];
      i := i + 1;
    }
  }

  /** `m` with the IDs in `ids` marked as kept. */
  function Marked(m: map<string, bool>, ids: set<string>): (r: map<string, bool>)
    ensures r.Keys == m.Keys + ids
    ensures Unkept(r) == Unkept(m) - ids
  {
    map c | c in m.Keys + ids :: c in ids || m[c]
  }

  lemma MarkedStep(m: map<string, bool>, ids: set<string>, id: string)
    ensures Marked(m, ids)[id := true] == Marked(m, ids + {id})
  {
  }

  /** The IDs produced by one more definition. */
  lemma ProducedIdsStep(serviceId: string, chkTypes: seq<CheckType>, k: nat)
    requires k < |chkTypes|
    ensures ProducedIdsUpTo(serviceId, chkTypes, k + 1) == ProducedIdsUpTo(serviceId, chkTypes, k) + {CheckIdFor(serviceId, chkTypes[k], k, |chkTypes|)}
  {
    var id := CheckIdFor(serviceId, chkTypes[k], k, |chkTypes|);
    assert id in ProducedIdsUpTo(serviceId, chkTypes, k + 1);
  }

  /** The map `addServiceInternal` starts from: each of the service's current checks, not yet kept. */
  function Unmarked(ids: set<string>): (r: map<string, bool>)
    ensures r.Keys == ids && Unkept(r) == ids
  {
    map c | c in ids :: false
  }

  /** The local state after adding checks in order: a later check replaces an earlier one with its ID. */
  function WithChecks(m: map<string, HealthCheck>, cs: seq<HealthCheck>): (r: map<string, HealthCheck>)
    ensures r.Keys == m.Keys + CheckIds(cs)
    ensures forall c :: c in r && c !in CheckIds(cs) ==> r[c] == m[c]
    ensures forall c :: c in CheckIds(cs) ==> r[c] in cs && r[c].checkId == c
    decreases |cs|
  {
    if |cs| == 0 then m
    else
      var init := cs[..|cs| - 1];
      var last := cs[|cs| - 1];
      assert CheckIds(cs) == CheckIds(init) + {last.checkId} by {
        assert forall i :: 0 <= i < |init| ==> init[i] == cs[i];
        assert last.checkId in CheckIds(cs);
      }
      WithChecks(m, init)[last.checkId := last]
  }

  function CheckIds(cs: seq<HealthCheck>): set<string>
  {
    set i | 0 <= i < |cs| :: cs[i].checkId
  }

  /**
   * After a replacing registration the service's checks are exactly the
   * ones it produced; checks of other services are touched only where a
   * produced ID takes over their ID.
   */
  lemma ReplacedChecksAreProduced(m: map<string, HealthCheck>, cs: seq<HealthCheck>, serviceId: string)
    requires forall i :: 0 <= i < |cs| ==> cs[i].serviceId == serviceId
    ensures var after := WithChecks(m, cs) - (ChecksOf(m, serviceId) - CheckIds(cs));
      ChecksOf(after, serviceId) == CheckIds(cs) &&
      forall c :: c !in CheckIds(cs) && c in m && m[c].serviceId != serviceId ==> c in after && after[c] == m[c]
  {
    var after := WithChecks(m, cs) - (ChecksOf(m, serviceId) - CheckIds(cs));
    forall c | c in CheckIds(cs) ensures c in after && after[c].serviceId == serviceId {
      var r := WithChecks(m, cs);
      assert r[c] in cs;
    }
  }

  // ---------------------------------------------------------------------
  // Registration

  /** The central-config defaults a registration may carry; their contents are not part of this model. */
  datatype ServiceConfigResponse = ServiceConfigResponse(proxyConfig: map<string, string>)

  /** `addServiceRequest`: the arguments of both registration steps; `None` and `null` are nil. */
  class AddServiceRequest {
    var service: NodeService
    var chkTypes: seq<CheckType>
    var previousDefaults: Option<ServiceConfigResponse>
    var waitForCentralConfig: bool
    var persistService: NodeService?
    var persistDefaults: Option<ServiceConfigResponse>
    var persist: bool
    var persistServiceConfig: bool
    var token: string
    var replaceExistingChecks: bool
    var source: ConfigSource
    var snap: map<string, HealthCheck>

    /** The request `AddService` builds, or `AddServiceAndReplaceChecks` with `replaceExistingChecks` set. */
    constructor(service: NodeService, chkTypes: seq<CheckType>, persist: bool, token: string, source: ConfigSource,
                snap: map<string, HealthCheck>, replaceExistingChecks: bool)
      ensures this.service == service && this.chkTypes == chkTypes && this.persist == persist && this.token == token
      ensures this.source == source && this.snap == snap && this.replaceExistingChecks == replaceExistingChecks
      ensures previousDefaults == None && waitForCentralConfig && persistServiceConfig
      ensures persistService == null && persistDefaults == None
    {
      this.service, this.chkTypes, this.persist, this.token := service, chkTypes, persist, token;
      this.source, this.snap, this.replaceExistingChecks := source, snap, replaceExistingChecks;
      previousDefaults, waitForCentralConfig, persistServiceConfig := None, true, true;
      persistService, persistDefaults := null, None;
    }

    /** `fixupForAddServiceLocked`: clears the two fields only `addServiceInternal` reads. */
    method FixupForAddServiceLocked()
      modifies this
      ensures persistService == null && persistDefaults == None
      ensures (service, chkTypes, previousDefaults, waitForCentralConfig) == old((service, chkTypes, previousDefaults, waitForCentralConfig))
      ensures (persist, persistServiceConfig, token, replaceExistingChecks, source, snap) ==
        old((persist, persistServiceConfig, token, replaceExistingChecks, source, snap))
    {
      persistService := null;
      persistDefaults := None;
    }

    /** `fixupForAddServiceInternal`: clears the two fields only `addServiceLocked` reads. */
    method FixupForAddServiceInternal()
      modifies this
      ensures previousDefaults == None && !waitForCentralConfig
      ensures (service, chkTypes, persistService, persistDefaults) == old((service, chkTypes, persistService, persistDefaults))
      ensures (persist, persistServiceConfig, token, replaceExistingChecks, source, snap) ==
        old((persist, persistServiceConfig, token, replaceExistingChecks, source, snap))
    {
      previousDefaults := None;
      waitForCentralConfig := false;
    }
  }

  /** How `addServiceLocked` ends: the service rejected, handed to the service manager, or added to the local state. */
  datatype AddOutcome = Rejected(error: ServiceError) | ToServiceManager | Added

  /** One entry of the local state's critical checks: its service and how long it has been critical. */
  datatype CriticalCheck = CriticalCheck(serviceId: string, criticalFor: nat)

  /** A check's service is reaped when it has a service and has been critical longer than a positive timeout. */
  predicate Reapable(cc: CriticalCheck, timeout: nat)
  {
    cc.serviceId != "" && timeout > 0 && cc.criticalFor > timeout
  }

  /** The services a reaping pass over the critical checks in `among` removes. */
  function ReapTargets(critical: map<string, CriticalCheck>, reapAfter: map<string, nat>, among: set<string>): set<string>
  {
    set c | c in among && c in critical && Reapable(critical[c], Lookup(reapAfter, c, 0)) :: critical[c].serviceId
  }

  /** One more critical check adds its service exactly when it is reapable. */
  lemma ReapTargetsStep(critical: map<string, CriticalCheck>, reapAfter: map<string, nat>, among: set<string>, c: string)
    requires c in critical
    ensures ReapTargets(critical, reapAfter, among + {c}) ==
      ReapTargets(critical, reapAfter, among) + if Reapable(critical[c], Lookup(reapAfter, c, 0)) then {critical[c].serviceId} else {}
  {
    if Reapable(critical[c], Lookup(reapAfter, c, 0)) {
      assert critical[c].serviceId in ReapTargets(critical, reapAfter, among + {c});
    }
  }

  /** The services removing `id` removes: it, and then in turn its sidecar when one was registered as such. */
  ghost function RemovedBy(services: map<string, ServiceRecord>, id: string, sidecarId: string -> string): (r: set<string>)
    ensures r <= services.Keys
    ensures id != "" && id in services ==> id in r
    ensures id == "" || id !in services ==> r == {}
    decreases |services|
  {
    if id == "" || id !in services then {}
    else
      var rest := services - {id};
      var sidecar := sidecarId(id);
      {id} + if sidecar in rest && rest[sidecar].locallyRegisteredAsSidecar then RemovedBy(rest, sidecar, sidecarId) else {}
  }

  /** The checks of the local state whose service is not among `removed`. */
  function WithoutChecksOf(checks: map<string, HealthCheck>, removed: set<string>): (r: map<string, HealthCheck>)
    ensures r.Keys <= checks.Keys
    ensures forall c :: c in r ==> r[c] == checks[c] && r[c].serviceId !in removed
    ensures forall c :: c in checks && checks[c].serviceId !in removed ==> c in r
  {
    map c | c in checks && checks[c].serviceId !in removed :: checks[c]
  }

  /** Removing the checks of no service removes nothing. */
  lemma WithoutNoChecks(checks: map<string, HealthCheck>)
    ensures WithoutChecksOf(checks, {}) == checks
  {
  }

  /** Every service removing `id` removes besides `id` itself is a registered sidecar of another one it removes. */
  lemma {:induction false} RemovedByChain(services: map<string, ServiceRecord>, id: string, sidecarId: string -> string)
    ensures forall x :: x in RemovedBy(services, id, sidecarId) && x != id ==>
      (x in services && services[x].locallyRegisteredAsSidecar &&
      exists y :: y in RemovedBy(services, id, sidecarId) && y != x && sidecarId(y) == x)
    decreases |services|
  {
    if id != "" && id in services {
      var rest := services - {id};
      var sidecar := sidecarId(id);
      if sidecar in rest && rest[sidecar].locallyRegisteredAsSidecar {
        RemovedByChain(rest, sidecar, sidecarId);
        forall x | x in RemovedBy(services, id, sidecarId) && x != id
          ensures exists y :: y in RemovedBy(services, id, sidecarId) && y != x && sidecarId(y) == x
        {
          if x == sidecar {
            assert id in RemovedBy(services, id, sidecarId);
          } else {
            var y :| y in RemovedBy(rest, sidecar, sidecarId) && y != x && sidecarId(y) == x;
            assert y in RemovedBy(services, id, sidecarId);
          }
        }
      }
    }
  }

  lemma WithoutChecksOfTwice(checks: map<string, HealthCheck>, a: set<string>, b: set<string>)
    ensures WithoutChecksOf(WithoutChecksOf(checks, a), b) == WithoutChecksOf(checks, a + b)
  {
  }

  /** Every service in `removed` was reaped, or is a registered sidecar of another removed service. */
  ghost predicate ReapedOrSidecars(services: map<string, ServiceRecord>, removed: set<string>, reaped: seq<string>, sidecarId: string -> string)
    requires removed <= services.Keys
  {
    forall x :: x in removed ==> (x in reaped ||
      (services[x].locallyRegisteredAsSidecar && exists y :: y in removed && y != x && sidecarId(y) == x))
  }

  /** The agent's registered services and checks, and the reap timeouts of its checks. */
  class Agent {
    var nodeName: string
    var services: map<string, ServiceRecord>
    var checks: map<string, HealthCheck>
    var checkReapAfter: map<string, nat>

    constructor(nodeName: string, checkReapAfter: map<string, nat>)
      ensures this.nodeName == nodeName && this.checkReapAfter == checkReapAfter
      ensures services == map[] && checks == map[]
    {
      this.nodeName, this.checkReapAfter := nodeName, checkReapAfter;
      services, checks := map[], map[];
    }

    /**
     * `addServiceLocked`: validate; hand the request to the service manager
     * when central service config is on; otherwise add the service directly
     * without persisting its config.
     */
    method AddServiceLocked(req: AddServiceRequest, enableCentralServiceConfig: bool,
                            checkErr: CheckType -> Option<string>, parseIp: string -> IpKind) returns (outcome: AddOutcome)
      modifies this, req, req.service
      ensures req.service == old(req.service) && req.persistService == null && req.persistDefaults == None
      ensures var v := ServiceValidation(old(req.service.service), old(req.service.taggedAddresses), old(req.chkTypes), checkErr, parseIp);
        (outcome.Rejected? <==> v.Some?) && (outcome.Rejected? ==> outcome.error == v.value) &&
        (outcome == ToServiceManager <==> v.None? && enableCentralServiceConfig)
      ensures !outcome.Added? ==> services == old(services) && checks == old(checks)
      ensures outcome.Added? ==> !req.persistServiceConfig && req.service.id != ""
      ensures outcome.Added? ==> req.service.id == if old(req.service.id) == "" then old(req.service.service) else old(req.service.id)
      ensures outcome.Added? ==> (req.service.taggedAddresses ==
        Some(DefaultTaggedAddresses(old(req.service.taggedAddresses), req.service.address, req.service.port, parseIp(req.service.address))))
      ensures outcome.Added? ==> services == old(services)[req.service.id := req.service.Record()]
      ensures outcome.Added? ==> (checks ==
        RegisteredChecks(old(checks), nodeName, req.service.Record(), old(req.chkTypes), old(req.snap), old(req.replaceExistingChecks)))
      ensures (nodeName, checkReapAfter) == old((nodeName, checkReapAfter))
      // The requested service is stored with only its ID, weights and tagged addresses defaulted.
      ensures var s := req.service;
        (s.service, s.tags, s.address, s.port, s.locallyRegisteredAsSidecar) ==
        old((s.service, s.tags, s.address, s.port, s.locallyRegisteredAsSidecar))
      ensures req.service.id == if old(req.service.service) != "" && old(req.service.id) == "" then old(req.service.service) else old(req.service.id)
      ensures outcome.Added? ==> req.service.weights == if old(req.service.weights).None? then Some(Weights(1, 1)) else old(req.service.weights)
      ensures !outcome.Added? ==> (req.service.weights ==
        if old(req.service.service) != "" && FirstCheckError(old(req.chkTypes), checkErr).None? && old(req.service.weights).None?
        then Some(Weights(1, 1)) else old(req.service.weights))
      ensures !outcome.Added? ==> req.service.taggedAddresses == old(req.service.taggedAddresses)
    {
      req.FixupForAddServiceLocked();
      var err := ValidateService(req.service, req.chkTypes, checkErr, parseIp);
      if err.Some? {
        return Rejected(err.value);
      }
      if enableCentralServiceConfig {
        return ToServiceManager;
      }
      req.persistService := null;
      req.persistDefaults := None;
      req.persistServiceConfig := false;
      AddServiceInternal(req, parseIp);
      outcome := Added;
    }

    /**
     * `addServiceInternal`: default the tagged addresses, then register the
     * service with its checks.
     */
    method AddServiceInternal(req: AddServiceRequest, parseIp: string -> IpKind)
      modifies this, req, req.service
      ensures req.service == old(req.service) && req.previousDefaults == None && !req.waitForCentralConfig
      ensures (req.chkTypes, req.persistService, req.persistDefaults, req.replaceExistingChecks, req.snap) ==
        old((req.chkTypes, req.persistService, req.persistDefaults, req.replaceExistingChecks, req.snap))
      ensures (req.persistServiceConfig, req.persist) == old((req.persistServiceConfig, req.persist))
      ensures var s := req.service;
        s.taggedAddresses == Some(DefaultTaggedAddresses(old(s.taggedAddresses), s.address, s.port, parseIp(s.address))) &&
        (s.id, s.service, s.tags, s.address, s.port, s.weights) == old((s.id, s.service, s.tags, s.address, s.port, s.weights)) &&
        s.locallyRegisteredAsSidecar == old(s.locallyRegisteredAsSidecar)
      ensures services == old(services)[req.service.id := req.service.Record()]
      ensures checks == RegisteredChecks(old(checks), nodeName, req.service.Record(), req.chkTypes, req.snap, req.replaceExistingChecks)
      ensures (nodeName, checkReapAfter) == old((nodeName, checkReapAfter))
    {
      req.FixupForAddServiceInternal();
      req.service.SetDefaultTaggedAddresses(parseIp);
      RegisterService(req.service.Record(), req.chkTypes, req.snap, req.replaceExistingChecks);
    }

    /**
     * The rest of `addServiceInternal`: build one check per definition, add
     * the service and its checks, and when replacing, remove the service's
     * earlier checks that were not produced again.
     */
    method RegisterService(record: ServiceRecord, chkTypes: seq<CheckType>, snap: map<string, HealthCheck>, replace: bool)
      modifies this
      ensures services == old(services)[record.id := record]
      ensures checks == RegisteredChecks(old(checks), nodeName, record, chkTypes, snap, replace)
      ensures (nodeName, checkReapAfter) == old((nodeName, checkReapAfter))
    {
      var existing0 := Unmarked(ChecksOf(checks, record.id));
      var newChecks, existing := BuildChecks(nodeName, record, chkTypes, snap, existing0);
      services := services[record.id := record];
      checks := WithChecks(checks, newChecks);
      if replace {
        RemoveChecks(Unkept(existing));
      }
    }

    /** The loop of `addServiceInternal` that removes the checks marked as not kept. */
    method RemoveChecks(stale: set<string>)
      modifies this
      ensures checks == old(checks) - stale
      ensures (nodeName, services, checkReapAfter) == old((nodeName, services, checkReapAfter))
    {
      var todo := stale;
      while todo != {}
        invariant todo <= stale
        invariant checks == old(checks) - (stale - todo)
        invariant (nodeName, services, checkReapAfter) == old((nodeName, services, checkReapAfter))
        decreases todo
      {
        var c :| c in todo;
        checks := checks - {c};
        todo := todo - {c};
      }
    }

    /**
     * `removeServiceLocked`: an empty ID is an error; an unknown service
     * leaves everything as it is; otherwise the service and its checks go,
     * and then its sidecar, when one was registered as such.
     */
    method RemoveServiceLocked(serviceId: string, sidecarId: string -> string) returns (err: Option<string>)
      modifies this
      ensures serviceId == "" ==> err == Some("ServiceID missing")
      ensures serviceId != "" && serviceId !in old(services) ==> err == None
      ensures services == old(services) - RemovedBy(old(services), serviceId, sidecarId)
      ensures checks == WithoutChecksOf(old(checks), RemovedBy(old(services), serviceId, sidecarId))
      ensures (nodeName, checkReapAfter) == old((nodeName, checkReapAfter))
      decreases services.Keys
    {
      if serviceId == "" || serviceId !in services {
        WithoutNoChecks(checks);
        assert services - {} == services;
        return if serviceId == "" then Some("ServiceID missing") else None;
      }
      var sidecar := sidecarId(serviceId);
      ghost var services0, checks0 := services, checks;
      services := services - {serviceId};
      checks := WithoutChecksOf(checks, {serviceId});
      err := None;
      if sidecar in services && services[sidecar].locallyRegisteredAsSidecar {
        ghost var services1 := services;
        err := RemoveServiceLocked(sidecar, sidecarId);
        ghost var more := RemovedBy(services1, sidecar, sidecarId);
        assert RemovedBy(services0, serviceId, sidecarId) == {serviceId} + more;
        WithoutChecksOfTwice(checks0, {serviceId}, more);
        assert services1 - more == services0 - ({serviceId} + more);
      } else {
        assert RemovedBy(services0, serviceId, sidecarId) == {serviceId};
      }
    }

    /**
     * The `RemoveService` call of a reaping pass, when `removed` has already
     * gone from `base`: it removes `more` as well, `serviceId` and otherwise
     * only a chain of registered sidecars.
     */
    method RemoveReaped(serviceId: string, sidecarId: string -> string, ghost baseServices: map<string, ServiceRecord>,
                        ghost baseChecks: map<string, HealthCheck>, ghost removed: set<string>) returns (ghost more: set<string>)
      requires serviceId != "" && removed <= baseServices.Keys
      requires services == baseServices - removed && checks == WithoutChecksOf(baseChecks, removed)
      modifies this
      ensures serviceId !in services && services.Keys <= old(services).Keys
      ensures removed + more <= baseServices.Keys
      ensures services == baseServices - (removed + more) && checks == WithoutChecksOf(baseChecks, removed + more)
      ensures forall x :: x in more && x != serviceId ==>
        (baseServices[x].locallyRegisteredAsSidecar && exists y :: y in more && y != x && sidecarId(y) == x)
      ensures (nodeName, checkReapAfter) == old((nodeName, checkReapAfter))
    {
      ghost var current := services;
      var _ := RemoveServiceLocked(serviceId, sidecarId);
      more := RemovedBy(current, serviceId, sidecarId);
      RemovedByChain(current, serviceId, sidecarId);
      WithoutChecksOfTwice(baseChecks, removed, more);
      assert services == baseServices - (removed + more);
    }

    /**
     * `reapServicesInternal`: one pass over the critical checks, removing
     * the service of each check critical for longer than its positive reap
     * timeout, each service once; `reaped` lists them in the order removed.
     */
    method ReapServicesInternal(critical: map<string, CriticalCheck>, sidecarId: string -> string)
      returns (reaped: seq<string>, ghost removed: set<string>)
      modifies this
      ensures forall i, j :: 0 <= i < j < |reaped| ==> reaped[i] != reaped[j]
      ensures (set x | x in reaped) == ReapTargets(critical, old(checkReapAfter), critical.Keys)
      ensures forall i :: 0 <= i < |reaped| ==> reaped[i] !in services
      ensures removed <= old(services).Keys
      ensures services == old(services) - removed
      ensures checks == WithoutChecksOf(old(checks), removed)
      ensures ReapedOrSidecars(old(services), removed, reaped, sidecarId)
      ensures (nodeName, checkReapAfter) == old((nodeName, checkReapAfter))
    {
      reaped := [];
      removed := {};
      WithoutNoChecks(checks);
      var todo := critical.Keys;
      while todo != {}
        invariant todo <= critical.Keys
        invariant ReapState(old(services), old(checks), critical, critical.Keys - todo, reaped, removed, sidecarId)
        invariant (nodeName, checkReapAfter) == old((nodeName, checkReapAfter))
        decreases todo
      {
        var checkId :| checkId in todo;
        assert critical.Keys - (todo - {checkId}) == (critical.Keys - todo) + {checkId};
        reaped, removed := ReapCheck(critical, checkId, sidecarId, old(services), old(checks), critical.Keys - todo, reaped, removed);
        todo := todo - {checkId};
      }
    }

    /**
     * Where a reaping pass stands after visiting the critical checks in
     * `done`: `reaped` lists, once each, the services of the reapable ones;
     * none of them is registered; and the services and checks are those of
     * `base` without the `removed` services, which are reaped services or
     * their registered sidecars.
     */
    ghost predicate ReapState(base: map<string, ServiceRecord>, baseChecks: map<string, HealthCheck>, critical: map<string, CriticalCheck>,
                              done: set<string>, reaped: seq<string>, removed: set<string>, sidecarId: string -> string)
      reads this
    {
      && (forall i, j :: 0 <= i < j < |reaped| ==> reaped[i] != reaped[j])
      && (set x | x in reaped) == ReapTargets(critical, checkReapAfter, done)
      && (forall i :: 0 <= i < |reaped| ==> reaped[i] !in services)
      && removed <= base.Keys
      && services == base - removed
      && checks == WithoutChecksOf(baseChecks, removed)
      && ReapedOrSidecars(base, removed, reaped, sidecarId)
    }

    /** One round of the reaping loop: the service of a reapable check not reaped yet is removed. */
    method ReapCheck(critical: map<string, CriticalCheck>, checkId: string, sidecarId: string -> string,
                     ghost base: map<string, ServiceRecord>, ghost baseChecks: map<string, HealthCheck>, ghost done: set<string>,
                     reaped: seq<string>, ghost removed: set<string>) returns (reaped': seq<string>, ghost removed': set<string>)
      requires checkId in critical
      requires ReapState(base, baseChecks, critical, done, reaped, removed, sidecarId)
      modifies this
      ensures ReapState(base, baseChecks, critical, done + {checkId}, reaped', removed', sidecarId)
      ensures (nodeName, checkReapAfter) == old((nodeName, checkReapAfter))
    {
      ReapTargetsStep(critical, checkReapAfter, done, checkId);
      reaped', removed' := reaped, removed;
      var serviceId := critical[checkId].serviceId;
      var timeout := Lookup(checkReapAfter, checkId, 0);
      if serviceId != "" && serviceId !in reaped && timeout > 0 && critical[checkId].criticalFor > timeout {
        reaped' := reaped + [serviceId];
        assert (set x | x in reaped') == (set x | x in reaped) + {serviceId};
        ghost var more := RemoveReaped(serviceId, sidecarId, base, baseChecks, removed);
        removed' := removed + more;
      }
    }
  }
}

=== FILE: sni.dfy ===
// The TLS server names (SNI) Connect gives to services, prepared queries and
// datacenters: dot-separated labels ending in the trust domain.

module ConnectSni {
  import opened Strings

  /** `structs.UpstreamDestTypePreparedQuery`; the structs package that defines it is not part of this model. */
  const UpstreamDestTypePreparedQuery: string

  datatype UpstreamSNIOpts = UpstreamSNIOpts(
    destinationType: string,
    service: string,
    subset: string,
    namespace: string,
    localDatacenter: string,
    upstreamDatacenter: string,
    trustDomain: string)

  /** The fields of `structs.DiscoveryTarget` that name a target. */
  datatype DiscoveryTarget = DiscoveryTarget(service: string, serviceSubset: string, namespace: string, datacenter: string)

  /** A label contains no dot, so it stays one label of the name. */
  predicate Label(s: string)
  {
    '.' !in s
  }

  /** The dot-separated name made of `labels` followed by the trust domain. */
  function Dotted(labels: seq<string>, trustDomain: string): (r: string)
  {
    Join(labels + [trustDomain], ".")
  }

  /** A leading label and a dot, then the rest of the name. */
  lemma DottedCons(head: string, labels: seq<string>, trustDomain: string)
    ensures Dotted([head] + labels, trustDomain) == head + "." + Dotted(labels, trustDomain)
  {
    assert [head] + labels + [trustDomain] == [head] + (labels + [trustDomain]);
    JoinCons(head, labels + [trustDomain], ".");
  }

  /** `DatacenterSNI`: the datacenter, `internal`, and the trust domain. */
  function DatacenterSNI(dc: string, trustDomain: string): (r: string)
    ensures r == dc + ".internal." + trustDomain
  {
    DottedCons(dc, ["internal"], trustDomain);
    DottedCons("internal", [], trustDomain);
    assert [dc] + ["internal"] == [dc, "internal"];
    Dotted([dc, "internal"], trustDomain)
  }

  /** The namespace a service name is issued in: an empty one means `default`. */
  function NamespaceOrDefault(namespace: string): (r: string)
    ensures r != ""
    ensures namespace != "" ==> r == namespace
  {
    if namespace == "" then "default" else namespace
  }

  /** The labels of a service name before the trust domain: an optional subset, service, namespace, datacenter, `internal`. */
  function ServiceLabels(service: string, subset: string, namespace: string, datacenter: string): (r: seq<string>)
    ensures |r| == if subset == "" then 4 else 5
  {
    (if subset == "" then [] else [subset]) + [service, NamespaceOrDefault(namespace), datacenter, "internal"]
  }

  /** `ServiceSNI`. */
  function ServiceSNI(service: string, subset: string, namespace: string, datacenter: string, trustDomain: string): (r: string)
    ensures r == (if subset == "" then "" else subset + ".") +
      service + "." + NamespaceOrDefault(namespace) + "." + datacenter + ".internal." + trustDomain
  {
    ServiceSNIText(service, subset, NamespaceOrDefault(namespace), datacenter, trustDomain);
    Dotted(ServiceLabels(service, subset, namespace, datacenter), trustDomain)
  }

  /** The dotted service name spelled out, label by label. */
  lemma ServiceSNIText(service: string, subset: string, ns: string, datacenter: string, trustDomain: string)
    ensures Dotted((if subset == "" then [] else [subset]) + [service, ns, datacenter, "internal"], trustDomain) ==
      (if subset == "" then "" else subset + ".") + service + "." + ns + "." + datacenter + ".internal." + trustDomain
  {
    var labels := [service, ns, datacenter, "internal"];
    var dcName := datacenter + ".internal." + trustDomain;
    assert Dotted([datacenter, "internal"], trustDomain) == dcName by {
      assert DatacenterSNI(datacenter, trustDomain) == dcName;
    }
    DottedCons(ns, [datacenter, "internal"], trustDomain);
    assert [ns] + [datacenter, "internal"] == [ns, datacenter, "internal"];
    DottedCons(service, [ns, datacenter, "internal"], trustDomain);
    assert [service] + [ns, datacenter, "internal"] == labels;
    Append3(service + ".", ns + ".", dcName);
    assert Dotted(labels, trustDomain) == service + "." + ns + "." + dcName;
    Append3(service + "." + ns + ".", datacenter, ".internal." + trustDomain);
    Append3(service + "." + ns + "." + datacenter, ".internal.", trustDomain);
    var plain := service + "." + ns + "." + datacenter + ".internal." + trustDomain;
    assert Dotted(labels, trustDomain) == plain;
    if subset == "" {
      assert [] + labels == labels && "" + plain == plain;
    } else {
      assert [subset] + labels == (if subset == "" then [] else [subset]) + labels;
      DottedCons(subset, labels, trustDomain);
      assert Dotted([subset] + labels, trustDomain) == subset + "." + plain;
      Append3(subset + ".", service + "." + ns + "." + datacenter + ".internal.", trustDomain);
      Append3(subset + ".", service + "." + ns + "." + datacenter, ".internal.");
      Append3(subset + ".", service + "." + ns + ".", datacenter);
      Append3(subset + ".", service + "." + ns, ".");
      Append3(subset + ".", service + ".", ns);
      Append3(subset + ".", service, ".");
    }
  }

  /** Concatenation regroups to the left. */
  lemma Append3(a: string, b: string, c: string)
    ensures a + (b + c) == a + b + c
  {
  }

  /** `QuerySNI`: the namespace label is always `default`, and `query` replaces `internal`. */
  function QuerySNI(service: string, datacenter: string, trustDomain: string): (r: string)
    ensures r == service + ".default." + datacenter + ".query." + trustDomain
  {
    DottedCons(service, ["default", datacenter, "query"], trustDomain);
    DottedCons("default", [datacenter, "query"], trustDomain);
    DottedCons(datacenter, ["query"], trustDomain);
    DottedCons("query", [], trustDomain);
    assert [service] + ["default", datacenter, "query"] == [service, "default", datacenter, "query"];
    assert ["default"] + [datacenter, "query"] == ["default", datacenter, "query"];
    assert [datacenter] + ["query"] == [datacenter, "query"];
    Dotted([service, "default", datacenter, "query"], trustDomain)
  }

  /** The datacenter an upstream lives in: the upstream's own when set, else the local one. */
  function UpstreamDatacenter(opts: UpstreamSNIOpts): (r: string)
    ensures opts.upstreamDatacenter != "" ==> r == opts.upstreamDatacenter
    ensures opts.upstreamDatacenter == "" ==> r == opts.localDatacenter
  {
    if opts.upstreamDatacenter != "" then opts.upstreamDatacenter else opts.localDatacenter
  }

  /** `UpstreamSNI`. */
  function UpstreamSNI(opts: UpstreamSNIOpts): (r: string)
    ensures var dc := if opts.upstreamDatacenter != "" then opts.upstreamDatacenter else opts.localDatacenter;
      r == if opts.destinationType == UpstreamDestTypePreparedQuery then
        opts.service + ".default." + dc + ".query." + opts.trustDomain
      else
        (if opts.subset == "" then "" else opts.subset + ".") +
        opts.service + "." + NamespaceOrDefault(opts.namespace) + "." + dc + ".internal." + opts.trustDomain
  {
    var dc := UpstreamDatacenter(opts);
    if opts.destinationType == UpstreamDestTypePreparedQuery then
      QuerySNI(opts.service, dc, opts.trustDomain)
    else
      ServiceSNI(opts.service, opts.subset, opts.namespace, dc, opts.trustDomain)
  }

  /** `TargetSNI`. */
  function TargetSNI(target: DiscoveryTarget, trustDomain: string): (r: string)
    ensures r == (if target.serviceSubset == "" then "" else target.serviceSubset + ".") +
      target.service + "." + NamespaceOrDefault(target.namespace) + "." + target.datacenter + ".internal." + trustDomain
  {
    ServiceSNI(target.service, target.serviceSubset, target.namespace, target.datacenter, trustDomain)
  }

  // ---------------------------------------------------------------------
  // Reading the names back

  /** Splitting a name of dot-free labels followed by the trust domain gives the labels, then the domain's own labels. */
  lemma DecodeLabels(labels: seq<string>, trustDomain: string)
    requires forall i :: 0 <= i < |labels| ==> Label(labels[i])
    ensures Split(Dotted(labels, trustDomain), ".") == labels + Split(trustDomain, ".")
  {
    var parts := labels + [trustDomain];
    assert forall i :: 0 <= i < |parts| - 1 ==> '.' !in parts[i] by {
      forall i | 0 <= i < |parts| - 1 ensures '.' !in parts[i] {
        assert parts[i] == labels[i];
      }
    }
    SplitJoin(parts, '.');
    assert parts[..|parts| - 1] == labels;
  }

  /**
   * When service, subset, namespace and datacenter hold no dot, a service
   * name splits back into them (the namespace defaulted), `internal`, and
   * the labels of the trust domain: different services get different names.
   */
  lemma ServiceSNIDecodes(service: string, subset: string, namespace: string, datacenter: string, trustDomain: string)
    requires Label(service) && Label(subset) && Label(namespace) && Label(datacenter)
    ensures Split(ServiceSNI(service, subset, namespace, datacenter, trustDomain), ".") ==
      (if subset == "" then [] else [subset]) +
      [service, NamespaceOrDefault(namespace), datacenter, "internal"] + Split(trustDomain, ".")
  {
    assert Label("default") && Label("internal");
    DecodeLabels(ServiceLabels(service, subset, namespace, datacenter), trustDomain);
  }

  /** A query name splits back into the service, `default`, the datacenter, `query` and the trust domain's labels. */
  lemma QuerySNIDecodes(service: string, datacenter: string, trustDomain: string)
    requires Label(service) && Label(datacenter)
    ensures Split(QuerySNI(service, datacenter, trustDomain), ".") ==
      [service, "default", datacenter, "query"] + Split(trustDomain, ".")
  {
    assert Label("default") && Label("query");
    DecodeLabels([service, "default", datacenter, "query"], trustDomain);
  }

  /** A datacenter name splits back into the datacenter, `internal` and the trust domain's labels. */
  lemma DatacenterSNIDecodes(dc: string, trustDomain: string)
    requires Label(dc)
    ensures Split(DatacenterSNI(dc, trustDomain), ".") == [dc, "internal"] + Split(trustDomain, ".")
  {
    assert Label("internal");
    DecodeLabels([dc, "internal"], trustDomain);
  }

  /** With dot-free labels, a prepared query and a subset-less service never share a name. */
  lemma QueryAndServiceDiffer(q: string, qdc: string, service: string, namespace: string, dc: string,
                              trustDomain: string, trustDomain': string)
    requires Label(q) && Label(qdc) && Label(service) && Label(namespace) && Label(dc)
    ensures QuerySNI(q, qdc, trustDomain) != ServiceSNI(service, "", namespace, dc, trustDomain')
  {
    QuerySNIDecodes(q, qdc, trustDomain);
    ServiceSNIDecodes(service, "", namespace, dc, trustDomain');
    var a := Split(QuerySNI(q, qdc, trustDomain), ".");
    var b := Split(ServiceSNI(service, "", namespace, dc, trustDomain'), ".");
    assert a[3] == "query" && b[3] == "internal";
  }

  /** A subset only adds a leading label to the service name. */
  lemma ServiceSNISubset(service: string, subset: string, namespace: string, datacenter: string, trustDomain: string)
    requires subset != ""
    ensures ServiceSNI(service, subset, namespace, datacenter, trustDomain) ==
      subset + "." + ServiceSNI(service, "", namespace, datacenter, trustDomain)
  {
    var tail := ServiceLabels(service, "", namespace, datacenter) + [trustDomain];
    assert ServiceLabels(service, subset, namespace, datacenter) + [trustDomain] == [subset] + tail;
    JoinCons(subset, tail, ".");
  }

  /** An empty namespace names the same service as `default`. */
  lemma ServiceSNIDefaultNamespace(service: string, subset: string, datacenter: string, trustDomain: string)
    ensures ServiceSNI(service, subset, "", datacenter, trustDomain) ==
      ServiceSNI(service, subset, "default", datacenter, trustDomain)
  {
  }

  /**
   * An upstream's name decodes to its datacenter label (the upstream's own
   * when set), and to `query` for a prepared query, whatever its subset and
   * namespace, else to the service's subset and namespace.
   */
  lemma UpstreamSNIDecodes(opts: UpstreamSNIOpts)
    requires Label(opts.service) && Label(opts.subset) && Label(opts.namespace)
    requires Label(opts.localDatacenter) && Label(opts.upstreamDatacenter)
    ensures var dc := if opts.upstreamDatacenter != "" then opts.upstreamDatacenter else opts.localDatacenter;
      Split(UpstreamSNI(opts), ".") ==
        if opts.destinationType == UpstreamDestTypePreparedQuery then
          [opts.service, "default", dc, "query"] + Split(opts.trustDomain, ".")
        else
          (if opts.subset == "" then [] else [opts.subset]) +
          [opts.service, NamespaceOrDefault(opts.namespace), dc, "internal"] + Split(opts.trustDomain, ".")
  {
    var dc := UpstreamDatacenter(opts);
    if opts.destinationType == UpstreamDestTypePreparedQuery {
      QuerySNIDecodes(opts.service, dc, opts.trustDomain);
    } else {
      ServiceSNIDecodes(opts.service, opts.subset, opts.namespace, dc, opts.trustDomain);
    }
  }

  /** For a prepared query, subset and namespace do not matter. */
  lemma PreparedQueryIgnoresSubset(opts: UpstreamSNIOpts, subset: string, namespace: string)
    requires opts.destinationType == UpstreamDestTypePreparedQuery
    ensures UpstreamSNI(opts.(subset := subset, namespace := namespace)) == UpstreamSNI(opts)
  {
  }

  /** A target's name decodes to the target's subset, service, namespace and datacenter. */
  lemma TargetSNIDecodes(target: DiscoveryTarget, trustDomain: string)
    requires Label(target.service) && Label(target.serviceSubset) && Label(target.namespace) && Label(target.datacenter)
    ensures Split(TargetSNI(target, trustDomain), ".") ==
      (if target.serviceSubset == "" then [] else [target.serviceSubset]) +
      [target.service, NamespaceOrDefault(target.namespace), target.datacenter, "internal"] + Split(trustDomain, ".")
  {
    ServiceSNIDecodes(target.service, target.serviceSubset, target.namespace, target.datacenter, trustDomain);
  }
}

=== FILE: stream_frame.dfy ===
// The wire types shared by the event stream: topics, message types and the
// fixed eight-byte frame header that precedes every encoded event.

module StreamFrame {
  import opened Wrappers

  type byte = x: int | 0 <= x < 0x100
  type uint16 = x: int | 0 <= x < 0x1_0000
  type uint32 = x: int | 0 <= x < 0x1_0000_0000

  type StreamTopic = uint32

  const StreamTopicAll: StreamTopic := 0
  const StreamTopicKV: StreamTopic := 1
  const StreamTopicCatalogServices: StreamTopic := 2

  // The message types continue the same iota sequence as the topics.
  const StreamMsgTypeNop: uint16 := 3
  const StreamMsgTypeEvent: uint16 := 4

  const StreamFrameHeaderLen: nat := 8

  /** The value carried by an event; it reaches the stream only through its msgpack encoding. */
  type Value(==)

  datatype StreamEvent = StreamEvent(index: nat, topic: StreamTopic, key: string, value: Value)

  datatype StreamFrameHeader = StreamFrameHeader(len: uint32, msgType: uint16, flags: uint16)

  datatype FrameError =
    | NoRoomForHeader   // "not enough room in buffer to encode header"
    | NotEnoughBytes    // "not enough bytes to decode header"

  /** `binary.BigEndian.PutUint16`. */
  function PutUint16(v: uint16): (r: seq<byte>)
    ensures |r| == 2
  {
    [v / 0x100, v % 0x100]
  }

  /** `binary.BigEndian.Uint16`. */
  function Uint16(b: seq<byte>): (r: uint16)
    requires |b| == 2
  {
    b[0] as int * 0x100 + b[1] as int
  }

  /** `binary.BigEndian.PutUint32`: the high half, then the low half. */
  function PutUint32(v: uint32): (r: seq<byte>)
    ensures |r| == 4
  {
    PutUint16(v / 0x1_0000) + PutUint16(v % 0x1_0000)
  }

  /** `binary.BigEndian.Uint32`. */
  function Uint32(b: seq<byte>): (r: uint32)
    requires |b| == 4
  {
    Uint16(b[..2]) * 0x1_0000 + Uint16(b[2..])
  }

  lemma Uint16RoundTrip(v: uint16, b: seq<byte>)
    ensures Uint16(PutUint16(v)) == v
    ensures |b| == 2 ==> PutUint16(Uint16(b)) == b
  {
  }

  lemma Uint32RoundTrip(v: uint32, b: seq<byte>)
    ensures Uint32(PutUint32(v)) == v
    ensures |b| == 4 ==> PutUint32(Uint32(b)) == b
  {
    var e := PutUint32(v);
    Uint16RoundTrip(v / 0x1_0000, []);
    Uint16RoundTrip(v % 0x1_0000, []);
    assert e[..2] == PutUint16(v / 0x1_0000) && e[2..] == PutUint16(v % 0x1_0000);
    if |b| == 4 {
      var hi := Uint16(b[..2]);
      var lo := Uint16(b[2..]);
      assert Uint32(b) / 0x1_0000 == hi && Uint32(b) % 0x1_0000 == lo;
      Uint16RoundTrip(0, b[..2]);
      Uint16RoundTrip(0, b[2..]);
      assert b == b[..2] + b[2..];
    }
  }

  /** The eight bytes `WriteBytes` puts at the front of a buffer. */
  function EncodeHeader(h: StreamFrameHeader): (r: seq<byte>)
    ensures |r| == StreamFrameHeaderLen
  {
    PutUint32(h.len) + PutUint16(h.msgType) + PutUint16(h.flags)
  }

  /**
   * `(*StreamFrameHeader).WriteBytes`: encodes the header big-endian into the
   * first eight bytes of `b`, or fails without touching `b` when it is shorter.
   */
  method WriteBytes(h: StreamFrameHeader, b: array<byte>) returns (err: Option<FrameError>)
    modifies b
    ensures b.Length < StreamFrameHeaderLen ==> err == Some(NoRoomForHeader) && b[..] == old(b[..])
    ensures b.Length >= StreamFrameHeaderLen ==>
      && err == None
      && b[..StreamFrameHeaderLen] == EncodeHeader(h)
      && b[StreamFrameHeaderLen..] == old(b[StreamFrameHeaderLen..])
  {
    if b.Length < StreamFrameHeaderLen {
      return Some(NoRoomForHeader);
    }
    var enc := EncodeHeader(h);
    var i := 0;
    while i < StreamFrameHeaderLen
      invariant 0 <= i <= StreamFrameHeaderLen
      invariant b[..i] == enc[..i]
      invariant b[StreamFrameHeaderLen..] == old(b[StreamFrameHeaderLen..])
    {
      b[i] := enc[i];
      i := i + 1;
    }
    return None;
  }

  /**
   * `(*StreamFrameHeader).ReadBytes`: decodes the header from the first eight
   * bytes. On failure the caller's header is left as it was.
   */
  function ReadBytes(b: seq<byte>): (r: Result<StreamFrameHeader, FrameError>)
    ensures |b| < StreamFrameHeaderLen <==> r == Failure(NotEnoughBytes)
    ensures r.Success? ==> EncodeHeader(r.value) == b[..StreamFrameHeaderLen]
  {
    if |b| < StreamFrameHeaderLen then Failure(NotEnoughBytes)
    else
      var h := StreamFrameHeader(Uint32(b[0..4]), Uint16(b[4..6]), Uint16(b[6..8]));
      Uint32RoundTrip(0, b[0..4]);
      Uint16RoundTrip(0, b[4..6]);
      Uint16RoundTrip(0, b[6..8]);
      assert b[..8] == b[0..4] + b[4..6] + b[6..8];
      Success(h)
  }

  /** Reading back a written header gives the same header, whatever follows it. */
  lemma ReadWriteRoundTrip(h: StreamFrameHeader, rest: seq<byte>)
    ensures ReadBytes(EncodeHeader(h) + rest) == Success(h)
  {
    var b := EncodeHeader(h) + rest;
    Uint32RoundTrip(h.len, []);
    Uint16RoundTrip(h.msgType, []);
    Uint16RoundTrip(h.flags, []);
    assert b[0..4] == PutUint32(h.len);
    assert b[4..6] == PutUint16(h.msgType);
    assert b[6..8] == PutUint16(h.flags);
  }
}

=== FILE: to_filter.dfy ===
// The UI template helper that turns a list of selected values into a filter
// expression, one clause per value, joined with ` AND `.

module ToFilter {
  import opened Wrappers
  import opened Strings

  /** An entry of `attrs.map`: a prefix and the clause template it selects. */
  type Entry = (string, string)

  /** `convert` reads `replacement[0]` of an undefined `replacement` and throws. */
  datatype ConvertError = NoReplacement(value: string)

  /** `Array.prototype.find` from position `from`: the first entry whose key is a prefix of `str`. */
  function FindPrefix(str: string, m: seq<Entry>, from: nat): (r: Option<nat>)
    requires from <= |m|
    ensures r.Some? ==> from <= r.value < |m| && StartsWith(str, m[r.value].0)
    ensures r.Some? ==> forall j :: from <= j < r.value ==> !StartsWith(str, m[j].0)
    ensures r.None? <==> forall j :: from <= j < |m| ==> !StartsWith(str, m[j].0)
    decreases |m| - from
  {
    if from == |m| then None
    else if StartsWith(str, m[from].0) then Some(from)
    else FindPrefix(str, m, from + 1)
  }

  /** `pat` occurs at `i` and nowhere before it. */
  ghost predicate FirstOccurrence(s: string, pat: string, i: int)
  {
    OccursAt(s, pat, i) && forall j :: 0 <= j < i ==> !OccursAt(s, pat, j)
  }

  /** `String.prototype.replace` with a string pattern: only the first occurrence is replaced. */
  function ReplaceFirst(s: string, pat: string, rep: string): (r: string)
    ensures !Contains(s, pat) ==> r == s
    ensures Contains(s, pat) ==> |r| == |s| - |pat| + |rep|
    ensures Contains(s, pat) ==> exists i :: FirstOccurrence(s, pat, i) && r == s[..i] + rep + s[i + |pat|..]
  {
    IndexOfMissing(s, pat);
    IndexOfEarliest(s, pat);
    var i := IndexOf(s, pat);
    if i == -1 then s else s[..i] + rep + s[i + |pat|..]
  }

  /** The clause for remainder `rem`: the first `%s` gets `rem`, then the first `%S` gets `ucfirst(rem)`. */
  function Fill(template: string, rem: string, ucfirst: string -> string): (r: string)
  {
    ReplaceFirst(ReplaceFirst(template, "%s", rem), "%S", ucfirst(rem))
  }

  /**
   * `convert`: the first entry whose key starts `str` selects the template,
   * and `str` without that key fills it. Replacing the key's first
   * occurrence removes the prefix, since the key starts `str`.
   */
  function Convert(str: string, m: seq<Entry>, ucfirst: string -> string): (r: Result<string, ConvertError>)
    ensures r.Failure? <==> forall j :: 0 <= j < |m| ==> !StartsWith(str, m[j].0)
    ensures r.Failure? ==> r.error == NoReplacement(str)
  {
    match FindPrefix(str, m, 0)
    case None => Failure(NoReplacement(str))
    case Some(i) => Success(Fill(m[i].1, RemovePrefix(str, m[i].0), ucfirst))
  }

  /** `str.replace(key, '')` for a key that starts `str`. */
  function RemovePrefix(str: string, key: string): (r: string)
    requires StartsWith(str, key)
    ensures key + r == str
  {
    if key == "" then str
    else
      assert OccursAt(str, key, 0);
      IndexOfFromFinds(str, key, 0, 0);
      str[|key|..]
  }

  /** The entry `convert` uses is the first one whose key is a prefix, and the key plus the remainder is `str`. */
  lemma ConvertUsesFirstMatch(str: string, m: seq<Entry>, ucfirst: string -> string, i: nat)
    requires i < |m| && StartsWith(str, m[i].0)
    requires forall j :: 0 <= j < i ==> !StartsWith(str, m[j].0)
    ensures Convert(str, m, ucfirst) == Success(Fill(m[i].1, str[|m[i].0|..], ucfirst))
  {
    var f := FindPrefix(str, m, 0);
    assert f.Some?;
    assert !(f.value < i) && !(i < f.value);
    assert RemovePrefix(str, m[i].0) == str[|m[i].0|..];
  }

  /** `values.map(convert)`: every value converted on its own; the first failure aborts the map. */
  function ConvertAll(values: seq<string>, m: seq<Entry>, ucfirst: string -> string): (r: Result<seq<string>, ConvertError>)
    ensures r.Success? <==> forall i :: 0 <= i < |values| ==> Convert(values[i], m, ucfirst).Success?
    ensures r.Success? ==> |r.value| == |values|
    ensures r.Success? ==> forall i :: 0 <= i < |values| ==> r.value[i] == Convert(values[i], m, ucfirst).value
    ensures r.Failure? ==> exists i :: 0 <= i < |values| && Convert(values[i], m, ucfirst) == Failure(r.error)
  {
    if |values| == 0 then Success([])
    else
      match Convert(values[0], m, ucfirst)
      case Failure(e) => Failure(e)
      case Success(c) =>
        match ConvertAll(values[1..], m, ucfirst)
        case Failure(e) => Failure(e)
        case Success(cs) => Success([c] + cs)
  }

  /** `toFilter`: the converted values joined with ` AND `. */
  function ToFilter(values: seq<string>, m: seq<Entry>, ucfirst: string -> string): (r: Result<string, ConvertError>)
    ensures r.Success? <==> forall i :: 0 <= i < |values| ==> Convert(values[i], m, ucfirst).Success?
  {
    match ConvertAll(values, m, ucfirst)
    case Failure(e) => Failure(e)
    case Success(cs) => Success(Join(cs, " AND "))
  }

  /** No values give the empty filter. */
  lemma ToFilterEmpty(m: seq<Entry>, ucfirst: string -> string)
    ensures ToFilter([], m, ucfirst) == Success("")
  {
  }

  /** A single value gives its own clause. */
  lemma ToFilterSingle(v: string, m: seq<Entry>, ucfirst: string -> string)
    requires Convert(v, m, ucfirst).Success?
    ensures ToFilter([v], m, ucfirst) == Success(Convert(v, m, ucfirst).value)
  {
  }

  /** One more value adds ` AND ` and its clause after the clauses of the others. */
  lemma ToFilterSnoc(values: seq<string>, v: string, m: seq<Entry>, ucfirst: string -> string)
    requires |values| >= 1 && ToFilter(values, m, ucfirst).Success? && Convert(v, m, ucfirst).Success?
    ensures ToFilter(values + [v], m, ucfirst) ==
      Success(ToFilter(values, m, ucfirst).value + " AND " + Convert(v, m, ucfirst).value)
  {
    var w, c := values + [v], Convert(v, m, ucfirst).value;
    var cs := ConvertAll(values, m, ucfirst).value;
    forall i | 0 <= i < |w| ensures Convert(w[i], m, ucfirst).Success? {
      if i < |values| {
        assert w[i] == values[i];
      }
    }
    var cs' := ConvertAll(w, m, ucfirst).value;
    forall i | 0 <= i < |cs'| ensures cs'[i] == (cs + [c])[i] {
      if i < |values| {
        assert w[i] == values[i];
      }
    }
    assert cs' == cs + [c];
    JoinSnoc(cs, Convert(v, m, ucfirst).value, " AND ");
  }
}

=== FILE: token_persisted.dfy ===
// The token package's persisted store: a token store that loads the tokens
// file when it is created and saves the API-set tokens after each change,
// both only when persistence is enabled.

module TokenPersisted {
  import opened Wrappers
  import opened Tokens

  datatype Config = Config(
    enablePersistence: bool,
    dataDir: string,
    aclToken: string,
    aclAgentToken: string,
    aclAgentMasterToken: string,
    aclReplicationToken: string)

  function Configured(cfg: Config): (r: ConfiguredTokens)
    ensures r.defaultToken == cfg.aclToken && r.replication == cfg.aclReplicationToken
  {
    ConfiguredTokens(cfg.aclToken, cfg.aclAgentToken, cfg.aclAgentMasterToken, cfg.aclReplicationToken)
  }

  /** `loadFromFile`: with persistence disabled nothing is read; otherwise the file's tokens and error. */
  function LoadFromFile(cfg: Config, file: TokensFile): (r: (PersistedTokens, Option<PersistError>))
    ensures !cfg.enablePersistence ==> r == (NoTokens, None)
    ensures cfg.enablePersistence ==> r == ReadTokensFile(file)
  {
    if !cfg.enablePersistence then (NoTokens, None) else ReadTokensFile(file)
  }

  /** `PersistedStore`: the embedded store, the configuration and the tokens file under the data directory. */
  class PersistedStore {
    const store: Store
    const cfg: Config
    var file: TokensFile

    constructor(cfg: Config, file: TokensFile)
      ensures this.cfg == cfg && this.file == file && fresh(store)
      ensures store.Current() == Slots(Slot("", TokenSourceConfig), Slot("", TokenSourceConfig), Slot("", TokenSourceConfig), Slot("", TokenSourceConfig))
    {
      this.store := new Store();
      this.cfg := cfg;
      this.file := file;
    }

    /** `saveToFile`: the API-set tokens replace the file unless the atomic write fails. */
    method SaveToFile(writeFails: bool) returns (err: Option<PersistError>)
      modifies this
      ensures writeFails ==> err == Some(WriteFailed) && file == old(file)
      ensures !writeFails ==> err == None && file == Stored(Persistable(store.Current()))
    {
      var tokens := store.ToPersist();
      if writeFails {
        return Some(WriteFailed);
      }
      file := Stored(tokens);
      err := None;
    }

    /**
     * `WithPersistenceLock`: `fErr` is what the callback returned after
     * changing the store. Without persistence that is the result and nothing
     * is saved; with it, a callback error is returned and otherwise the store
     * is saved.
     */
    method WithPersistenceLock(fErr: Option<string>, writeFails: bool) returns (err: Option<PersistError>)
      modifies this
      ensures !cfg.enablePersistence || fErr.Some? ==>
        err == (if fErr.Some? then Some(FromCallback(fErr.value)) else None) && file == old(file)
      ensures cfg.enablePersistence && fErr.None? && writeFails ==> err == Some(WriteFailed) && file == old(file)
      ensures cfg.enablePersistence && fErr.None? && !writeFails ==>
        err == None && file == Stored(Persistable(store.Current()))
    {
      if !cfg.enablePersistence || fErr.Some? {
        return if fErr.Some? then Some(FromCallback(fErr.value)) else None;
      }
      err := SaveToFile(writeFails);
    }
  }

  /**
   * `NewPersistenceStore`: a new store loaded from the file, the persisted
   * tokens taking precedence; a load error is returned alongside the store.
   */
  method NewPersistenceStore(cfg: Config, file: TokensFile) returns (p: PersistedStore, err: Option<PersistError>)
    ensures fresh(p) && fresh(p.store) && p.cfg == cfg && p.file == file
    ensures err == LoadFromFile(cfg, file).1
    ensures p.store.Current() == Loaded(LoadFromFile(cfg, file).0, Configured(cfg))
  {
    p := new PersistedStore(cfg, file);
    var (tokens, e) := LoadFromFile(cfg, file);
    p.store.LoadSlots(tokens, Configured(cfg));
    err := e;
  }

  /** With persistence disabled, a new store holds exactly the configured tokens. */
  lemma DisabledUsesConfig(cfg: Config, file: TokensFile)
    requires !cfg.enablePersistence
    ensures Loaded(LoadFromFile(cfg, file).0, Configured(cfg)) ==
      Slots(Slot(cfg.aclToken, TokenSourceConfig), Slot(cfg.aclAgentToken, TokenSourceConfig),
            Slot(cfg.aclAgentMasterToken, TokenSourceConfig), Slot(cfg.aclReplicationToken, TokenSourceConfig))
  {
    LoadNothing(Configured(cfg));
  }
}

=== FILE: token_persistence.dfy ===
// The token package's file-backed persistence: loading the tokens file into
// the store at start, and saving the API-set tokens after each change.

module TokenPersistence {
  import opened Wrappers
  import opened Tokens

  /** The configured tokens this copy of the rule reads. */
  datatype Config = Config(aclDefaultToken: string, aclAgentToken: string, aclAgentMasterToken: string, aclReplicationToken: string)

  function Configured(cfg: Config): (r: ConfiguredTokens)
    ensures r.defaultToken == cfg.aclDefaultToken && r.replication == cfg.aclReplicationToken
  {
    ConfiguredTokens(cfg.aclDefaultToken, cfg.aclAgentToken, cfg.aclAgentMasterToken, cfg.aclReplicationToken)
  }

  /** `loadTokens`: each slot takes the persisted token when there is one, the configured one otherwise. */
  method LoadTokens(s: Store, cfg: Config, tokens: PersistedTokens)
    modifies s
    ensures s.Current() == Loaded(tokens, Configured(cfg))
  {
    s.LoadSlots(tokens, Configured(cfg));
  }

  /** `fileStore`: `file` is what the tokens file at `filename` currently holds. */
  class FileStore {
    var file: TokensFile

    constructor(file: TokensFile)
      ensures this.file == file
    {
      this.file := file;
    }

    /**
     * `load`: whatever reading the file gives is loaded, even alongside a
     * read or decode error, which is returned.
     */
    method Load(s: Store, cfg: Config) returns (err: Option<PersistError>)
      modifies s
      ensures err == ReadTokensFile(file).1
      ensures s.Current() == Loaded(ReadTokensFile(file).0, Configured(cfg))
    {
      var (tokens, e) := ReadTokensFile(file);
      LoadTokens(s, cfg, tokens);
      err := e;
    }

    /**
     * `saveToFile`: the API-set tokens replace the file; a failed atomic
     * write leaves it as it was.
     */
    method SaveToFile(s: Store, writeFails: bool) returns (err: Option<PersistError>)
      modifies this
      ensures writeFails ==> err == Some(WriteFailed) && file == old(file)
      ensures !writeFails ==> err == None && file == Stored(Persistable(s.Current()))
    {
      var tokens := s.ToPersist();
      if writeFails {
        return Some(WriteFailed);
      }
      file := Stored(tokens);
      err := None;
    }

    /**
     * `withPersistenceLock`: `fErr` is what the callback returned after
     * changing the store. Its error is returned and nothing is saved;
     * otherwise the store is saved.
     */
    method WithPersistenceLock(s: Store, fErr: Option<string>, writeFails: bool) returns (err: Option<PersistError>)
      modifies this
      ensures fErr.Some? ==> err == Some(FromCallback(fErr.value)) && file == old(file)
      ensures fErr.None? && writeFails ==> err == Some(WriteFailed) && file == old(file)
      ensures fErr.None? && !writeFails ==> err == None && file == Stored(Persistable(s.Current()))
    {
      if fErr.Some? {
        return Some(FromCallback(fErr.value));
      }
      err := SaveToFile(s, writeFails);
    }
  }
}

=== FILE: token_store.dfy ===
// The four ACL token slots of the agent's token store, and the rule shared
// by the three places that persist them: a token set through the API is
// saved to the tokens file, and a saved token takes precedence over the
// configured one when the agent starts.

module Tokens {
  import opened Wrappers

  /** Where a token came from: the configuration, or the API (which persists it). */
  datatype TokenSource = TokenSourceConfig | TokenSourceAPI

  datatype Slot = Slot(token: string, source: TokenSource)

  /** The four slots, as one value. */
  datatype Slots = Slots(user: Slot, agent: Slot, agentMaster: Slot, replication: Slot)

  /** `persistedTokens`: an empty string is a token that is not saved. */
  datatype PersistedTokens = PersistedTokens(replication: string, agentMaster: string, defaultToken: string, agent: string)

  const NoTokens := PersistedTokens("", "", "", "")

  /** The four configured tokens, whatever the configuration calls them. */
  datatype ConfiguredTokens = ConfiguredTokens(defaultToken: string, agent: string, agentMaster: string, replication: string)

  /**
   * The tokens file, in terms of what reading it gives: there is none, it
   * cannot be read, it does not decode (`partial` is what was decoded before
   * the error), or it decodes to `tokens`.
   */
  datatype TokensFile = Missing | Unreadable | Undecodable(partial: PersistedTokens) | Stored(tokens: PersistedTokens)

  datatype PersistError = ReadFailed | DecodeFailed | WriteFailed | FromCallback(message: string)

  /**
   * Reading the tokens file: a missing file is no tokens and no error; an
   * unreadable one is no tokens and an error; an undecodable one is what
   * was decoded and an error.
   */
  function ReadTokensFile(file: TokensFile): (r: (PersistedTokens, Option<PersistError>))
    ensures r.1.None? <==> file.Missing? || file.Stored?
    ensures file.Stored? ==> r.0 == file.tokens
    ensures file.Missing? || file.Unreadable? ==> r.0 == NoTokens
  {
    match file
    case Missing => (NoTokens, None)
    case Unreadable => (NoTokens, Some(ReadFailed))
    case Undecodable(partial) => (partial, Some(DecodeFailed))
    case Stored(tokens) => (tokens, None)
  }

  /** A slot at load time: the persisted token when there is one, set as if through the API; else the configured one. */
  function Pick(persisted: string, configured: string): (r: Slot)
    ensures persisted != "" ==> r == Slot(persisted, TokenSourceAPI)
    ensures persisted == "" ==> r == Slot(configured, TokenSourceConfig)
  {
    if persisted != "" then Slot(persisted, TokenSourceAPI) else Slot(configured, TokenSourceConfig)
  }

  /** The token a slot saves: only a non-empty token set through the API. */
  function Saved(s: Slot): (r: string)
    ensures r != "" <==> s.token != "" && s.source == TokenSourceAPI
    ensures r != "" ==> r == s.token
  {
    if s.token != "" && s.source == TokenSourceAPI then s.token else ""
  }

  /** The slots after loading `tokens` over the configured ones. */
  function Loaded(tokens: PersistedTokens, cfg: ConfiguredTokens): (r: Slots)
  {
    Slots(Pick(tokens.defaultToken, cfg.defaultToken), Pick(tokens.agent, cfg.agent),
          Pick(tokens.agentMaster, cfg.agentMaster), Pick(tokens.replication, cfg.replication))
  }

  /** The record `saveToFile` builds from the slots. */
  function Persistable(s: Slots): (r: PersistedTokens)
  {
    PersistedTokens(Saved(s.replication), Saved(s.agentMaster), Saved(s.user), Saved(s.agent))
  }

  /** Saving right after loading writes back exactly the tokens that were loaded, whatever the configuration. */
  lemma SaveAfterLoad(tokens: PersistedTokens, cfg: ConfiguredTokens)
    ensures Persistable(Loaded(tokens, cfg)) == tokens
  {
  }

  /** Loading what was saved restores every API token and falls back to the configuration for the rest. */
  lemma LoadAfterSave(s: Slots, cfg: ConfiguredTokens)
    ensures var r := Loaded(Persistable(s), cfg);
      (r.user == if s.user.token != "" && s.user.source == TokenSourceAPI then s.user else Slot(cfg.defaultToken, TokenSourceConfig)) &&
      (r.agent == if s.agent.token != "" && s.agent.source == TokenSourceAPI then s.agent else Slot(cfg.agent, TokenSourceConfig)) &&
      (r.agentMaster == if s.agentMaster.token != "" && s.agentMaster.source == TokenSourceAPI then s.agentMaster else Slot(cfg.agentMaster, TokenSourceConfig)) &&
      (r.replication == if s.replication.token != "" && s.replication.source == TokenSourceAPI then s.replication else Slot(cfg.replication, TokenSourceConfig))
  {
  }

  /** With no tokens saved, loading gives the configuration exactly. */
  lemma LoadNothing(cfg: ConfiguredTokens)
    ensures Loaded(NoTokens, cfg) ==
      Slots(Slot(cfg.defaultToken, TokenSourceConfig), Slot(cfg.agent, TokenSourceConfig), Slot(cfg.agentMaster, TokenSourceConfig), Slot(cfg.replication, TokenSourceConfig))
  {
  }

  /**
   * The token store's four slots. The store's other state (notification
   * and enterprise tokens) is not part of this model.
   */
  class Store {
    var user: Slot
    var agent: Slot
    var agentMaster: Slot
    var replication: Slot

    function Current(): (r: Slots)
      reads this
    {
      Slots(user, agent, agentMaster, replication)
    }

    /** An empty store: every slot holds the empty token from the configuration. */
    constructor()
      ensures Current() == Slots(Slot("", TokenSourceConfig), Slot("", TokenSourceConfig), Slot("", TokenSourceConfig), Slot("", TokenSourceConfig))
    {
      user, agent, agentMaster, replication := Slot("", TokenSourceConfig), Slot("", TokenSourceConfig), Slot("", TokenSourceConfig), Slot("", TokenSourceConfig);
    }

    method UpdateUserToken(token: string, source: TokenSource)
      modifies this
      ensures Current() == old(Current()).(user := Slot(token, source))
    {
      user := Slot(token, source);
    }

    method UpdateAgentToken(token: string, source: TokenSource)
      modifies this
      ensures Current() == old(Current()).(agent := Slot(token, source))
    {
      agent := Slot(token, source);
    }

    method UpdateAgentMasterToken(token: string, source: TokenSource)
      modifies this
      ensures Current() == old(Current()).(agentMaster := Slot(token, source))
    {
      agentMaster := Slot(token, source);
    }

    method UpdateReplicationToken(token: string, source: TokenSource)
      modifies this
      ensures Current() == old(Current()).(replication := Slot(token, source))
    {
      replication := Slot(token, source);
    }

    /**
     * The precedence rule every loader applies, slot by slot: a persisted
     * token is set as if through the API, otherwise the configured one.
     */
    method LoadSlots(tokens: PersistedTokens, cfg: ConfiguredTokens)
      modifies this
      ensures Current() == Loaded(tokens, cfg)
    {
      if tokens.defaultToken != "" {
        UpdateUserToken(tokens.defaultToken, TokenSourceAPI);
      } else {
        UpdateUserToken(cfg.defaultToken, TokenSourceConfig);
      }
      if tokens.agent != "" {
        UpdateAgentToken(tokens.agent, TokenSourceAPI);
      } else {
        UpdateAgentToken(cfg.agent, TokenSourceConfig);
      }
      if tokens.agentMaster != "" {
        UpdateAgentMasterToken(tokens.agentMaster, TokenSourceAPI);
      } else {
        UpdateAgentMasterToken(cfg.agentMaster, TokenSourceConfig);
      }
      if tokens.replication != "" {
        UpdateReplicationToken(tokens.replication, TokenSourceAPI);
      } else {
        UpdateReplicationToken(cfg.replication, TokenSourceConfig);
      }
    }

    /** The record to persist, built field by field from the API-set tokens. */
    method ToPersist() returns (tokens: PersistedTokens)
      ensures tokens == Persistable(Current())
    {
      tokens := NoTokens;
      if user.token != "" && user.source == TokenSourceAPI {
        tokens := tokens.(defaultToken := user.token);
      }
      if agent.token != "" && agent.source == TokenSourceAPI {
        tokens := tokens.(agent := agent.token);
      }
      if agentMaster.token != "" && agentMaster.source == TokenSourceAPI {
        tokens := tokens.(agentMaster := agentMaster.token);
      }
      if replication.token != "" && replication.source == TokenSourceAPI {
        tokens := tokens.(replication := replication.token);
      }
    }
  }
}

=== FILE: xds_shared.dfy ===
// What the serverless patchers share: the resources an xDS response is built
// from, indexed by type and name; the configuration gathered from a proxy's
// snapshot for them; and the loop that rewrites every resource of one type.

module XdsShared {
  import opened Wrappers
  import opened Strings

  // ---------------------------------------------------------------------
  // Resource types and resources

  const ApiTypePrefix: string := "type.googleapis.com/"
  const EndpointType: string := ApiTypePrefix + "envoy.config.endpoint.v3.ClusterLoadAssignment"
  const ClusterType: string := ApiTypePrefix + "envoy.config.cluster.v3.Cluster"
  const RouteType: string := ApiTypePrefix + "envoy.config.route.v3.RouteConfiguration"
  const ListenerType: string := ApiTypePrefix + "envoy.config.listener.v3.Listener"

  /** The four type URLs are different keys. */
  lemma TypeUrlsDistinct()
    ensures ListenerType != RouteType && ListenerType != ClusterType && ListenerType != EndpointType
    ensures RouteType != ClusterType && RouteType != EndpointType && ClusterType != EndpointType
  {
    assert |ListenerType| == 53 && |ClusterType| == 51 && |RouteType| == 60 && |EndpointType| == 66;
  }

  /** The kinds of service a snapshot can be for; `Typical` is the empty kind. */
  datatype ServiceKind = Typical | ConnectProxy | MeshGateway | TerminatingGateway | IngressGateway

  /** An Envoy filter; `typedConfig == None` is a filter without a typed configuration. */
  datatype Filter = Filter(name: string, typedConfig: Option<string>)

  datatype FilterChainMatch = FilterChainMatch(serverNames: seq<string>)

  /** A filter chain; `filterChainMatch == None` is a nil match. */
  datatype FilterChain = FilterChain(filterChainMatch: Option<FilterChainMatch>, filters: seq<Filter>)

  datatype Listener = Listener(name: string, filterChains: seq<FilterChain>)

  /** A cluster; what the patchers do not read is its `config`. */
  datatype Cluster = Cluster(name: string, config: string)

  /** A resource in the index: a listener, a cluster, or a message of another type. */
  datatype Message = ListenerMsg(listener: Listener) | ClusterMsg(cluster: Cluster) | OtherMsg(typeUrl: string, body: string)

  /** `getSni`: the chain's first server name, or "" for a nil chain, a nil match or no server names. */
  function GetSni(chain: Option<FilterChain>): (r: string)
    ensures chain.None? || chain.value.filterChainMatch.None? || |chain.value.filterChainMatch.value.serverNames| == 0 ==> r == ""
    ensures chain.Some? && chain.value.filterChainMatch.Some? && |chain.value.filterChainMatch.value.serverNames| > 0 ==>
      r == chain.value.filterChainMatch.value.serverNames[0]
  {
    if chain.None? then ""
    else if chain.value.filterChainMatch.None? then ""
    else if |chain.value.filterChainMatch.value.serverNames| == 0 then ""
    else chain.value.filterChainMatch.value.serverNames[0]
  }

  /**
   * The service a connect proxy's listener is for: the listener name up to
   * its first `:`, or "" when it has none.
   */
  function ListenerServiceName(name: string): (r: string)
    ensures ':' !in name ==> r == ""
    ensures ':' in name ==> |r| < |name| && name[..|r|] == r && name[|r|] == ':'
    ensures ':' !in r
  {
    IndexOfMissing(name, ":");
    ContainsChar(name, ':');
    IndexOfFirst(name, ':');
    var i := IndexOf(name, ":");
    if i == -1 then "" else name[..i]
  }

  /**
   * `IndexedResources`: resources by type URL and name, and the names of the
   * children of a resource by type URL and parent name.
   */
  class IndexedResources {
    var index: map<string, map<string, Message>>
    var childIndex: map<string, map<string, seq<string>>>

    constructor(index: map<string, map<string, Message>>, childIndex: map<string, map<string, seq<string>>>)
      ensures this.index == index && this.childIndex == childIndex
    {
      this.index, this.childIndex := index, childIndex;
    }
  }

  /** The index of `EmptyIndexedResources`: an empty map for each of the four types, and nothing else. */
  function EmptyIndex(): (r: map<string, map<string, Message>>)
    ensures r.Keys == {ListenerType, RouteType, ClusterType, EndpointType}
    ensures forall t :: t in r ==> r[t] == map[]
  {
    map[ListenerType := map[], RouteType := map[], ClusterType := map[], EndpointType := map[]]
  }

  /** The child index of `EmptyIndexedResources`: an empty map for listeners and for clusters, and nothing else. */
  function EmptyChildIndex(): (r: map<string, map<string, seq<string>>>)
    ensures r.Keys == {ListenerType, ClusterType}
    ensures forall t :: t in r ==> r[t] == map[]
  {
    map[ListenerType := map[], ClusterType := map[]]
  }

  /** `EmptyIndexedResources`. */
  method EmptyIndexedResources() returns (r: IndexedResources)
    ensures fresh(r) && r.index == EmptyIndex() && r.childIndex == EmptyChildIndex()
  {
    r := new IndexedResources(EmptyIndex(), EmptyChildIndex());
  }

  /** `index[t]`: a type with no map reads as the empty (nil) map. */
  function Sub(index: map<string, map<string, Message>>, t: string): (r: map<string, Message>)
    ensures t in index ==> r == index[t]
    ensures t !in index ==> r == map[]
  {
    Lookup(index, t, map[])
  }

  // ---------------------------------------------------------------------
  // Rewriting every resource of one type

  /** A completed pass: every entry was rewritten by `f`, none failed, and no name was added or removed. */
  ghost predicate RewroteAll<C>(before: map<string, Message>, after: map<string, Message>, f: (C, string, Message) -> Result<Message, string>, ctx: C)
  {
    after.Keys == before.Keys &&
    forall k :: k in before ==> f(ctx, k, before[k]).Success? && after[k] == f(ctx, k, before[k]).value
  }

  /**
   * An aborted pass: every entry is as it was, or rewritten by `f`, or one
   * `f` fails on and that holds what the failed step left in place, `left`.
   */
  ghost predicate RewroteSome<C>(before: map<string, Message>, after: map<string, Message>, f: (C, string, Message) -> Result<Message, string>, left: (C, string, Message) -> Message, ctx: C)
  {
    after.Keys == before.Keys &&
    forall k :: k in before ==>
      after[k] == before[k] ||
      (f(ctx, k, before[k]).Success? && after[k] == f(ctx, k, before[k]).value) ||
      (f(ctx, k, before[k]).Failure? && after[k] == left(ctx, k, before[k]))
  }

  /** What a step that rewrites nothing before it fails leaves behind: the entry itself. */
  function Kept<C>(ctx: C, name: string, msg: Message): (r: Message)
    ensures r == msg
  {
    msg
  }

  /** Every entry of `before` is one that `f` rewrites without failing. */
  ghost predicate StepsSucceed<C>(before: map<string, Message>, f: (C, string, Message) -> Result<Message, string>, ctx: C)
  {
    forall k :: k in before ==> f(ctx, k, before[k]).Success?
  }

  /**
   * `e` is the error `f` fails with on some entry of `before`, and that
   * entry now holds what the failed step left in place, `left`.
   */
  ghost predicate FailsWith<C>(before: map<string, Message>, after: map<string, Message>, f: (C, string, Message) -> Result<Message, string>, left: (C, string, Message) -> Message, ctx: C, e: string)
  {
    exists k :: k in before && k in after && f(ctx, k, before[k]) == Failure(e) && after[k] == left(ctx, k, before[k])
  }

  /** No type but those of `passes` changed, and no type was added or removed. */
  ghost predicate OthersKept(before: map<string, map<string, Message>>, after: map<string, map<string, Message>>, passes: set<string>)
  {
    after.Keys == before.Keys && forall t :: t in before && t !in passes ==> after[t] == before[t]
  }

  /**
   * One `for name, msg := range resources.Index[t]` loop: each entry, in an
   * order the map chooses, is replaced by what `f` makes of it, and the
   * first failure ends the loop with its error; the failing entry then
   * holds what `left` says the step had already changed of it in place.
   * Only `index[t]` changes.
   */
  method RewriteEach<C>(res: IndexedResources, t: string, f: (C, string, Message) -> Result<Message, string>, left: (C, string, Message) -> Message, ctx: C) returns (err: Option<string>)
    modifies res
    ensures res.childIndex == old(res.childIndex)
    ensures t !in old(res.index) ==> res.index == old(res.index) && err.None?
    ensures t in old(res.index) ==> t in res.index && res.index == old(res.index)[t := res.index[t]]
    ensures OthersKept(old(res.index), res.index, {t})
    ensures forall u :: u != t ==> Sub(res.index, u) == Sub(old(res.index), u)
    ensures err.None? <==> forall k :: k in Sub(old(res.index), t) ==> f(ctx, k, Sub(old(res.index), t)[k]).Success?
    ensures err.None? ==> RewroteAll(Sub(old(res.index), t), Sub(res.index, t), f, ctx)
    ensures err.Some? ==> RewroteSome(Sub(old(res.index), t), Sub(res.index, t), f, left, ctx)
    ensures err.Some? ==> FailsWith(Sub(old(res.index), t), Sub(res.index, t), f, left, ctx, err.value)
  {
    if t !in res.index {
      return None;
    }
    var before := res.index[t];
    var after := before;
    var todo := before.Keys;
    while todo != {}
      invariant todo <= before.Keys && after.Keys == before.Keys
      invariant forall k :: k in todo ==> after[k] == before[k]
      invariant forall k :: k in before && k !in todo ==> f(ctx, k, before[k]).Success? && after[k] == f(ctx, k, before[k]).value
      invariant res.index == old(res.index) && res.childIndex == old(res.childIndex)
      decreases todo
    {
      var k :| k in todo;
      var r := f(ctx, k, before[k]);
      if r.Failure? {
        after := after[k := left(ctx, k, before[k])];
        res.index := res.index[t := after];
        assert Sub(old(res.index), t) == before && Sub(res.index, t) == after && k in before && k in after;
        return Some(r.error);
      }
      after := after[k := r.value];
      todo := todo - {k};
    }
    res.index := res.index[t := after];
    err := None;
  }

  // ---------------------------------------------------------------------
  // The configuration gathered from a snapshot

  type Meta = map<string, string>

  /**
   * A service's name, with the namespace and partition as
   * `NamespaceOrDefault` and `PartitionOrDefault` give them.
   */
  datatype ServiceName = ServiceName(name: string, namespace: string, partition: string)

  /** An upstream's identity: its name and whatever else tells two upstreams apart. */
  datatype UpstreamId = UpstreamId(name: string, identity: string)

  /**
   * The parts of a proxy's configuration snapshot the patchers read:
   * `roots == None` is nil roots, else their trust domain. Each watched
   * upstream lists the kinds of the service instances its endpoints
   * returned, in the order they are visited.
   */
  datatype ConfigSnapshot = ConfigSnapshot(
    kind: ServiceKind,
    datacenter: string,
    roots: Option<string>,
    gatewayServiceConfigs: map<ServiceName, Meta>,
    proxyServiceConfigs: map<ServiceName, Meta>,
    watchedUpstreamEndpoints: map<UpstreamId, seq<ServiceKind>>)

  datatype ServiceConfig = ServiceConfig(meta: Meta, kind: ServiceKind)

  datatype MutateConfiguration = MutateConfiguration(
    serviceConfigs: map<string, ServiceConfig>,
    sniToServiceName: map<string, string>,
    kind: ServiceKind,
    datacenter: string,
    trustDomain: string)

  /**
   * `connect.ServiceSNI` as these callers use it, with arguments service,
   * subset, namespace, partition, datacenter and trust domain. That
   * six-argument form is not part of this model, so it is a parameter.
   */
  type SniFn = (string, string, string, string, string, string) -> string

  /** The name a service is reached by: no subset, its namespace and partition, the datacenter and trust domain. */
  function ServiceSni(sni: SniFn, svc: ServiceName, dc: string, trustDomain: string): string
  {
    sni(svc.name, "", svc.namespace, svc.partition, dc, trustDomain)
  }

  /** The kind recorded for an upstream's instance: a typical service is reached through its connect proxy. */
  function Observed(k: ServiceKind): (r: ServiceKind)
    ensures r != Typical
    ensures k != Typical ==> r == k
  {
    if k == Typical then ConnectProxy else k
  }

  /** Some instance of an upstream called `name` was recorded as `k`. */
  ghost predicate ObservedAt(ups: map<UpstreamId, seq<ServiceKind>>, name: string, k: ServiceKind)
  {
    exists u, i :: u in ups && u.name == name && 0 <= i < |ups[u]| && k == Observed(ups[u][i])
  }

  /** Some upstream called `name` has an instance. */
  ghost predicate HasInstance(ups: map<UpstreamId, seq<ServiceKind>>, name: string)
  {
    exists u :: u in ups && u.name == name && |ups[u]| > 0
  }

  /**
   * The kinds loop: for every instance of every watched upstream, in the
   * order visited, the upstream's name is mapped to the instance's kind.
   * Exactly the names with an instance are mapped, each to a kind recorded
   * for one of its instances, never to `Typical`.
   */
  method ObserveKinds(ups: map<UpstreamId, seq<ServiceKind>>) returns (kinds: map<string, ServiceKind>)
    ensures forall n :: n in kinds <==> HasInstance(ups, n)
    ensures forall n :: n in kinds ==> ObservedAt(ups, n, kinds[n])
    ensures forall n :: n in kinds ==> kinds[n] != Typical
  {
    kinds := map[];
    var todo := ups.Keys;
    while todo != {}
      invariant todo <= ups.Keys
      invariant forall n :: n in kinds ==> ObservedAt(ups, n, kinds[n]) && kinds[n] != Typical
      invariant forall n :: n in kinds ==> exists u :: u in ups && u !in todo && u.name == n && |ups[u]| > 0
      invariant forall u :: u in ups && u !in todo && |ups[u]| > 0 ==> u.name in kinds
      decreases todo
    {
      var u :| u in todo;
      var nodes := ups[u];
      ghost var before := kinds;
      var i := 0;
      while i < |nodes|
        invariant 0 <= i <= |nodes|
        invariant kinds == if i == 0 then before else before[u.name := Observed(nodes[i - 1])]
      {
        kinds := kinds[u.name := Observed(nodes[i])];
        i := i + 1;
      }
      if |nodes| > 0 {
        assert ObservedAt(ups, u.name, Observed(nodes[|nodes| - 1])) by {
          assert u in ups && 0 <= |nodes| - 1 < |ups[u]|;
        }
      }
      todo := todo - {u};
    }
  }

  /** The kind a proxied service is reached through: the one recorded for it, or its connect proxy. */
  function ProxyKind(kinds: map<string, ServiceKind>, name: string): (r: ServiceKind)
    ensures r != Typical
    ensures name !in kinds ==> r == ConnectProxy
    ensures name in kinds && kinds[name] != Typical ==> r == kinds[name]
  {
    var k := Lookup(kinds, name, Typical);
    if k == Typical then ConnectProxy else k
  }

  /** The service configurations a pass over `services` made: one per name, each with a meta of a service of that name. */
  ghost predicate ConfigsFrom(services: map<ServiceName, Meta>, configs: map<string, ServiceConfig>)
  {
    configs.Keys == (set s | s in services :: s.name) &&
    forall n :: n in configs ==> exists s :: s in services && s.name == n && configs[n].meta == services[s]
  }

  /** The SNI mappings a pass over `services` made: each service's SNI names a service with that SNI. */
  ghost predicate SnisFrom(services: map<ServiceName, Meta>, snis: map<string, string>, sni: SniFn, dc: string, trustDomain: string)
  {
    snis.Keys == (set s | s in services :: ServiceSni(sni, s, dc, trustDomain)) &&
    forall x :: x in snis ==> exists s :: s in services && ServiceSni(sni, s, dc, trustDomain) == x && snis[x] == s.name
  }

  /**
   * The services loop of `MakeMutateConfiguration`: each service's meta is
   * recorded under its name with the kind it is reached through, and its SNI
   * is mapped back to its name.
   */
  method ServiceConfigsFor(services: map<ServiceName, Meta>, gateway: bool, kinds: map<string, ServiceKind>, sni: SniFn, dc: string, trustDomain: string)
    returns (configs: map<string, ServiceConfig>, snis: map<string, string>)
    ensures ConfigsFrom(services, configs) && SnisFrom(services, snis, sni, dc, trustDomain)
    ensures forall n :: n in configs ==> configs[n].kind == if gateway then TerminatingGateway else ProxyKind(kinds, n)
  {
    configs, snis := map[], map[];
    var todo := services.Keys;
    while todo != {}
      invariant todo <= services.Keys
      invariant configs.Keys == set s | s in services && s !in todo :: s.name
      invariant forall n :: n in configs ==> exists s :: s in services && s.name == n && configs[n].meta == services[s]
      invariant forall n :: n in configs ==> configs[n].kind == if gateway then TerminatingGateway else ProxyKind(kinds, n)
      invariant snis.Keys == set s | s in services && s !in todo :: ServiceSni(sni, s, dc, trustDomain)
      invariant forall x :: x in snis ==> exists s :: s in services && ServiceSni(sni, s, dc, trustDomain) == x && snis[x] == s.name
      decreases todo
    {
      var svc :| svc in todo;
      var kind := if gateway then TerminatingGateway else ProxyKind(kinds, svc.name);
      configs := configs[svc.name := ServiceConfig(services[svc], kind)];
      snis := snis[ServiceSni(sni, svc, dc, trustDomain) := svc.name];
      todo := todo - {svc};
    }
  }

  /**
   * `MakeMutateConfiguration`: a terminating gateway's services are all
   * reached through it; a connect proxy's through the kind recorded for
   * their upstream instances; any other kind of snapshot has no services.
   */
  method MakeMutateConfiguration(snap: ConfigSnapshot, sni: SniFn) returns (c: MutateConfiguration)
    ensures c.kind == snap.kind && c.datacenter == snap.datacenter
    ensures c.trustDomain == if snap.roots.Some? then snap.roots.value else ""
    ensures snap.kind == TerminatingGateway ==>
      ConfigsFrom(snap.gatewayServiceConfigs, c.serviceConfigs) &&
      SnisFrom(snap.gatewayServiceConfigs, c.sniToServiceName, sni, c.datacenter, c.trustDomain) &&
      forall n :: n in c.serviceConfigs ==> c.serviceConfigs[n].kind == TerminatingGateway
    ensures snap.kind == ConnectProxy ==>
      ConfigsFrom(snap.proxyServiceConfigs, c.serviceConfigs) &&
      SnisFrom(snap.proxyServiceConfigs, c.sniToServiceName, sni, c.datacenter, c.trustDomain)
    ensures snap.kind == ConnectProxy ==> forall n :: n in c.serviceConfigs && HasInstance(snap.watchedUpstreamEndpoints, n) ==>
      c.serviceConfigs[n].kind != Typical && ObservedAt(snap.watchedUpstreamEndpoints, n, c.serviceConfigs[n].kind)
    ensures snap.kind == ConnectProxy ==> forall n :: n in c.serviceConfigs && !HasInstance(snap.watchedUpstreamEndpoints, n) ==>
      c.serviceConfigs[n].kind == ConnectProxy
    ensures snap.kind != TerminatingGateway && snap.kind != ConnectProxy ==> c.serviceConfigs == map[] && c.sniToServiceName == map[]
  {
    var trustDomain := if snap.roots.Some? then snap.roots.value else "";
    var configs, snis := map[], map[];
    if snap.kind == TerminatingGateway {
      configs, snis := ServiceConfigsFor(snap.gatewayServiceConfigs, true, map[], sni, snap.datacenter, trustDomain);
    } else if snap.kind == ConnectProxy {
      var kinds := ObserveKinds(snap.watchedUpstreamEndpoints);
      configs, snis := ServiceConfigsFor(snap.proxyServiceConfigs, false, kinds, sni, snap.datacenter, trustDomain);
    }
    c := MutateConfiguration(configs, snis, snap.kind, snap.datacenter, trustDomain);
  }

  /** Every SNI mapping names a service that has a configuration. */
  lemma SnisNameConfiguredServices(services: map<ServiceName, Meta>, configs: map<string, ServiceConfig>, snis: map<string, string>, sni: SniFn, dc: string, trustDomain: string)
    requires ConfigsFrom(services, configs) && SnisFrom(services, snis, sni, dc, trustDomain)
    ensures forall x :: x in snis ==> snis[x] in configs
  {
    forall x | x in snis ensures snis[x] in configs {
      var s :| s in services && ServiceSni(sni, s, dc, trustDomain) == x && snis[x] == s.name;
    }
  }

  /** When no two services share an SNI, each service's SNI maps back to its own name. */
  lemma SniMapsBack(services: map<ServiceName, Meta>, snis: map<string, string>, sni: SniFn, dc: string, trustDomain: string, svc: ServiceName)
    requires SnisFrom(services, snis, sni, dc, trustDomain)
    requires forall a, b :: a in services && b in services && ServiceSni(sni, a, dc, trustDomain) == ServiceSni(sni, b, dc, trustDomain) ==> a == b
    requires svc in services
    ensures ServiceSni(sni, svc, dc, trustDomain) in snis && snis[ServiceSni(sni, svc, dc, trustDomain)] == svc.name
  {
    var x := ServiceSni(sni, svc, dc, trustDomain);
    assert x in snis;
    var s :| s in services && ServiceSni(sni, s, dc, trustDomain) == x && snis[x] == s.name;
  }
}
